=== FILE: README.md ===
# Merchandising adherence reports, modelled in Dafny

The repository sends a daily WhatsApp report on route adherence ("Aderência ao
Roteiro") to the merchandising leadership. On every day but Sunday:

- the run works out its reporting dates: yesterday, with Saturday standing in on
  a Monday, the month so far and the previous week;
- it reads the leaders of `dimAreaMerchan` and splits them into three lists:
  merchandising leaders, the board ("Diretoria") and area leaders;
- it asks SQL Server for the adherence figures: visits done against visits
  planned, as a percentage;
- it builds one message per recipient;
- it hands the list of messages to a sender that drives WhatsApp Web.

The Dafny project models four parts of this:

- the report helpers and the two message builders of report_builder.py;
- the planning half of `main` in main.py;
- the batch loop of whatsapp_sender.py;
- what the queries of merchan_queries.py compute, both as SQL text and as
  aggregates over visit records.

Modules, one per concern:

- `Wrappers`: `Option`.
- `Text`: strip, lower, digits, join, split, integer text.
- `Metric`: `AdherenceMetric`, `_safe_int`, `metric_from_row`, `scalar_metric`.
- `Format`: `fmt_pct`.
- `Phone`: `normalize_phone_to_e164`.
- `Sorting` and `AreaOrder`: a stable sort and `order_areas`.
- `Dicts`: the name-to-metric dictionaries.
- `Lines` and `Messages`: the message builders and their rendering.
- `Calendar` and `Period`: `datetime.date` as a day number, and the run's dates.
- `Planning`: main.py lines 98-296.
- `Dispatch`: `enviar_mensagens_lote`.
- `SqlText`: escaping, literal lists, the UNION parts.
- `Visits`: the query semantics over visit records.

An "acceptable phone" below is the test number when the test flag is set and
otherwise an empty or "+"-led number, as `normalize_phone_to_e164` returns it.

The model leaves these to its callers:

- The database is an oracle from the queries the area loop issues to the rows
  they return.
- `Visits.DbOf` builds such an oracle from visit tables and proves that it
  answers what the SQL computes, with area names compared exactly rather than
  with SQL Server's trailing-space padding (see "Visits.InArea" under Left out).
- The outcome of each WhatsApp send is an oracle indexed by item and message.
- Sleeps, prints and the keyboard interrupt appear as events of a trace.

## Model

| member | source | states |
|---|---|---|
| Metric.SafeInt | report_builder.py:18-22 | a missing or NULL value reads as 0, an integer as itself, text that `int()` would reject as 0 |
| Metric.Truncate | report_builder.py:18-20 | `int()` of a float truncates toward zero: the result lies within one of the value, on the zero side |
| Metric.SafeFloat | report_builder.py:28-32 | NULL gives no percentage; an integer or a float gives its own value |
| Metric.ParseFloat | report_builder.py:30 | blank text is not a number |
| Metric.MetricFromRowColumns | report_builder.py:25-33 | `metric_from_row` never fails: each missing, NULL or unusable count becomes 0, and each missing, NULL or unusable percentage becomes none, column by column |
| Metric.MetricRowRoundTrip | report_builder.py:25-33 | reading back the row of a metric gives that metric |
| Metric.MetricTextRowRoundTrip | report_builder.py:25-33 | counts delivered as decimal text read back as the same metric |
| Metric.EmptyRowIsNoMetric | report_builder.py:25-33 | an empty row, or one holding only garbage text, reads as (0, 0, none) |
| Metric.ScalarMetric | main.py:67-70 | no rows give (0, 0, none); otherwise the first row's metric is read |
| Metric.ScalarMetricOfRows | main.py:67-70 | a result whose first row carries a metric reads as that metric, whatever follows it |
| Metric.TextOr | report_builder.py:112 | `(row.get(key) or default)`: non-empty text is kept; a missing, non-text or empty text value gives the default |
| Format.TierOf | report_builder.py:47-52 | the indicator is low exactly below 70, mid exactly from 70 to below 90, and high exactly from 90 |
| Format.TierMonotone | report_builder.py:47-52 | a higher percentage never gets a lower indicator |
| Format.TierBoundaries | report_builder.py:47-52 | 69.9 is low, 70 and 89.9 are mid, 90 is high |
| Format.Icon | report_builder.py:48-52 | each indicator is one character that is neither a digit, a minus nor a newline |
| Format.RoundHalfEven | report_builder.py:41 | the rounded value is within one half of the input |
| Format.TenthsOf | report_builder.py:41 | the magnitude in tenths is within half a tenth of the value's |
| Format.Rounded1 | report_builder.py:41 | the shown value is within 0.05 of the percentage |
| Format.Fixed1 | report_builder.py:41 | one-decimal text: it starts with a minus exactly for a negative value and ends in a digit |
| Format.FmtPct | report_builder.py:36-54 | the dash appears exactly when the percentage is missing |
| Format.FmtPctShape | report_builder.py:36-54 | a figure ends in "%"; with the indicator it starts with the tier's sign and a space, without it with a digit or minus; it is one line and does not end in whitespace |
| Format.FmtPctWithIcon | report_builder.py:47-54 | an indicated figure starts with its tier's sign and a space and ends in "%" |
| Format.FmtPctPlain | report_builder.py:40-41 | a plain figure starts with a digit or minus and ends in "%" |
| Format.Fixed1ReadsBack | report_builder.py:41 | `float()` of the shown text is the percentage rounded to tenths |
| Format.FmtPctReadsBack | report_builder.py:36-54 | the figure inside the rendered text, read back, is the rounded percentage, with or without the indicator |
| Format.FigureOfFmtPct | report_builder.py:54 | removing the indicator prefix and the "%" leaves exactly the one-decimal figure |
| Format.TenthsTextReadsBack | report_builder.py:41 | a count of tenths written with one decimal reads back as that many tenths |
| Format.FmtPctExamples | report_builder.py:36-54 | none gives the dash; 69.9 gives "69.9%" plain and "❌ 69.9%" indicated |
| Phone.Cleaned | report_builder.py:58-59 | after stripping and removing separators, no space, dash or parenthesis remains |
| Phone.NormalizePhone | report_builder.py:57-76 | the result is empty or starts with "+". A cleaned "+" text is returned as is. Otherwise the digits decide: "55…" gets "+", 10 or 11 digits get "+55", other digits get "+", no digits give "". A non-empty result is "+" and digits, ending in the input's digits |
| Phone.FromDigits | report_builder.py:64-76 | the digit branch is empty exactly for no digits; otherwise it starts with "+" and ends in the digits |
| Phone.NormalizeIdempotent | report_builder.py:64-76 | on the digit branch, normalising a normalised number changes nothing |
| Phone.PlusDigitsIsFixed | report_builder.py:61-62 | "+" followed by digits normalises to itself |
| Phone.BareNumberGetsHomeCode | report_builder.py:72-73 | 10 or 11 bare digits that do not start with 55 get "+55" |
| Phone.HomePrefixedNumber | report_builder.py:68-69 | digits starting with 55 get only "+", whatever their length |
| Phone.NormalizeExampleHomePrefix | report_builder.py:68-73 | "5585986068", ten digits starting 55, gives "+5585986068", not "+555585986068" |
| Phone.NormalizeExampleBare | report_builder.py:72-73 | "85986068742" gives "+5585986068742" |
| Phone.NormalizeExamplePlus | report_builder.py:58-62 | "+1 555-0100" loses its separators and keeps its "+" |
| Phone.NormalizeExampleEmpty | report_builder.py:76 | an empty phone gives the empty string |
| Phone.PlusBranchNotIdempotent | report_builder.py:58-62 | as written, normalising twice differs from normalising once for "+1\t-" |
| Phone.PlusBranchKeepsTab | report_builder.py:58-62 | as written, "+1\t-" normalises to "+1\t", keeping the tab the dash hid from the strip |
| Phone.NormalizeE164 | report_builder.py:57-76 | corrected normaliser: empty or "+"-led, free of separators, and not ending in whitespace |
| Phone.DigitBranchClean | report_builder.py:64-76 | the digit branch yields no separator and no trailing whitespace |
| Phone.PlusBranchClean | report_builder.py:58-62 | the "+" branch, stripped once more, stays "+"-led with no separator and no trailing whitespace |
| Phone.NormalFixed | report_builder.py:57-76 | an empty or "+"-led text without separators or trailing whitespace is a fixed point of the corrected normaliser |
| Phone.NormalizeE164Idempotent | report_builder.py:57-76 | the corrected normaliser is idempotent on every input |
| Phone.NormalizeE164Differs | report_builder.py:57-76 | the corrected result is always the as-written result stripped once more; on a cleaned text that does not start with "+" the two are equal |
| Phone.NormalizeE164DropsTab | report_builder.py:58-62 | corrected, "+1\t-" normalises to "+1" |
| Sorting.SortBy | report_builder.py:87 | the sort returns a permutation of its input |
| Sorting.SortBySorted | report_builder.py:87 | the result is ordered by key, and elements with equal keys keep their input order (a stable sort, like `sorted`) |
| Sorting.KeyLeTotal | report_builder.py:85 | any two (rank, name) keys are comparable |
| Sorting.KeyLeTransitive | report_builder.py:85 | the tuple order is transitive |
| AreaOrder.PriorityIndex | report_builder.py:80-84 | the rank is the last position whose lower-cased name matches, which is what the dict comprehension keeps; an unlisted name gets 10000 |
| AreaOrder.OrderAreas | report_builder.py:79-87 | the ordered rows are a permutation of the input rows |
| AreaOrder.OrderAreasSorted | report_builder.py:79-87 | the rows are sorted by (rank, lower-cased stripped name), and equal keys keep their input order |
| AreaOrder.OrderAreasPlacement | report_builder.py:79-87 | listed areas come first, in list order; unlisted areas follow, alphabetically by lower-cased name |
| Dicts.Lookup | report_builder.py:170-171 | a key is found exactly when the dictionary has it, and then with a value stored under it |
| Dicts.Put | main.py:261 | assignment adds at most one entry |
| Dicts.PutKeys | main.py:261 | assigning an existing name keeps the key order; a new name is appended |
| Dicts.PutLookup | main.py:261 | after assignment the name maps to the new metric and every other name is unchanged |
| Dicts.PutDistinct | main.py:261 | assignment keeps the keys distinct |
| Dicts.IndexBy | main.py:257-261 | the built dictionary has distinct keys |
| Dicts.IndexByKeys | main.py:257-261 | a name is a key exactly when it is non-blank and some row carries it |
| Dicts.IndexByLastWins | main.py:257-261 | a name maps to the metric of its last row |
| Dicts.IndexByEmpty | main.py:257-272 | the dictionary is empty exactly when every row's name is blank |
| Messages.FigureFor | report_builder.py:114 | a name missing from the month dictionary gives no percentage; a present one gives its stored percentage |
| Messages.AreaEntries | report_builder.py:111-118 | one entry line per area row |
| Messages.GroupEntries | report_builder.py:123-136 | one group line per unit row |
| Messages.GeneralLayout | report_builder.py:100-138 | the message has 6 lines, plus one per area, plus 2 and one per unit when the groups are asked for. It holds the title with the date, the day figure plain with the month figure indicated, and the area heading |
| Messages.GeneralAreaLine | report_builder.py:111-118 | line 6+k is the k-th area in `order_areas` order, with its own day figure and the month figure found under its label, or the dash |
| Messages.GeneralGroupLine | report_builder.py:120-136 | the areas are followed by a blank line, the groups heading with the month label, and then each unit's line: indicated percentage, planned, done |
| Messages.GroupsSectionIffIncluded | report_builder.py:120-122 | the groups heading appears exactly when the groups are asked for |
| Messages.GroupsHeadingAbsent | report_builder.py:120 | without the groups, no line is the groups heading |
| Messages.GeneralFirstLine | report_builder.py:101 | the first line starts with the chart sign, not whitespace |
| Messages.GeneralLastLine | report_builder.py:111-138 | the last line ends in a figure, or in ")" or "a" when the sections are empty, so never in whitespace |
| Messages.GeneralWellFormed | report_builder.py:100-136 | every line is a single line when no label, area or unit name carries a newline |
| Messages.GeneralRenderable | report_builder.py:100-138 | the general lines satisfy what a clean rendering needs |
| Messages.GeneralMessageReadsBack | report_builder.py:138 | the rendered text splits back into exactly the message's lines and ends in a single newline |
| Messages.Fresh | report_builder.py:165 | the day-only names: exactly the day names not in the month dictionary, each no more often than in the input |
| Messages.SortedNames | report_builder.py:169 | sorting keeps the set of names and introduces no repetition |
| Messages.Roster | report_builder.py:165-169 | the roster is exactly the union of both dictionaries' names, each once |
| Messages.RosterSorted | report_builder.py:169 | the roster is in order of lower-cased names |
| Messages.CollaboratorEntries | report_builder.py:169-175 | one entry line per roster name |
| Messages.LeaderLayout | report_builder.py:151-175 | six header lines (title with area and date, figures, collaborator heading), then line 6+k is the k-th roster name with its day and month figures or the dash |
| Messages.LeaderFirstLine | report_builder.py:152 | the first line starts with the chart sign |
| Messages.LeaderLastLine | report_builder.py:160-177 | the last line ends in a figure, or in ")" when nobody is listed |
| Messages.LeaderRenderable | report_builder.py:151-177 | the area leader's lines satisfy what a clean rendering needs when area, date and names are single lines |
| Messages.LeaderMessageReadsBack | report_builder.py:177 | the rendered text splits back into exactly the message's lines and ends in a single newline |
| Lines.RenderReadsBack | report_builder.py:138 | joining, stripping and appending a newline loses nothing for renderable lines: the text splits back into their texts |
| Lines.LineTextOneLine | report_builder.py:115-136 | a well-formed line renders without a newline |
| Lines.FmtPctFigure | report_builder.py:36-54 | every rendered percentage is a figure text: one line, non-empty, ending in no whitespace |
| Lines.FigureLineEnd | report_builder.py:115-136 | a figure, entry or group line ends in a non-space character |
| Text.Strip | report_builder.py:58 | the stripped text has no whitespace at either end, and text without whitespace is unchanged |
| Text.Lower | report_builder.py:84 | lower-casing keeps the length and maps each character |
| Text.Without | report_builder.py:59 | removal leaves none of the removed characters and keeps text that has none |
| Text.DigitsOf | report_builder.py:65 | only digits remain, and all-digit text is unchanged |
| Text.DigitsOfStrip | report_builder.py:58-65 | stripping first does not change the digits found |
| Text.NatToStringRoundTrip | report_builder.py:134-135 | a count's decimal text reads back as the count |
| Text.IntToString | report_builder.py:134-135 | an integer's text starts with a minus exactly when it is negative, and ends in a digit |
| Text.IntToStringRoundTrip | report_builder.py:20 | `int()` of an integer's text gives the integer back |
| Text.ParseInt | report_builder.py:20 | text accepted as an integer has a digit at the end of its stripped form |
| Text.SplitJoinedLines | report_builder.py:138 | newline-free lines joined by newlines and closed by one split back into themselves |
| Text.StrippedJoinReadsBack | report_builder.py:138 | `"\n".join(lines).strip() + "\n"` splits back into the lines when the ends carry no whitespace |
| Text.JoinNeedsNoStrip | report_builder.py:138 | when the first line does not start and the last does not end with whitespace, the strip removes nothing |
| Text.LexLeTotal | report_builder.py:85 | string order compares any two strings |
| Text.LexLeTransitive | report_builder.py:85 | string order is transitive |
| Text.LexLeAntisymmetric | report_builder.py:85 | strings ordered both ways are equal |
| Calendar.Weekday | main.py:48 | a weekday is one of 0 (Monday) to 6 (Sunday) |
| Calendar.FromDay | main.py:103-116 | every day number is a valid civil date whose number is that day |
| Calendar.CivilRoundTrip | main.py:58-59 | a valid civil date survives the round trip through its day number |
| Calendar.ToDayInjective | main.py:58-59 | different civil dates have different day numbers |
| Calendar.ExampleMonday | main.py:89 | 2026-01-12 is a Monday |
| Calendar.Pad2 | report_builder.py:101 | two-digit fields are two digits with the field's value |
| Calendar.MonthNumber | main.py:109 | the month label is two digits between 01 and 12 |
| Calendar.Pad4 | report_builder.py:101 | the `%Y` field is at least four digits and reads back as the year |
| Calendar.LeadingZeros | report_builder.py:101 | zeros in front of a digit string do not change its value, so a padded year reads back as the year |
| Calendar.DayMonthReadsBack | main.py:116 | a `%d/%m` label is five characters, "dd/mm", reading back as its date's day and month |
| Calendar.DayMonthYearReadsBack | report_builder.py:101 | a `%d/%m/%Y` label starts with the `%d/%m` label and reads back as its date's day, month and year |
| Period.ShouldSendToday | main.py:46-48 | the run sends exactly on days that are not Sunday |
| Period.ShouldSendCivilExamples | main.py:46-48 | Sunday 2026-01-11 is quiet and Monday 2026-01-12 sends |
| Period.OneQuietDayPerWeek | main.py:46-48 | in any seven consecutive days exactly one is quiet |
| Period.ReferenceDate | main.py:51-55 | the reference day is before the run day, is not a Sunday, and only Sundays lie between them |
| Period.ReferenceIsLatestWorkingDay | main.py:51-55 | no later non-Sunday precedes the run day, so Saturday stands in on a Monday |
| Period.MonthStart | main.py:58-59 | day 1 of the same civil month and year |
| Period.WeekStart | main.py:62-64 | the Monday of the week containing the day |
| Period.WeekStartUnique | main.py:62-64 | that Monday is the only Monday at most six days before |
| Period.PrevWeekStart | main.py:113-114 | the previous week's Monday is seven days before the reference week's |
| Period.PlanDates | main.py:103-116 | the day window is [ref, ref+1); the month window runs from the first of ref's month up to the run day, excluded; the previous week is [Monday, Monday+6); `is Monday` matches the run day |
| Period.PrevWeekIsMondayToSaturday | main.py:113-116 | the previous-week window holds exactly the Monday-to-Saturday days of the week before the reference week, and the day the label ends on, its Monday plus five, is a Saturday |
| Period.WeekSpan | main.py:116 | the previous-week label is thirteen characters: the Monday's "dd/mm", " a ", and the "dd/mm" of the day five days later |
| Period.LabelsOf | main.py:109-116 | the title date is the reference date as `%d/%m/%Y`, the month label is the month start's `%m`, the previous-week label spans the window's first day to five days later, and the "yesterday" label is the day before the reference date, not the reference date itself |
| Period.PrevWeekLabelOf | main.py:116 | a run's previous-week label is "dd/mm a dd/mm" from the window's first day to that day plus five |
| Period.SpanParts | main.py:116 | the parts of the previous-week label are the two `%d/%m` labels around " a " |
| Period.PrevWeekLabelSpan | main.py:113-116 | in a planned run the previous-week label runs from a Monday to a Saturday; that Saturday is the last day of the previous-week window and lies two days before the reference week's Monday |
| Period.PrevWeekSpanOf | main.py:113-116 | the same label, weekday and window facts for any run whose previous-week window starts at the Monday seven days before the reference week's Monday and whose exclusive end is six days after that Monday |
| Period.MondayFirstOfMonth | main.py:103-107 | on Monday 2025-09-01 the month window starts on 2025-08-01, the reference day's month |
| Planning.ClassOf | main.py:125-134 | a row is merchandising exactly when its stripped, lower-cased area is "merchan", and board exactly when it is "diretoria" |
| Planning.Select | main.py:128-134 | a class list holds exactly the rows of that class, and no more rows than the input |
| Planning.SelectPartition | main.py:128-134 | the three lists together are a permutation of the leader rows |
| Planning.LeadersPartition | main.py:128-134 | the leader rows split into the three lists with nothing lost or duplicated |
| Planning.LeadersDisjoint | main.py:128-134 | no row is in two lists |
| Planning.RecipientOf | main.py:175 | the stripped leader name, or the default exactly when that is blank |
| Planning.ItemPhone | main.py:176-177 | with the test flag, every item goes to the test number; otherwise to `normalize_phone_to_e164` as written applied to the stripped phone, which is empty or "+"-led |
| Planning.ItemPhoneNearlyNormal | main.py:176-177 | without the test flag, an item's phone stripped once more is the corrected normaliser's number |
| Planning.ItemPhoneKeepsTab | main.py:176-177 | a stored phone "+1\t-" goes out as "+1\t", which the corrected normaliser would change |
| Planning.RawPhoneTabbed | main.py:176 | stripping "+1\t-" leaves it as it is |
| Planning.HeadItems | main.py:173-227 | one item per row: to the row's stripped leader when that is not blank and to the default otherwise, at the row's phone, with the one shared message and the kind |
| Planning.HeadRecipients | main.py:175 | each head item goes to its row's leader, or to the default when the row names none |
| Planning.MerchanBlock | main.py:172-199 | no merchandising items when only the board is asked for; otherwise one per merchandising row, in order, to the row's leader or to "Líder Merchan" |
| Planning.BoardBlock | main.py:201-227 | no board items except on Mondays; then one per board row, in order, to the row's leader or to "Diretoria" |
| Planning.PlanHeadRecipients | main.py:173-227 | in a plan the first items go to the merchandising rows' leaders or "Líder Merchan" in row order, and on Mondays the next ones go to the board rows' leaders or "Diretoria" in row order |
| Planning.HeadItemsBlock | main.py:173-227 | the merchandising and board items are all of their kind, with acceptable phones |
| Planning.ListedArea | main.py:239 | the row's stripped area when that is not blank, and "Não Identificada" otherwise, also for a missing or empty value |
| Planning.ResolvedArea | main.py:248-251 | the day total's first row's stripped area when there is a row and that area is not blank; the listed area otherwise |
| Planning.ByCollaborator | main.py:257-267 | each collaborator dictionary has distinct names |
| Planning.AreaItem | main.py:239-296 | an area item goes to the row's leader, at its phone, of the area kind, with the one area message built from the reported area, the reference label, the day and month totals of the listed area, and the day and month rosters of the reported area |
| Planning.AreaItemSkipsEmptyRoster | main.py:269-276 | no item exactly when every collaborator row of both windows has a blank name |
| Planning.AreaItemNone | main.py:271-276 | no item exactly when both collaborator dictionaries are empty |
| Planning.AreaLoopKeepsFirstRows | main.py:232-237 | the loop's seen set is every non-blank leader name, and its items are those of each name's first row only |
| Planning.AreaLoopOnePerLeader | main.py:232-296 | the loop yields at most one item per leader, each of the area kind with an acceptable phone |
| Planning.AreaMakerMakesAreaItems | main.py:239-296 | each area item carries the row's leader, the area kind and an acceptable phone |
| Planning.Plan | main.py:98-296 | quiet exactly on Sunday; "no leaders" exactly on another day without leader rows |
| Planning.ExitCode | main.py:99-123 | exit code 1 exactly when there are no leaders, otherwise 0 |
| Planning.PlanShape | main.py:169-296 | the plan puts merchandising items before board items before area items; every phone is acceptable; area recipients are distinct; there are board items only on Mondays; only board items when only the board is asked for |
| Planning.PlanCounts | main.py:173-227 | one merchandising item per merchandising row unless only the board is asked for; one board item per board row on Mondays, none otherwise |
| Planning.AreaBlockFacts | main.py:231-296 | the area block is all of its kind, with acceptable phones and one item per distinct leader |
| Dispatch.PreviewText | whatsapp_sender.py:106 | a message of at most 400 characters is shown whole; a longer one as its first 400 characters and "..." |
| Dispatch.SendsAttempted | whatsapp_sender.py:110-118 | message j is attempted exactly when it exists and every earlier message went through; its tab flag is set exactly on the last message of a closing item |
| Dispatch.SendsWaits | whatsapp_sender.py:120-122 | a same-number wait sits only between two consecutive messages of the item, after a successful send |
| Dispatch.SendsAllOrFirstFailure | whatsapp_sender.py:110-118 | the item succeeds exactly when every attempted message succeeds |
| Dispatch.FirstFailure | whatsapp_sender.py:116-118 | a failing item has a first failed message, before which all went through |
| Dispatch.ItemTallies | whatsapp_sender.py:102-129 | each pass counts its item once: as sent in preview or when all messages went through, as failed otherwise |
| Dispatch.LoopTallies | whatsapp_sender.py:87-134 | after k passes the sent count is the number of succeeded items and the failed count is the rest |
| Dispatch.BatchCounts | whatsapp_sender.py:147-155 | without interruption the total is the item count, sent plus failed is the total, and in preview everything counts as sent |
| Dispatch.AllSucceedInPreview | whatsapp_sender.py:102-108 | in preview every item counts as sent |
| Dispatch.InterruptedCounts | whatsapp_sender.py:136-155 | after Ctrl+C the total is still the item count and sent plus failed is at most the total |
| Dispatch.PreviewsItem | whatsapp_sender.py:104-106 | a preview line shows one of the item's messages as its preview text |
| Dispatch.PreviewsAll | whatsapp_sender.py:104-106 | every message of a previewed item is shown |
| Dispatch.ItemEventKinds | whatsapp_sender.py:87-134 | a pass never closes the browser and only touches its own item; a preview pass only shows and counts |
| Dispatch.LoopMembership | whatsapp_sender.py:87-134 | an event of the loop is an event of exactly some pass |
| Dispatch.OwnPass | whatsapp_sender.py:87-134 | every send, preview or tally belongs to the pass of its own item |
| Dispatch.SendOrder | whatsapp_sender.py:93-118 | send (i, j, close) happens exactly outside preview, for an existing message after earlier successes, with close set exactly on the last message when the item is last or the next phone differs |
| Dispatch.SamePhoneKeepsTab | whatsapp_sender.py:93-96 | an item followed by one to the same phone never closes its tab |
| Dispatch.GapByPhone | whatsapp_sender.py:131-134 | between items the wait is 1 second for the same phone and `intervalo` otherwise; after the last item there is no wait |
| Dispatch.PreviewQuiet | whatsapp_sender.py:102-108 | a preview run only shows and counts: no send, no wait, no browser close |
| Dispatch.PreviewShowsAll | whatsapp_sender.py:102-106 | a preview run shows every message of every item |
| Dispatch.BrowserClosedOnce | whatsapp_sender.py:138-145 | outside preview the browser is closed exactly once, as the last event, even after an interruption; in preview never |
| Dispatch.SendItem | whatsapp_sender.py:110-122 | the inner loop produces the item's send trace and reports whether all messages went through |
| Dispatch.PreviewItem | whatsapp_sender.py:104-106 | the preview loop produces the item's preview lines |
| Dispatch.SendBatch | whatsapp_sender.py:74-155 | the loop produces the batch's trace and summary, with sent plus failed equal to the total |
| SqlText.Escape | merchan_queries.py:119 | doubling quotes never shortens a name and keeps a quote-free name unchanged |
| SqlText.Unescape | merchan_queries.py:119 | un-doubling succeeds exactly on text whose quotes come in pairs |
| SqlText.EscapeReadsBack | merchan_queries.py:119 | an escaped name has only paired quotes and un-doubles back to the name |
| SqlText.UnescapeEscapes | merchan_queries.py:119 | text with paired quotes is the escape of its un-doubling |
| SqlText.ReadEscaped | merchan_queries.py:135 | reading a quoted literal from the escaped name stops at the closing quote and returns the name and what follows |
| SqlText.NameConditionReadsBack | merchan_queries.py:135 | the WHERE condition on a name reads back as that name, whatever quotes it holds |
| SqlText.LiteralListReadsBack | merchan_queries.py:259-260 | the comma-separated literal list reads back as the names |
| SqlText.QuotedIsLiterals | merchan_queries.py:21 | without quotes in the values, plain quoting equals escaping |
| SqlText.CheckinListReadsBack | merchan_queries.py:19-22 | the IN list is parenthesised and reads back as the configured values |
| SqlText.ConfiguredCheckinList | merchan_queries.py:19-22 | the configured values give "('Manual', 'Manual e GPS')" |
| SqlText.UnitsQueryParts | merchan_queries.py:252-289 | zero rows exactly when neither part is asked for; otherwise the groups part and the chains part appear exactly when asked, groups first |
| SqlText.UnionTextShape | merchan_queries.py:262-291 | the union text is the groups part, the chains part, or both joined by the UNION ALL separator |
| SqlText.GroupsAndChainsQuery | merchan_queries.py:333-337 | the monthly units query unions groups and chains, in that order |
| SqlText.GroupsQuery | merchan_queries.py:340-341 | the groups query has only the groups part |
| SqlText.ChainsQuery | merchan_queries.py:344-345 | the chains query has only the chains part |
| Visits.LTrim | merchan_queries.py:33 | LTRIM removes exactly the leading spaces |
| Visits.RTrim | merchan_queries.py:33 | RTRIM removes exactly the trailing spaces |
| Visits.FoldIsNao | merchan_queries.py:34 | under the accent- and case-insensitive comparison a text equals "Nao" exactly when it is an n, an a and an o in any case or accent |
| Visits.OnRouteSpellings | merchan_queries.py:25-35 | a visit is on route exactly when its off-route text, trimmed of spaces, spells "não" in some case or accent |
| Visits.OnRouteMissing | merchan_queries.py:33 | a NULL off-route value counts as "Não", so as on route |
| Visits.OnRoutePadded | merchan_queries.py:33-34 | any spelling of "não" with surrounding spaces is on route |
| Visits.TabIsNotTrimmed | merchan_queries.py:33 | a leading tab is not trimmed, so such a value is off route |
| Visits.Eligible | merchan_queries.py:79-83 | the eligible visits are exactly those in the half-open window, on route and not on a holiday |
| Visits.HalfUp | merchan_queries.py:78 | the nearest integer, halves up |
| Visits.RoundCents | merchan_queries.py:75-78 | DECIMAL(10,2) rounding is within half a hundredth and keeps a non-negative value non-negative |
| Visits.RoundCentsBounds | merchan_queries.py:75-78 | a percentage between 0 and 100 stays between 0 and 100 when rounded |
| Visits.Pct | merchan_queries.py:75-78 | no percentage exactly when nothing is planned |
| Visits.TotalsOf | merchan_queries.py:72-78 | the done sum is NULL exactly over no visits and otherwise counts visits with a listed check-in; planned counts the non-NULL ids; the percentage is NULL exactly when nothing is planned |
| Visits.TotalsBounds | merchan_queries.py:72-78 | with every id present, planned is the visit count, done is at most planned, and the percentage lies in [0, 100] |
| Visits.NullIdsPassHundred | merchan_queries.py:73-77 | SUM counts a visit whose id COUNT skips, so the percentage can reach 200 |
| Visits.TotalsRowReadsBack | merchan_queries.py:72-78 | the report reads the aggregate row back as its figures, with a NULL done sum as 0 |
| Visits.GroupKeys | merchan_queries.py:110 | the GROUP BY keys are distinct, every row's key is among them, and each comes from some row |
| Visits.GroupsAddUp | merchan_queries.py:110 | the groups' sums add up to the total |
| Visits.GroupsNonEmpty | merchan_queries.py:110 | no GROUP BY row has a NULL done sum |
| Visits.GroupTotalsAddUp | merchan_queries.py:110 | the grouped rows' planned and done sums equal the ungrouped figures |
| Visits.AreaTotalsAddUp | merchan_queries.py:87-112 | the area rows of a window add up to that window's overall figures, and none has a NULL done sum |
| Visits.InArea | merchan_queries.py:163-169 | the area's visits are exactly the eligible ones whose label equals the area exactly |
| Visits.PaddedLabelMissed | merchan_queries.py:165 | with exact comparison, a leader stored under "Centro " is not in area "Centro" |
| Visits.MappedInArea | merchan_queries.py:223-230 | through the INNER JOIN, only visits of leaders with a dimAreaMerchan row remain, with labels compared exactly |
| Visits.OfLeader | merchan_queries.py:192-196 | a leader's visits are exactly the eligible ones under that leader |
| Visits.AreaRowsLabelled | merchan_queries.py:153-170 | every row of an area total is labelled with the area |
| Visits.AreaTotalOneRow | merchan_queries.py:144-171 | for a named area, the total is empty exactly without visits, and otherwise one row holding the area's figures |
| Visits.UnidentifiedTwoRows | merchan_queries.py:155-170 | "Não Identificada" can give two rows, one for unmapped leaders and one for the area stored under that name |
| Visits.UnmappedLeaderOnlyInTotal | merchan_queries.py:163-165 | an unmapped leader's visit counts in the "Não Identificada" total but not among its collaborators |
| Visits.AreaCollaboratorsAddUp | merchan_queries.py:201-232 | for a named area, the collaborator rows add up to the area total |
| Visits.LeaderCollaboratorsAddUp | merchan_queries.py:174-198 | a leader's collaborator rows add up to the leader's figures |
| Visits.LeaderAreaTotalAddsUp | merchan_queries.py:115-141 | a leader's area rows add up to the leader's figures, and none has a NULL done sum |
| Visits.AreaRowReadsBack | main.py:246-249 | an area result row reads back as the aggregate's figures and the stripped area name |
| Visits.CollaboratorRowReadsBack | main.py:258-261 | a collaborator result row reads back as the aggregate's figures and the stripped name |
| Visits.DbAreaMetric | main.py:244-247 | the area figures the loop reads for a named area are those of the area's visits |
| Visits.DbResolvesListed | main.py:248-251 | under exact name equality, a clean listed area is resolved to itself |
| Visits.ReportedAreaIsListed | main.py:239-251 | under the query semantics with exact name equality, the reported area is the one the leader row names |
| Visits.DbRosterBlank | main.py:254-267 | the collaborator rows all have blank names exactly when every mapped visit of the area has a blank collaborator |
| Visits.AreaItemUnderDb | main.py:269-276 | under exact name equality, no area item exactly when no mapped visit whose stored area equals the listed area, in the day or month window, has a non-blank collaborator |

## Left out

- Format.FmtPct: rounds the exact decimal value half to even, while `f"{p:.1f}"` rounds the nearest binary double. For 66.65 the model shows "66.6%" and Python "66.7%"; for 0.35 the model shows "0.4%" and Python "0.3%". Floating point is not modelled.
- Text.Lower: lower-cases ASCII letters only, while the source uses `str.lower` and `casefold`. Accented capitals such as "É" are left as they are, so "Érica" sorts before "ângela" here and after it in Python.
- Messages.Roster: names that differ only in case get a fixed order (month dictionary first, then day-only names). Python sorts a `set`, whose iteration order for such ties is arbitrary.
- Metric.TextOr: a truthy non-text value, such as a number in a name column, is treated as missing. In Python, `.strip()` on it raises `AttributeError`.
- Metric.ParseFloat: accepts only plain decimal notation. "1e3", "inf", "nan", "1_000" and non-ASCII digits are rejected, though `float()` accepts them.
- Text.ParseInt: accepts only an optional sign and ASCII digits. "1_000" and non-ASCII digits are rejected, though `int()` accepts them.
- Text.DigitsOf: keeps ASCII digits only. `str.isdigit` also accepts other Unicode digits.
- Visits.FoldIsNao: the collation folds case and only the accents of a, o, n and their capitals. A spelling with another accented letter can never equal "Nao" here, which matches Latin1_General_CI_AI for these three letters only.
- Visits.GroupKeys: keys come in order of first appearance. The row order of GROUP BY and ORDER BY is not modelled.
- Visits.RoundCents: CAST to FLOAT is an exact real. The DECIMAL(10,2) overflow error for huge percentages is not modelled.
- Visits.TotalsOf: a check-in counts as done only when it equals a configured value exactly. SQL Server's IN ignores trailing spaces and compares under the column's collation, so "Manual " counts in SQL and not here.
- Visits.InArea: area labels are compared exactly. SQL Server's `=` in `ISNULL(dam.area_merchan, 'Não Identificada') = '{area_escaped}'` (merchan_queries.py:165 and 226) ignores trailing spaces and compares under the column's collation. So a leader stored under "Centro ", whose listed area main.py:239 strips to "Centro", has visits in SQL and an area item, but none here (Visits.PaddedLabelMissed). Visits.DbResolvesListed, Visits.ReportedAreaIsListed and Visits.AreaItemUnderDb hold under exact equality only.
- Duplicate area rows: a leader with several dimAreaMerchan rows is not modelled. The map holds one area per leader; in SQL, duplicate rows multiply the counts through the join.
- NULL names: a NULL leader or collaborator is not modelled. Names are plain strings, and name equality is exact rather than the column's collation.
- Planning.Plan: takes the general and board message texts as inputs. main.py imports `build_diretoria_message`, which report_builder.py does not define, and calls `build_general_leader_message` with keyword arguments its signature does not have. Those two calls are not modelled.
- Planning.Plan: `areas_month_by_name` and the previous-week and group queries only feed those two messages. They are not modelled.
- Planning: the leaders query `leaders_with_area_and_phone_sql` (merchan_queries.py:52-61), with its DISTINCT and phone join, is not modelled. Its rows are the input `leaders`.
- Planning: command-line parsing, `datetime.now()`, printing and the preview mode of main.py (lines 73-97 and 298-316) are left out. The run day and the flags are parameters.
- Dispatch: `enviar_mensagem`, `fechar_aba` and `fechar_navegador` drive pywhatkit and pyautogui. A send is an oracle result, and a failed browser close is not modelled.
- Dispatch.Batch: Ctrl+C is modelled as cutting the trace between two events. An interrupt in the middle of a send or of the final prints is not.
- SqlText: the full SQL text of each query, `sql_date` (database.py) and table names from config.py are not modelled. Their meaning is stated over visit records in Visits.
- SqlText.CheckinList: the check-in values are quoted without escaping, as in the source. Only the configured values, which contain no quote, are proved to read back.
- Calendar: dates before year 1 and after year 9999, where `datetime.date` raises, are not modelled. Period.PlanDates requires the previous week to exist.
- config.example.py lacks `TABLE_FERIADO_MERCHAN`, `GRUPOS_ECONOMICOS_IMPORTANTES` and `REDES_IMPORTANTES`, which merchan_queries.py imports. The holiday table is a set of days, and the unit lists are parameters.
- The units query (merchan_queries.py:293-330): the code extraction with ISNUMERIC and the joins to the group and chain tables are not modelled. Only the choice and order of its UNION parts are.

## Findings

| source | as written | input that shows it | evidently intended | confidence | as-written member | corrected member |
|---|---|---|---|---|---|---|
| report_builder.py:58-62 | the "+" branch returns the text after separator removal without stripping again, so whitespace that a removed dash or parenthesis hid from the first strip survives | "+1\t-" gives "+1\t", and normalising that gives "+1" | a normalised number with no trailing whitespace, so normalising is idempotent | not executed | Phone.PlusBranchNotIdempotent | Phone.NormalizeE164Idempotent |

Planning.ItemPhone uses the normaliser as written, because main.py:177 calls it.
Planning.ItemPhoneKeepsTab shows that the tab reaches the item, and
Planning.ItemPhoneNearlyNormal shows that one more strip gives the corrected number.

=== FILE: areas.dfy ===
/**
 * `order_areas` of report_builder.py: the general message lists areas in the
 * configured priority order first, then every other area alphabetically.
 */
module AreaOrder {
  import opened Text
  import opened Metric
  import opened Sorting

  const AreaKey := "area_merchan"

  /** The rank of an area whose name is not in the priority list. */
  const Unlisted := 10000

  /**
   * The rank of a lower-cased area name: its position in the priority list (the
   * last one if it is listed twice, as a dict comprehension keeps the last), or
   * `Unlisted`. Priority entries are lower-cased but not stripped.
   */
  function PriorityIndex(priority: seq<string>, lowered: string): (r: int)
    ensures r == Unlisted || (0 <= r < |priority| && Lower(priority[r]) == lowered)
    ensures 0 <= r < |priority| ==> forall i :: r < i < |priority| ==> Lower(priority[i]) != lowered
    ensures !Listed(priority, lowered) ==> r == Unlisted
    ensures Listed(priority, lowered) ==> 0 <= r < |priority|
  {
    if priority == [] then Unlisted
    else if Lower(priority[|priority| - 1]) == lowered then |priority| - 1
    else
      var init := priority[..|priority| - 1];
      assert Listed(priority, lowered) ==> Listed(init, lowered) by {
        if Listed(priority, lowered) {
          var i :| 0 <= i < |priority| && Lower(priority[i]) == lowered;
          assert init[i] == priority[i];
        }
      }
      PriorityIndex(init, lowered)
  }

  predicate Listed(priority: seq<string>, lowered: string) {
    exists i :: 0 <= i < |priority| && Lower(priority[i]) == lowered
  }

  /** `(r.get("area_merchan") or "").strip()`. */
  function AreaName(row: Row): string {
    Strip(TextOr(row, AreaKey, ""))
  }

  function AreaSortKey(priority: seq<string>, row: Row): Key {
    var lowered := Lower(AreaName(row));
    Key(PriorityIndex(priority, lowered), lowered)
  }

  /** The sort key `(order_index.get(name.lower(), 10_000), name.lower())`. */
  function AreaKeyFn(priority: seq<string>): Row -> Key {
    row => AreaSortKey(priority, row)
  }

  /**
   * `order_areas(rows)`: a permutation of the rows, sorted by (priority rank,
   * lower-cased name), rows with equal keys keeping their input order.
   */
  function OrderAreas(priority: seq<string>, rows: seq<Row>): (r: seq<Row>)
    ensures |r| == |rows| && multiset(r) == multiset(rows)
  {
    SortBy(rows, AreaKeyFn(priority))
  }

  /** The ordered rows are sorted by area key, and rows with equal keys keep their input order. */
  lemma OrderAreasSorted(priority: seq<string>, rows: seq<Row>)
    ensures SortedBy(OrderAreas(priority, rows), AreaKeyFn(priority))
    ensures forall k :: WithKey(OrderAreas(priority, rows), AreaKeyFn(priority), k)
                        == WithKey(rows, AreaKeyFn(priority), k)
  {
    SortBySorted(rows, AreaKeyFn(priority));
  }

  /**
   * Listed areas come first, in priority-list order; unlisted areas follow, in
   * order of their lower-cased names. (The sentinel rank 10000 keeps this true
   * while the list has at most 10000 entries.)
   */
  lemma OrderAreasPlacement(priority: seq<string>, rows: seq<Row>, i: int, j: int)
    requires |priority| <= Unlisted
    requires 0 <= i < j < |OrderAreas(priority, rows)|
    ensures var r := OrderAreas(priority, rows);
            var a := Lower(AreaName(r[i]));
            var b := Lower(AreaName(r[j]));
            && (Listed(priority, b) ==> Listed(priority, a) && PriorityIndex(priority, a) <= PriorityIndex(priority, b))
            && (!Listed(priority, a) ==> !Listed(priority, b) && LexLe(a, b))
  {
    var r := OrderAreas(priority, rows);
    var key := AreaKeyFn(priority);
    OrderAreasSorted(priority, rows);
    assert KeyLe(key(r[i]), key(r[j]));
    assert key(r[i]) == AreaSortKey(priority, r[i]) && key(r[j]) == AreaSortKey(priority, r[j]);
  }
}

=== FILE: calendar.dfy ===
/**
 * Dates of the proleptic Gregorian calendar that Python's `datetime.date` uses.
 * A date is its day number: the number of days since 0001-01-01, i.e. Python's
 * `d.toordinal() - 1`. Since 0001-01-01 is a Monday, `d.weekday()` is the day
 * number modulo 7 (0 = Monday ... 6 = Sunday). The civil (year, month, day) view
 * is a bijection with the day numbers, proved below.
 */
module Calendar {
  import opened Text

  type Day = nat

  /** Python's `date.weekday()`: 0 = Monday ... 6 = Sunday. */
  function Weekday(d: Day): (w: nat)
    ensures w < 7
  {
    d % 7
  }

  datatype Civil = Civil(year: int, month: int, day: int)

  predicate IsLeap(y: int) {
    y % 4 == 0 && (y % 100 != 0 || y % 400 == 0)
  }

  function DaysInYear(y: int): int {
    if IsLeap(y) then 366 else 365
  }

  function DaysInMonth(y: int, m: int): (n: int)
    requires 1 <= m <= 12
    ensures 28 <= n <= 31
  {
    if m == 2 then (if IsLeap(y) then 29 else 28)
    else if m == 4 || m == 6 || m == 9 || m == 11 then 30
    else 31
  }

  predicate Valid(c: Civil) {
    c.year >= 1 && 1 <= c.month <= 12 && 1 <= c.day <= DaysInMonth(c.year, c.month)
  }

  /** Days from 0001-01-01 to January 1st of year `y`. */
  function DaysBeforeYear(y: int): int
    requires y >= 1
  {
    var p := y - 1;
    365 * p + p / 4 - p / 100 + p / 400
  }

  lemma DaysBeforeNextYear(y: int)
    requires y >= 1
    ensures DaysBeforeYear(y + 1) == DaysBeforeYear(y) + DaysInYear(y)
  {
    var p := y - 1;
    assert y / 4 == p / 4 + (if y % 4 == 0 then 1 else 0);
    assert y / 100 == p / 100 + (if y % 100 == 0 then 1 else 0);
    assert y / 400 == p / 400 + (if y % 400 == 0 then 1 else 0);
  }

  /** A later year starts on a later day. */
  lemma {:induction false} DaysBeforeYearIncreasing(a: int, b: int)
    requires 1 <= a < b
    ensures DaysBeforeYear(a + 1) <= DaysBeforeYear(b)
    decreases b - a
  {
    DaysBeforeNextYear(a);
    if a + 1 < b {
      DaysBeforeYearIncreasing(a + 1, b);
      DaysBeforeNextYear(a + 1);
    }
  }

  /** Days in the months of year `y` before month `m` (`m == 13` gives the whole year). */
  function DaysBeforeMonth(y: int, m: int): (n: int)
    requires 1 <= m <= 13
    ensures n >= 0
    ensures m == 13 ==> n == DaysInYear(y)
  {
    var common := [0, 0, 31, 59, 90, 120, 151, 181, 212, 243, 273, 304, 334, 365];
    common[m] + (if m > 2 && IsLeap(y) then 1 else 0)
  }

  lemma MonthStep(y: int, m: int)
    requires 1 <= m <= 12
    ensures DaysBeforeMonth(y, m + 1) == DaysBeforeMonth(y, m) + DaysInMonth(y, m)
  {
  }

  lemma {:induction false} DaysBeforeMonthIncreasing(y: int, a: int, b: int)
    requires 1 <= a < b <= 13
    ensures DaysBeforeMonth(y, a + 1) <= DaysBeforeMonth(y, b)
    decreases b - a
  {
    MonthStep(y, a);
    if a + 1 < b {
      DaysBeforeMonthIncreasing(y, a + 1, b);
      MonthStep(y, a + 1);
    }
  }

  lemma DayOfYearBound(c: Civil)
    requires Valid(c)
    ensures DaysBeforeMonth(c.year, c.month) + c.day - 1 < DaysInYear(c.year)
    ensures DaysBeforeYear(c.year + 1) == DaysBeforeYear(c.year) + DaysInYear(c.year)
  {
    DaysBeforeNextYear(c.year);
    MonthStep(c.year, c.month);
    if c.month < 12 {
      DaysBeforeMonthIncreasing(c.year, c.month, 13);
    }
  }

  /** The day number of a civil date (Python's `date(y, m, d).toordinal() - 1`). */
  function ToDay(c: Civil): (n: Day)
    requires Valid(c)
    ensures DaysBeforeYear(c.year) <= n < DaysBeforeYear(c.year + 1)
  {
    DayOfYearBound(c);
    DaysBeforeYear(c.year) + DaysBeforeMonth(c.year, c.month) + c.day - 1
  }

  /** The year that contains day `n`, searching upwards from `y`. */
  function FindYear(n: Day, y: int): (r: int)
    requires y >= 1 && DaysBeforeYear(y) <= n
    ensures r >= y && DaysBeforeYear(r) <= n < DaysBeforeYear(r + 1)
    decreases n - DaysBeforeYear(y)
  {
    DaysBeforeNextYear(y);
    if n < DaysBeforeYear(y + 1) then y else FindYear(n, y + 1)
  }

  /** The month of year `y` that contains the `r`-th day of that year (0-based). */
  function FindMonth(y: int, r: int, m: int): (k: int)
    requires 1 <= m <= 12 && DaysBeforeMonth(y, m) <= r < DaysInYear(y)
    ensures m <= k <= 12 && DaysBeforeMonth(y, k) <= r < DaysBeforeMonth(y, k + 1)
    decreases 12 - m
  {
    MonthStep(y, m);
    if r < DaysBeforeMonth(y, m + 1) then m else FindMonth(y, r, m + 1)
  }

  lemma FirstYearGuessFits(n: Day)
    ensures DaysBeforeYear(n / 366 + 1) <= n
  {
    var p := n / 366;
    assert p / 400 <= p / 100;
    assert p / 4 <= p;
  }

  /** The civil date of day `n` (Python's `date.fromordinal(n + 1)`). */
  function FromDay(n: Day): (c: Civil)
    ensures Valid(c) && ToDay(c) == n
  {
    FirstYearGuessFits(n);
    var y := FindYear(n, n / 366 + 1);
    var r := n - DaysBeforeYear(y);
    DaysBeforeNextYear(y);
    var m := FindMonth(y, r, 1);
    MonthStep(y, m);
    Civil(y, m, r - DaysBeforeMonth(y, m) + 1)
  }

  /** Two valid civil dates with the same day number are the same date. */
  lemma ToDayInjective(a: Civil, b: Civil)
    requires Valid(a) && Valid(b) && ToDay(a) == ToDay(b)
    ensures a == b
  {
    if a.year < b.year {
      DaysBeforeYearIncreasing(a.year, b.year);
    } else if b.year < a.year {
      DaysBeforeYearIncreasing(b.year, a.year);
    }
    assert a.year == b.year;
    if a.month < b.month {
      DaysBeforeMonthIncreasing(a.year, a.month, b.month);
    } else if b.month < a.month {
      DaysBeforeMonthIncreasing(a.year, b.month, a.month);
    }
  }

  /** The civil view round-trips: converting a valid date to its day number and back gives it again. */
  lemma CivilRoundTrip(c: Civil)
    requires Valid(c)
    ensures FromDay(ToDay(c)) == c
  {
    ToDayInjective(FromDay(ToDay(c)), c);
  }

  // ----- strftime -----

  /** A number below 100 with two digits (`%d`, `%m`). */
  function Pad2(n: nat): (r: string)
    requires n < 100
    ensures |r| == 2 && AllDigits(r) && DigitsValue(r) == n
  {
    var r := [DigitChar(n / 10), DigitChar(n % 10)];
    assert r[..1] == [DigitChar(n / 10)] && r[..1][..0] == [];
    assert DigitValue(r[0]) == n / 10 && DigitValue(r[1]) == n % 10;
    assert DigitsValue(r[..1]) == DigitsValue(r[..1][..0]) * 10 + DigitValue(r[0]) == n / 10;
    assert DigitsValue(r) == DigitsValue(r[..1]) * 10 + DigitValue(r[1]);
    r
  }

  /** A year with at least four digits (`%Y`). */
  function Pad4(n: nat): (r: string)
    ensures |r| >= 4 && AllDigits(r) && DigitsValue(r) == n
  {
    var s := NatToString(n);
    NatToStringRoundTrip(n);
    if |s| >= 4 then s
    else
      LeadingZeros(4 - |s|, s);
      seq(4 - |s|, _ => '0') + s
  }

  lemma {:induction false} ZerosValue(k: nat)
    ensures AllDigits(seq(k, _ => '0')) && DigitsValue(seq(k, _ => '0')) == 0
  {
    if k > 0 {
      var z := seq(k, _ => '0');
      assert z[..k - 1] == seq(k - 1, _ => '0');
      ZerosValue(k - 1);
    }
  }

  /** Zeros in front of a digit string leave its value alone. */
  lemma {:induction false} LeadingZeros(k: nat, s: string)
    requires AllDigits(s)
    ensures AllDigits(seq(k, _ => '0') + s) && DigitsValue(seq(k, _ => '0') + s) == DigitsValue(s)
    decreases |s|
  {
    var z := seq(k, _ => '0');
    ZerosValue(k);
    if s == [] {
      assert z + s == z;
    } else {
      var t := z + s;
      assert t[..|t| - 1] == z + s[..|s| - 1];
      LeadingZeros(k, s[..|s| - 1]);
    }
  }

  /** `d.strftime('%d/%m/%Y')`. */
  function DayMonthYear(d: Day): string {
    var c := FromDay(d);
    Pad2(c.day) + "/" + Pad2(c.month) + "/" + Pad4(c.year)
  }

  /** `d.strftime('%d/%m')`. */
  function DayMonth(d: Day): string {
    var c := FromDay(d);
    Pad2(c.day) + "/" + Pad2(c.month)
  }

  /** A `%d/%m` label reads back as the day and the month of its date. */
  lemma DayMonthReadsBack(d: Day)
    ensures var t := DayMonth(d);
            var c := FromDay(d);
            |t| == 5 && t[2] == '/' && DigitsValue(t[..2]) == c.day && DigitsValue(t[3..]) == c.month
  {
    var c := FromDay(d);
    var t := DayMonth(d);
    assert t[..2] == Pad2(c.day);
    assert t[3..] == Pad2(c.month);
  }

  /** A `%d/%m/%Y` label starts with the `%d/%m` label and reads back as the date. */
  lemma DayMonthYearReadsBack(d: Day)
    ensures var t := DayMonthYear(d);
            var c := FromDay(d);
            |t| >= 10 && t[..5] == DayMonth(d) && t[5] == '/'
            && DigitsValue(t[..2]) == c.day && DigitsValue(t[3..5]) == c.month
            && AllDigits(t[6..]) && DigitsValue(t[6..]) == c.year
  {
    var c := FromDay(d);
    var t := DayMonthYear(d);
    DayMonthReadsBack(d);
    assert t[..5] == DayMonth(d);
    assert t[..2] == DayMonth(d)[..2];
    assert t[3..5] == DayMonth(d)[3..];
    assert t[6..] == Pad4(c.year);
  }

  /** `d.strftime('%m')`. */
  function MonthNumber(d: Day): (r: string)
    ensures |r| == 2 && AllDigits(r) && 1 <= DigitsValue(r) <= 12
  {
    Pad2(FromDay(d).month)
  }

  /** 2026-01-12, the date the source's own usage text gives as a Monday, is one. */
  lemma ExampleMonday()
    ensures Valid(Civil(2026, 1, 12)) && Weekday(ToDay(Civil(2026, 1, 12))) == 0
  {
  }
}

=== FILE: dicts.dfy ===
/** Python dicts with string keys, as association lists in insertion order. */
module Dicts {
  import opened Wrappers

  type Dict<V> = seq<(string, V)>

  predicate DistinctKeys<V>(d: Dict<V>) {
    forall i, j :: 0 <= i < j < |d| ==> d[i].0 != d[j].0
  }

  /** `list(d.keys())`. */
  function Keys<V>(d: Dict<V>): (r: seq<string>)
    ensures |r| == |d| && forall i :: 0 <= i < |d| ==> r[i] == d[i].0
  {
    if d == [] then [] else [d[0].0] + Keys(d[1..])
  }

  /** `d.get(k)`. */
  function Lookup<V>(d: Dict<V>, k: string): (r: Option<V>)
    ensures r.None? <==> k !in Keys(d)
    ensures r.Some? ==> exists i :: 0 <= i < |d| && d[i] == (k, r.value)
  {
    if d == [] then None
    else if d[0].0 == k then Some(d[0].1)
    else Lookup(d[1..], k)
  }

  /** `d.get(k, default)`. */
  function GetOr<V>(d: Dict<V>, k: string, default: V): V {
    Lookup(d, k).GetOr(default)
  }

  /** `d[k] = v`: an existing key keeps its place and takes the new value; a new key goes last. */
  function Put<V>(d: Dict<V>, k: string, v: V): (r: Dict<V>)
    ensures |r| == |d| || |r| == |d| + 1
  {
    if d == [] then [(k, v)]
    else if d[0].0 == k then [(k, v)] + d[1..]
    else [d[0]] + Put(d[1..], k, v)
  }

  /** Keys keep their order: a new key is appended, an existing one stays where it was. */
  lemma {:induction false} PutKeys<V>(d: Dict<V>, k: string, v: V)
    ensures k in Keys(d) ==> Keys(Put(d, k, v)) == Keys(d)
    ensures k !in Keys(d) ==> Keys(Put(d, k, v)) == Keys(d) + [k]
  {
    if d != [] && d[0].0 != k {
      PutKeys(d[1..], k, v);
      assert Keys(d) == [d[0].0] + Keys(d[1..]);
      assert Keys(Put(d, k, v)) == [d[0].0] + Keys(Put(d[1..], k, v));
    }
  }

  /** After `d[k] = v`, `d.get(k)` is `v` and every other key reads as before. */
  lemma {:induction false} PutLookup<V>(d: Dict<V>, k: string, v: V, k': string)
    ensures Lookup(Put(d, k, v), k) == Some(v)
    ensures k' != k ==> Lookup(Put(d, k, v), k') == Lookup(d, k')
  {
    if d != [] && d[0].0 != k {
      PutLookup(d[1..], k, v, k');
    }
  }

  /** The first key of a dict with distinct keys is not among the rest, which stay distinct. */
  lemma HeadNotInTail<V>(d: Dict<V>)
    requires |d| >= 1 && DistinctKeys(d)
    ensures d[0].0 !in Keys(d[1..]) && DistinctKeys(d[1..])
  {
    var t := d[1..];
    forall j | 0 <= j < |t| ensures Keys(t)[j] != d[0].0 {
      assert t[j] == d[j + 1];
    }
    forall i, j | 0 <= i < j < |t| ensures t[i].0 != t[j].0 {
      assert t[i] == d[i + 1] && t[j] == d[j + 1];
    }
  }

  /** Putting a pair whose key is new in front of a dict with distinct keys keeps them distinct. */
  lemma ConsDistinct<V>(x: (string, V), t: Dict<V>)
    requires DistinctKeys(t) && x.0 !in Keys(t)
    ensures DistinctKeys([x] + t)
  {
    var r := [x] + t;
    forall i, j | 0 <= i < j < |r| ensures r[i].0 != r[j].0 {
      assert r[j] == t[j - 1];
      assert Keys(t)[j - 1] == t[j - 1].0;
      if i > 0 { assert r[i] == t[i - 1]; }
    }
  }

  /** Keys stay distinct. */
  lemma {:induction false} PutDistinct<V>(d: Dict<V>, k: string, v: V)
    requires DistinctKeys(d)
    ensures DistinctKeys(Put(d, k, v))
  {
    if d == [] {
    } else if d[0].0 == k {
      HeadNotInTail(d);
      ConsDistinct((k, v), d[1..]);
    } else {
      var t := Put(d[1..], k, v);
      HeadNotInTail(d);
      PutDistinct(d[1..], k, v);
      PutKeys(d[1..], k, v);
      assert d[0].0 !in Keys(t);
      ConsDistinct(d[0], t);
    }
  }

  /**
   * The dict a loop `if name(x): d[name(x)] = value(x)` fills from `xs`: one key per
   * non-blank name, a later element replacing an earlier one's value.
   */
  function IndexBy<T, V>(xs: seq<T>, name: T -> string, value: T -> V): (d: Dict<V>)
    ensures DistinctKeys(d)
  {
    if xs == [] then []
    else
      var d := IndexBy(xs[..|xs| - 1], name, value);
      var x := xs[|xs| - 1];
      if name(x) == "" then d
      else
        PutDistinct(d, name(x), value(x));
        Put(d, name(x), value(x))
  }

  /** A name is a key exactly when it is not blank and some element carries it. */
  lemma {:induction false} IndexByKeys<T, V>(xs: seq<T>, name: T -> string, value: T -> V, n: string)
    ensures n in Keys(IndexBy(xs, name, value)) <==>
              n != "" && exists k :: 0 <= k < |xs| && name(xs[k]) == n
  {
    if xs != [] {
      var init := xs[..|xs| - 1];
      var x := xs[|xs| - 1];
      IndexByKeys(init, name, value, n);
      if name(x) != "" {
        PutKeys(IndexBy(init, name, value), name(x), value(x));
      }
      if n != "" && exists k :: 0 <= k < |xs| && name(xs[k]) == n {
        var k :| 0 <= k < |xs| && name(xs[k]) == n;
        if k < |xs| - 1 {
          assert init[k] == xs[k];
        }
      }
      if exists k :: 0 <= k < |init| && name(init[k]) == n {
        var k :| 0 <= k < |init| && name(init[k]) == n;
        assert xs[k] == init[k];
      }
    }
  }

  /** The dict is empty exactly when every element's name is blank. */
  lemma IndexByEmpty<T, V>(xs: seq<T>, name: T -> string, value: T -> V)
    ensures IndexBy(xs, name, value) == [] <==> forall k :: 0 <= k < |xs| ==> name(xs[k]) == ""
  {
    if IndexBy(xs, name, value) != [] {
      IndexByKeys(xs, name, value, Keys(IndexBy(xs, name, value))[0]);
    } else {
      forall k | 0 <= k < |xs| ensures name(xs[k]) == "" {
        IndexByKeys(xs, name, value, name(xs[k]));
      }
    }
  }

  /** A name's value comes from the last element that carries it. */
  lemma {:induction false} IndexByLastWins<T, V>(xs: seq<T>, name: T -> string, value: T -> V, k: nat)
    requires k < |xs| && name(xs[k]) != ""
    requires forall l :: k < l < |xs| ==> name(xs[l]) != name(xs[k])
    ensures Lookup(IndexBy(xs, name, value), name(xs[k])) == Some(value(xs[k]))
  {
    var init := xs[..|xs| - 1];
    var x := xs[|xs| - 1];
    var n := name(xs[k]);
    if k == |xs| - 1 {
      PutLookup(IndexBy(init, name, value), n, value(x), n);
    } else {
      assert init[k] == xs[k];
      IndexByLastWins(init, name, value, k);
      if name(x) != "" {
        PutLookup(IndexBy(init, name, value), name(x), value(x), n);
      }
    }
  }
}

=== FILE: dispatch.dfy ===
/**
 * `WhatsAppSender.enviar_mensagens_lote` of whatsapp_sender.py: the batch loop
 * over the planned items, as the trace of what it does. A send is the boolean
 * `enviar_mensagem` answers (an oracle indexed by item and message), every
 * `time.sleep` of the loop is a `Wait`, and Ctrl+C cuts the trace after some
 * number of events, after which the browser is still closed.
 */
module Dispatch {
  import opened Wrappers

  /** One entry of `mensagens_envio`: recipient, phone, the texts to send, the kind. */
  datatype Item = Item(recipient: string, phone: string, messages: seq<string>, kind: string)

  /** The sender's `intervalo` (between items) and `intervalo_mesmo_numero`, in seconds. */
  datatype Pacing = Pacing(betweenItems: int, sameNumber: int)

  /** The pacing main.py builds the sender with. */
  const MainPacing := Pacing(7, 5)

  datatype Event =
      /** `enviar_mensagem(items[item].phone, items[item].messages[msg], fechar_aba=closeTab)`. */
    | Send(item: nat, msg: nat, closeTab: bool)
      /** `time.sleep(seconds)` in the loop. */
    | Wait(seconds: int)
      /** The preview print of a message. */
    | Preview(item: nat, msg: nat, text: string)
      /** The item is counted: `enviadas += 1` when `ok`, `falhas += 1` otherwise. */
    | Tally(item: nat, ok: bool)
      /** `fechar_navegador()` in the `finally` block. */
    | CloseBrowser

  /** The returned `{"total": ..., "enviadas": ..., "falhas": ...}`. */
  datatype Summary = Summary(total: nat, sent: nat, failed: nat)

  datatype Run = Run(events: seq<Event>, summary: Summary)

  /** Whether sending message `msg` of item `item` succeeds. */
  type Oracle = (nat, nat) -> bool

  /** The preview shows at most this many characters of a message. */
  const PreviewLimit := 400

  /** `msg[:400] + ("..." if len(msg) > 400 else "")`. */
  function PreviewText(msg: string): (r: string)
    ensures |msg| <= PreviewLimit ==> r == msg
    ensures |msg| > PreviewLimit ==> |r| == PreviewLimit + 3 && r[..PreviewLimit] == msg[..PreviewLimit]
                                     && r[PreviewLimit..] == "..."
  {
    if |msg| > PreviewLimit then msg[..PreviewLimit] + "..." else msg
  }

  /** `close_after_item`: the item is the last one or the next item goes to another phone. */
  predicate CloseAfterItem(items: seq<Item>, i: nat)
    requires i < |items|
  {
    i + 1 == |items| || items[i + 1].phone != items[i].phone
  }

  /** Messages `a` up to (not including) `b` of item `i` all go through. */
  predicate SucceedBetween(ok: Oracle, i: nat, a: nat, b: nat) {
    forall m: nat :: a <= m < b ==> ok(i, m)
  }

  /** `sucesso_total` after the inner loop: every one of the `n` messages went through. */
  predicate ItemOk(ok: Oracle, i: nat, n: nat) {
    SucceedBetween(ok, i, 0, n)
  }

  /**
   * The inner loop from message `j` of item `i`'s `n` messages: send it, with the
   * tab flag on the last message of a closing item; stop at a failure; after a
   * success that is not the last message, wait `same` seconds and go on.
   */
  function Sends(i: nat, n: nat, j: nat, close: bool, ok: Oracle, same: int): seq<Event>
    decreases n - j
  {
    if j >= n then []
    else
      var e := Send(i, j, j + 1 == n && close);
      if ok(i, j) && j + 1 < n then [e, Wait(same)] + Sends(i, n, j + 1, close, ok, same)
      else [e]
  }

  /** The preview prints of item `i`'s messages from `j` on. */
  function Previews(i: nat, msgs: seq<string>, j: nat): seq<Event>
    decreases |msgs| - j
  {
    if j >= |msgs| then [] else [Preview(i, j, PreviewText(msgs[j]))] + Previews(i, msgs, j + 1)
  }

  /** The wait after item `i`: none after the last item, else `intervalo` or 1 second. */
  function Gap(items: seq<Item>, i: nat, pace: Pacing): seq<Event>
    requires i < |items|
  {
    if i + 1 < |items| then [Wait(if CloseAfterItem(items, i) then pace.betweenItems else 1)] else []
  }

  /** One pass of the outer loop for item `i` (a preview pass `continue`s before the wait). */
  function ItemEvents(items: seq<Item>, ok: Oracle, pace: Pacing, preview: bool, i: nat): seq<Event>
    requires i < |items|
  {
    var n := |items[i].messages|;
    if preview then Previews(i, items[i].messages, 0) + [Tally(i, true)]
    else
      Sends(i, n, 0, CloseAfterItem(items, i), ok, pace.sameNumber)
      + [Tally(i, ItemOk(ok, i, n))] + Gap(items, i, pace)
  }

  /** The events of the first `k` passes of the outer loop. */
  function Loop(items: seq<Item>, ok: Oracle, pace: Pacing, preview: bool, k: nat): seq<Event>
    requires k <= |items|
  {
    if k == 0 then [] else Loop(items, ok, pace, preview, k - 1) + ItemEvents(items, ok, pace, preview, k - 1)
  }

  /** The number of `Tally` events with the given outcome. */
  function Tallies(s: seq<Event>, ok: bool): nat {
    if s == [] then 0
    else (if s[0].Tally? && s[0].ok == ok then 1 else 0) + Tallies(s[1..], ok)
  }

  /**
   * `enviar_mensagens_lote(items, modo_teste=preview)`, interrupted after `stop`
   * events when `stop` is given: the loop's events up to the interruption, then
   * the browser close unless previewing; the counters are those reached by then.
   */
  function Batch(items: seq<Item>, ok: Oracle, pace: Pacing, preview: bool, stop: Option<nat>): Run {
    var all := Loop(items, ok, pace, preview, |items|);
    var done := if stop.Some? && stop.value < |all| then all[..stop.value] else all;
    Run(done + (if preview then [] else [CloseBrowser]),
        Summary(|items|, Tallies(done, true), Tallies(done, false)))
  }

  /** The number of items among the first `k` that are counted as sent. */
  function Succeeded(items: seq<Item>, ok: Oracle, preview: bool, k: nat): nat
    requires k <= |items|
  {
    if k == 0 then 0
    else Succeeded(items, ok, preview, k - 1)
         + (if preview || ItemOk(ok, k - 1, |items[k - 1].messages|) then 1 else 0)
  }

  // ----- the inner loop -----

  /**
   * Message `j'` of item `i` is attempted exactly when it exists and every
   * earlier message went through, so the first failure abandons the rest; its
   * tab flag is set exactly on the last message of a closing item.
   */
  lemma {:induction false} SendsAttempted(i: nat, n: nat, j: nat, close: bool, ok: Oracle, same: int,
                                          i': nat, j': nat, c: bool)
    ensures Send(i', j', c) in Sends(i, n, j, close, ok, same) <==>
              i' == i && j <= j' < n && c == (j' + 1 == n && close) && SucceedBetween(ok, i, j, j')
    decreases n - j
  {
    if j < n && ok(i, j) && j + 1 < n {
      SendsAttempted(i, n, j + 1, close, ok, same, i', j', c);
      if i' == i && j < j' < n && SucceedBetween(ok, i, j + 1, j') {
        assert SucceedBetween(ok, i, j, j') by {
          forall m: nat | j <= m < j' ensures ok(i, m) {
            if m > j {
              assert j + 1 <= m < j';
            }
          }
        }
      }
    } else if j < n && !ok(i, j) {
      if j < j' {
        assert !SucceedBetween(ok, i, j, j') by {
          assert j <= j < j';
        }
      }
    }
  }

  /**
   * The inner loop only sends and waits; every wait is the same-number wait and
   * sits between a successful send and the send of the next message.
   */
  predicate WaitsBetweenSuccesses(s: seq<Event>, i: nat, ok: Oracle, same: int) {
    && (forall k :: 0 <= k < |s| ==> s[k].Send? || s[k].Wait?)
    && forall k :: 0 <= k < |s| && s[k].Wait? ==>
         && 0 < k < |s| - 1 && s[k] == Wait(same)
         && s[k - 1].Send? && s[k - 1].item == i && ok(i, s[k - 1].msg)
         && s[k + 1].Send? && s[k + 1].item == i && s[k + 1].msg == s[k - 1].msg + 1
  }

  lemma {:induction false} SendsWaits(i: nat, n: nat, j: nat, close: bool, ok: Oracle, same: int)
    ensures WaitsBetweenSuccesses(Sends(i, n, j, close, ok, same), i, ok, same)
    ensures Sends(i, n, j, close, ok, same) != [] ==> Sends(i, n, j, close, ok, same)[0] == Send(i, j, j + 1 == n && close)
    decreases n - j
  {
    if j < n && ok(i, j) && j + 1 < n {
      SendsWaits(i, n, j + 1, close, ok, same);
      WaitsPrepend(Send(i, j, j + 1 == n && close), Sends(i, n, j + 1, close, ok, same), i, ok, same);
    }
  }

  /** A successful send and the same-number wait put before the sends of the next message. */
  lemma WaitsPrepend(e: Event, rest: seq<Event>, i: nat, ok: Oracle, same: int)
    requires e.Send? && e.item == i && ok(i, e.msg)
    requires rest != [] && rest[0].Send? && rest[0].item == i && rest[0].msg == e.msg + 1
    requires WaitsBetweenSuccesses(rest, i, ok, same)
    ensures WaitsBetweenSuccesses([e, Wait(same)] + rest, i, ok, same)
  {
    var s := [e, Wait(same)] + rest;
    forall k | 0 <= k < |s| ensures s[k].Send? || s[k].Wait? {
      if k >= 2 {
        assert s[k] == rest[k - 2];
      }
    }
    forall k | 0 <= k < |s| && s[k].Wait?
      ensures
        && 0 < k < |s| - 1 && s[k] == Wait(same)
        && s[k - 1].Send? && s[k - 1].item == i && ok(i, s[k - 1].msg)
        && s[k + 1].Send? && s[k + 1].item == i && s[k + 1].msg == s[k - 1].msg + 1
    {
      if k >= 2 {
        assert s[k] == rest[k - 2];
        if k >= 3 {
          assert s[k - 1] == rest[k - 3];
        }
        if k + 1 < |s| {
          assert s[k + 1] == rest[k - 1];
        }
      }
    }
  }

  /** After the inner loop, the item is counted as sent exactly when every message went through. */
  lemma SendsAllOrFirstFailure(i: nat, n: nat, close: bool, ok: Oracle, same: int)
    ensures ItemOk(ok, i, n) <==> forall j: nat, c: bool :: Send(i, j, c) in Sends(i, n, 0, close, ok, same) ==> ok(i, j)
  {
    if !ItemOk(ok, i, n) {
      var f := FirstFailure(ok, i, n);
      SendsAttempted(i, n, 0, close, ok, same, i, f, f + 1 == n && close);
    }
    forall j: nat, c: bool | Send(i, j, c) in Sends(i, n, 0, close, ok, same) && ItemOk(ok, i, n)
      ensures ok(i, j)
    {
      SendsAttempted(i, n, 0, close, ok, same, i, j, c);
    }
  }

  /** The first message of item `i` that fails, when one does. */
  function FirstFailure(ok: Oracle, i: nat, n: nat): (f: nat)
    requires !ItemOk(ok, i, n)
    ensures f < n && !ok(i, f) && SucceedBetween(ok, i, 0, f)
  {
    if SucceedBetween(ok, i, 0, n - 1) then
      assert !ok(i, n - 1);
      n - 1
    else
      FirstFailure(ok, i, n - 1)
  }

  // ----- counting -----

  lemma {:induction false} TalliesAppend(a: seq<Event>, b: seq<Event>, ok: bool)
    ensures Tallies(a + b, ok) == Tallies(a, ok) + Tallies(b, ok)
  {
    if a == [] {
      assert a + b == b;
    } else {
      assert (a + b)[0] == a[0] && (a + b)[1..] == a[1..] + b;
      TalliesAppend(a[1..], b, ok);
    }
  }

  lemma {:induction false} TalliesNone(s: seq<Event>, ok: bool)
    requires forall k :: 0 <= k < |s| ==> !s[k].Tally?
    ensures Tallies(s, ok) == 0
  {
    if s != [] {
      TalliesNone(s[1..], ok);
    }
  }

  lemma {:induction false} TalliesPrefix(s: seq<Event>, m: nat, ok: bool)
    requires m <= |s|
    ensures Tallies(s[..m], ok) <= Tallies(s, ok)
  {
    assert s == s[..m] + s[m..];
    TalliesAppend(s[..m], s[m..], ok);
  }

  lemma {:induction false} PreviewsOnly(i: nat, msgs: seq<string>, j: nat)
    ensures forall k :: 0 <= k < |Previews(i, msgs, j)| ==> Previews(i, msgs, j)[k].Preview?
    decreases |msgs| - j
  {
    if j < |msgs| {
      PreviewsOnly(i, msgs, j + 1);
    }
  }

  /** One pass counts its item once: as sent exactly when previewing or when every message went through. */
  lemma ItemTallies(items: seq<Item>, ok: Oracle, pace: Pacing, preview: bool, i: nat)
    requires i < |items|
    ensures var counted := preview || ItemOk(ok, i, |items[i].messages|);
            && Tallies(ItemEvents(items, ok, pace, preview, i), true) == (if counted then 1 else 0)
            && Tallies(ItemEvents(items, ok, pace, preview, i), false) == (if counted then 0 else 1)
  {
    var n := |items[i].messages|;
    if preview {
      var p := Previews(i, items[i].messages, 0);
      PreviewsOnly(i, items[i].messages, 0);
      TalliesNone(p, true);
      TalliesNone(p, false);
      TalliesAppend(p, [Tally(i, true)], true);
      TalliesAppend(p, [Tally(i, true)], false);
    } else {
      var s := Sends(i, n, 0, CloseAfterItem(items, i), ok, pace.sameNumber);
      var t := [Tally(i, ItemOk(ok, i, n))];
      var g := Gap(items, i, pace);
      SendsWaits(i, n, 0, CloseAfterItem(items, i), ok, pace.sameNumber);
      TalliesNone(s, true);
      TalliesNone(s, false);
      TalliesNone(g, true);
      TalliesNone(g, false);
      TalliesAppend(s + t, g, true);
      TalliesAppend(s + t, g, false);
      TalliesAppend(s, t, true);
      TalliesAppend(s, t, false);
    }
  }

  /** The first `k` passes count `Succeeded` items as sent and the rest of them as failed. */
  lemma {:induction false} LoopTallies(items: seq<Item>, ok: Oracle, pace: Pacing, preview: bool, k: nat)
    requires k <= |items|
    ensures Tallies(Loop(items, ok, pace, preview, k), true) == Succeeded(items, ok, preview, k)
    ensures Tallies(Loop(items, ok, pace, preview, k), false) == k - Succeeded(items, ok, preview, k)
    ensures Succeeded(items, ok, preview, k) <= k
  {
    if k > 0 {
      var prev := Loop(items, ok, pace, preview, k - 1);
      var cur := ItemEvents(items, ok, pace, preview, k - 1);
      assert Loop(items, ok, pace, preview, k) == prev + cur;
      LoopTallies(items, ok, pace, preview, k - 1);
      ItemTallies(items, ok, pace, preview, k - 1);
      TalliesAppend(prev, cur, true);
      TalliesAppend(prev, cur, false);
    }
  }

  /** Without an interruption the summary counts every item once: sent plus failed is the total. */
  lemma BatchCounts(items: seq<Item>, ok: Oracle, pace: Pacing, preview: bool)
    ensures var s := Batch(items, ok, pace, preview, None).summary;
            && s.total == |items|
            && s.sent == Succeeded(items, ok, preview, |items|)
            && s.sent + s.failed == s.total
            && (preview ==> s.sent == |items| && s.failed == 0)
  {
    LoopTallies(items, ok, pace, preview, |items|);
    if preview {
      AllSucceedInPreview(items, ok, |items|);
    }
  }

  lemma {:induction false} AllSucceedInPreview(items: seq<Item>, ok: Oracle, k: nat)
    requires k <= |items|
    ensures Succeeded(items, ok, true, k) == k
  {
    if k > 0 {
      AllSucceedInPreview(items, ok, k - 1);
    }
  }

  /** An interrupted run never counts more items than it was given. */
  lemma InterruptedCounts(items: seq<Item>, ok: Oracle, pace: Pacing, preview: bool, stop: nat)
    ensures var s := Batch(items, ok, pace, preview, Some(stop)).summary;
            s.total == |items| && s.sent + s.failed <= s.total
  {
    var all := Loop(items, ok, pace, preview, |items|);
    LoopTallies(items, ok, pace, preview, |items|);
    if stop < |all| {
      TalliesPrefix(all, stop, true);
      TalliesPrefix(all, stop, false);
    }
  }

  // ----- where events come from -----

  lemma {:induction false} SendsItem(i: nat, n: nat, j: nat, close: bool, ok: Oracle, same: int, e: Event)
    requires e in Sends(i, n, j, close, ok, same)
    ensures e.Send? || e.Wait?
    ensures e.Send? ==> e.item == i
  {
    SendsWaits(i, n, j, close, ok, same);
    if e.Send? {
      SendsAttempted(i, n, j, close, ok, same, e.item, e.msg, e.closeTab);
    }
  }

  lemma {:induction false} PreviewsItem(i: nat, msgs: seq<string>, j: nat, e: Event)
    requires e in Previews(i, msgs, j)
    ensures e.Preview? && e.item == i && j <= e.msg < |msgs| && e.text == PreviewText(msgs[e.msg])
    decreases |msgs| - j
  {
    if j < |msgs| && e != Preview(i, j, PreviewText(msgs[j])) {
      PreviewsItem(i, msgs, j + 1, e);
    }
  }

  lemma {:induction false} PreviewsAll(i: nat, msgs: seq<string>, j: nat, m: nat)
    requires j <= m < |msgs|
    ensures Preview(i, m, PreviewText(msgs[m])) in Previews(i, msgs, j)
    decreases |msgs| - j
  {
    if j < m {
      PreviewsAll(i, msgs, j + 1, m);
    }
  }

  /** The events of pass `i`: only its own item's sends, previews and tally, waits, and never the browser close. */
  lemma ItemEventKinds(items: seq<Item>, ok: Oracle, pace: Pacing, preview: bool, i: nat, e: Event)
    requires i < |items| && e in ItemEvents(items, ok, pace, preview, i)
    ensures !e.CloseBrowser?
    ensures (e.Send? || e.Preview? || e.Tally?) ==> e.item == i
    ensures preview ==> e.Preview? || e == Tally(i, true)
  {
    var n := |items[i].messages|;
    if preview {
      if e != Tally(i, true) {
        PreviewsItem(i, items[i].messages, 0, e);
      }
    } else {
      var s := Sends(i, n, 0, CloseAfterItem(items, i), ok, pace.sameNumber);
      if e in s {
        SendsItem(i, n, 0, CloseAfterItem(items, i), ok, pace.sameNumber, e);
      }
    }
  }

  /** An event of the first `k` passes comes from exactly one pass, and every pass's events are there. */
  lemma {:induction false} LoopMembership(items: seq<Item>, ok: Oracle, pace: Pacing, preview: bool, k: nat, e: Event)
    requires k <= |items|
    ensures e in Loop(items, ok, pace, preview, k) <==>
              exists i :: 0 <= i < k && e in ItemEvents(items, ok, pace, preview, i)
  {
    if k > 0 {
      LoopMembership(items, ok, pace, preview, k - 1, e);
      var prev := Loop(items, ok, pace, preview, k - 1);
      var cur := ItemEvents(items, ok, pace, preview, k - 1);
      assert e in prev + cur <==> e in prev || e in cur;
      if exists i :: 0 <= i < k && e in ItemEvents(items, ok, pace, preview, i) {
        var i :| 0 <= i < k && e in ItemEvents(items, ok, pace, preview, i);
        if i < k - 1 {
          assert e in prev;
        }
      }
    }
  }

  /** An event naming item `i` that occurs in the loop occurs in pass `i`. */
  lemma OwnPass(items: seq<Item>, ok: Oracle, pace: Pacing, preview: bool, e: Event)
    requires e.Send? || e.Preview? || e.Tally?
    requires e in Loop(items, ok, pace, preview, |items|)
    ensures e.item < |items| && e in ItemEvents(items, ok, pace, preview, e.item)
  {
    LoopMembership(items, ok, pace, preview, |items|, e);
    var i :| 0 <= i < |items| && e in ItemEvents(items, ok, pace, preview, i);
    ItemEventKinds(items, ok, pace, preview, i, e);
  }

  // ----- the promised behaviour of the batch -----

  /**
   * Message `j` of item `i` is sent exactly when the batch is not a preview and
   * every earlier message of the item went through; the tab is closed with it
   * exactly when it is the item's last message and the item is the last one or
   * the next item goes to another phone.
   */
  lemma SendOrder(items: seq<Item>, ok: Oracle, pace: Pacing, preview: bool, i: nat, j: nat, c: bool)
    requires i < |items|
    ensures Send(i, j, c) in Loop(items, ok, pace, preview, |items|) <==>
              && !preview && j < |items[i].messages| && SucceedBetween(ok, i, 0, j)
              && c == (j + 1 == |items[i].messages|
                       && (i + 1 == |items| || items[i + 1].phone != items[i].phone))
  {
    var e := Send(i, j, c);
    var n := |items[i].messages|;
    var close := CloseAfterItem(items, i);
    SendsAttempted(i, n, 0, close, ok, pace.sameNumber, i, j, c);
    if e in Loop(items, ok, pace, preview, |items|) {
      OwnPass(items, ok, pace, preview, e);
      ItemEventKinds(items, ok, pace, preview, i, e);
      assert !preview;
      var s := Sends(i, n, 0, close, ok, pace.sameNumber);
      var t := [Tally(i, ItemOk(ok, i, n))] + Gap(items, i, pace);
      assert ItemEvents(items, ok, pace, preview, i) == s + t;
      assert e !in t;
    }
    if !preview && j < n && SucceedBetween(ok, i, 0, j) && c == (j + 1 == n && close) {
      assert e in ItemEvents(items, ok, pace, preview, i);
      LoopMembership(items, ok, pace, preview, |items|, e);
    }
  }

  /**
   * Two consecutive items to the same phone share the browser tab: the first of
   * them never closes it.
   */
  lemma SamePhoneKeepsTab(items: seq<Item>, ok: Oracle, pace: Pacing, preview: bool, i: nat, j: nat)
    requires i + 1 < |items| && items[i + 1].phone == items[i].phone
    ensures Send(i, j, true) !in Loop(items, ok, pace, preview, |items|)
  {
    SendOrder(items, ok, pace, preview, i, j, true);
  }

  /**
   * Between item `i` and item `i + 1` the loop waits 1 second when both go to the
   * same phone and `intervalo` otherwise; after the last item it does not wait.
   */
  lemma GapByPhone(items: seq<Item>, pace: Pacing, i: nat)
    requires i < |items|
    ensures i + 1 < |items| ==>
              Gap(items, i, pace) == [Wait(if items[i + 1].phone == items[i].phone then 1 else pace.betweenItems)]
    ensures i + 1 == |items| ==> Gap(items, i, pace) == []
  {
  }

  /**
   * A preview run sends nothing, waits for nothing and leaves the browser alone;
   * it shows message `j` of item `i` as its first 400 characters, marked "..."
   * when cut.
   */
  lemma PreviewQuiet(items: seq<Item>, ok: Oracle, pace: Pacing, stop: Option<nat>, e: Event)
    requires e in Batch(items, ok, pace, true, stop).events
    ensures e.Preview? || e.Tally?
    ensures e.Preview? ==> e.item < |items| && e.msg < |items[e.item].messages|
                           && e.text == PreviewText(items[e.item].messages[e.msg])
  {
    var all := Loop(items, ok, pace, true, |items|);
    var done := if stop.Some? && stop.value < |all| then all[..stop.value] else all;
    assert e in all by {
      if stop.Some? && stop.value < |all| {
        assert all == done + all[stop.value..];
      }
    }
    LoopMembership(items, ok, pace, true, |items|, e);
    var i :| 0 <= i < |items| && e in ItemEvents(items, ok, pace, true, i);
    ItemEventKinds(items, ok, pace, true, i, e);
    if e.Preview? {
      PreviewsItem(i, items[i].messages, 0, e);
    }
  }

  /** Every message of every item is previewed in an uninterrupted preview run. */
  lemma PreviewShowsAll(items: seq<Item>, ok: Oracle, pace: Pacing, i: nat, j: nat)
    requires i < |items| && j < |items[i].messages|
    ensures Preview(i, j, PreviewText(items[i].messages[j])) in Batch(items, ok, pace, true, None).events
  {
    var e := Preview(i, j, PreviewText(items[i].messages[j]));
    PreviewsAll(i, items[i].messages, 0, j);
    assert e in ItemEvents(items, ok, pace, true, i);
    LoopMembership(items, ok, pace, true, |items|, e);
  }

  /**
   * The browser close happens once, as the very last event, exactly when the
   * run is not a preview, interrupted or not.
   */
  lemma BrowserClosedOnce(items: seq<Item>, ok: Oracle, pace: Pacing, preview: bool, stop: Option<nat>)
    ensures var ev := Batch(items, ok, pace, preview, stop).events;
            && multiset(ev)[CloseBrowser] == (if preview then 0 else 1)
            && (!preview ==> ev[|ev| - 1] == CloseBrowser)
  {
    var all := Loop(items, ok, pace, preview, |items|);
    var done := if stop.Some? && stop.value < |all| then all[..stop.value] else all;
    assert CloseBrowser !in all by {
      LoopMembership(items, ok, pace, preview, |items|, CloseBrowser);
      if CloseBrowser in all {
        var i :| 0 <= i < |items| && CloseBrowser in ItemEvents(items, ok, pace, preview, i);
        ItemEventKinds(items, ok, pace, preview, i, CloseBrowser);
      }
    }
    assert CloseBrowser !in done by {
      if stop.Some? && stop.value < |all| {
        assert all == done + all[stop.value..];
      }
    }
    assert multiset(done)[CloseBrowser] == 0;
  }

  // ----- the loop as the source runs it -----

  /** The inner loop of one item, message by message; `allOk` is `sucesso_total`. */
  method SendItem(i: nat, n: nat, close: bool, ok: Oracle, same: int) returns (sends: seq<Event>, allOk: bool)
    ensures sends == Sends(i, n, 0, close, ok, same)
    ensures allOk == ItemOk(ok, i, n)
  {
    sends := [];
    allOk := true;
    var j := 0;
    while j < n && allOk
      invariant 0 <= j <= n
      invariant allOk ==> SucceedBetween(ok, i, 0, j) && sends + Sends(i, n, j, close, ok, same) == Sends(i, n, 0, close, ok, same)
      invariant !allOk ==> !ItemOk(ok, i, n) && sends == Sends(i, n, 0, close, ok, same)
      decreases n - j, allOk
    {
      var e := Send(i, j, j + 1 == n && close);
      if !ok(i, j) {
        assert Sends(i, n, j, close, ok, same) == [e];
        sends := sends + [e];
        allOk := false;
      } else if j + 1 < n {
        assert Sends(i, n, j, close, ok, same) == [e, Wait(same)] + Sends(i, n, j + 1, close, ok, same);
        sends := sends + [e, Wait(same)];
        j := j + 1;
      } else {
        assert Sends(i, n, j, close, ok, same) == [e];
        sends := sends + [e];
        j := j + 1;
      }
    }
  }

  /** The preview prints of one item. */
  method PreviewItem(i: nat, msgs: seq<string>) returns (shown: seq<Event>)
    ensures shown == Previews(i, msgs, 0)
  {
    shown := [];
    var j := 0;
    while j < |msgs|
      invariant 0 <= j <= |msgs|
      invariant shown + Previews(i, msgs, j) == Previews(i, msgs, 0)
    {
      shown := shown + [Preview(i, j, PreviewText(msgs[j]))];
      j := j + 1;
    }
  }

  /**
   * `enviar_mensagens_lote` without an interruption: the loop over the items with
   * its counters, then the browser close unless previewing.
   */
  method SendBatch(items: seq<Item>, ok: Oracle, pace: Pacing, preview: bool) returns (events: seq<Event>, summary: Summary)
    ensures Run(events, summary) == Batch(items, ok, pace, preview, None)
    ensures summary.sent + summary.failed == summary.total == |items|
  {
    events := [];
    var sent, failed := 0, 0;
    var i := 0;
    while i < |items|
      invariant 0 <= i <= |items|
      invariant events == Loop(items, ok, pace, preview, i)
      invariant sent == Tallies(events, true) && failed == Tallies(events, false)
    {
      var item := items[i];
      ItemTallies(items, ok, pace, preview, i);
      TalliesAppend(events, ItemEvents(items, ok, pace, preview, i), true);
      TalliesAppend(events, ItemEvents(items, ok, pace, preview, i), false);
      if preview {
        var shown := PreviewItem(i, item.messages);
        events := events + (shown + [Tally(i, true)]);
        sent := sent + 1;
      } else {
        var close := i + 1 == |items| || items[i + 1].phone != item.phone;
        var sends, allOk := SendItem(i, |item.messages|, close, ok, pace.sameNumber);
        if allOk {
          sent := sent + 1;
        } else {
          failed := failed + 1;
        }
        var gap := if i + 1 < |items| then [Wait(if close then pace.betweenItems else 1)] else [];
        assert gap == Gap(items, i, pace);
        events := events + (sends + [Tally(i, allOk)] + gap);
      }
      i := i + 1;
    }
    summary := Summary(|items|, sent, failed);
    if !preview {
      events := events + [CloseBrowser];
    }
    LoopTallies(items, ok, pace, preview, |items|);
  }
}

=== FILE: format.dfy ===
/**
 * `fmt_pct` of report_builder.py: a percentage with one decimal, "—" for a
 * missing one, optionally preceded by a three-tier indicator.
 */
module Format {
  import opened Wrappers
  import opened Text
  import opened Metric

  /** The placeholder for a missing percentage (an em dash). */
  const Dash := "\U{2014}"

  datatype Tier = Low | Mid | High

  /** The indicator tier: below 70, from 70 below 90, from 90 up. */
  function TierOf(p: real): (t: Tier)
    ensures t == Low <==> p < 70.0
    ensures t == Mid <==> 70.0 <= p < 90.0
    ensures t == High <==> 90.0 <= p
  {
    if p < 70.0 then Low else if p < 90.0 then Mid else High
  }

  function TierRank(t: Tier): nat {
    match t
    case Low => 0
    case Mid => 1
    case High => 2
  }

  /** A higher percentage never gets a lower tier. */
  lemma TierMonotone(p: real, q: real)
    requires p <= q
    ensures TierRank(TierOf(p)) <= TierRank(TierOf(q))
  {
  }

  /** The boundaries: 69.9 is low, 70 and 89.9 are mid, 90 is high. */
  lemma TierBoundaries()
    ensures TierOf(69.9) == Low && TierOf(70.0) == Mid
    ensures TierOf(89.9) == Mid && TierOf(90.0) == High
  {
  }

  /** ❌, 🟡, ✅. */
  function Icon(t: Tier): (s: string)
    ensures |s| == 1 && s[0] != '-' && !IsDigit(s[0]) && s[0] != '\n'
  {
    match t
    case Low => "\U{274C}"
    case Mid => "\U{1F7E1}"
    case High => "\U{2705}"
  }

  /** Round to the nearest integer, ties to the even one. */
  function RoundHalfEven(x: real): (n: nat)
    requires x >= 0.0
    ensures x - 0.5 <= n as real <= x + 0.5
  {
    var f := x.Floor;
    var frac := x - f as real;
    if frac < 0.5 then f
    else if frac > 0.5 then f + 1
    else if f % 2 == 0 then f else f + 1
  }

  /**
   * The magnitude of `p` in tenths, rounded half to even on the exact decimal
   * value (Python rounds the nearest binary double instead).
   */
  function TenthsOf(p: real): (t: nat)
    ensures p >= 0.0 ==> p * 10.0 - 0.5 <= t as real <= p * 10.0 + 0.5
    ensures p < 0.0 ==> -p * 10.0 - 0.5 <= t as real <= -p * 10.0 + 0.5
  {
    RoundHalfEven(if p < 0.0 then -p * 10.0 else p * 10.0)
  }

  /** The value of `t` tenths, negated when `negative`. */
  function SignedTenths(negative: bool, t: nat): real {
    if negative then -(t as real / 10.0) else t as real / 10.0
  }

  /** `p` rounded to tenths, ties to even on the exact value: what `f"{p:.1f}"` shows up to the double rounding. */
  function Rounded1(p: real): (r: real)
    ensures p - 0.05 <= r <= p + 0.05
  {
    SignedTenths(p < 0.0, TenthsOf(p))
  }

  /** `t` tenths written with one decimal: the integer part, a point, the tenths digit. */
  function TenthsText(t: nat): (s: string)
    ensures |s| >= 3 && IsDigit(s[0]) && IsDigit(s[|s| - 1]) && '\n' !in s
  {
    NatToString(t / 10) + "." + [DigitChar(t % 10)]
  }

  function SignText(negative: bool): string {
    if negative then "-" else ""
  }

  /**
   * `f"{p:.1f}"` on the exact value: a minus sign for a negative `p` (even one
   * rounding to zero), then its tenths.
   */
  function Fixed1(p: real): (s: string)
    ensures |s| >= 3 && (s[0] == '-' || IsDigit(s[0])) && IsDigit(s[|s| - 1])
    ensures s[0] == '-' <==> p < 0.0
  {
    SignText(p < 0.0) + TenthsText(TenthsOf(p))
  }

  /**
   * `fmt_pct(p, with_icon=...)`: the dash exactly for a missing percentage;
   * otherwise the figure followed by "%", preceded by the tier's indicator and
   * a space only when the indicator is asked for.
   */
  function FmtPct(p: Option<real>, withIcon: bool): (r: string)
    ensures r == Dash <==> p.None?
  {
    match p
    case None => Dash
    case Some(v) =>
      if withIcon then Icon(TierOf(v)) + " " + Fixed1(v) + "%" else Fixed1(v) + "%"
  }

  /**
   * The shape of a rendered percentage: a figure ends in "%"; with the
   * indicator it starts with the tier's sign and a space, without it with the
   * figure's sign or first digit; and it is one line ending in no whitespace.
   */
  lemma FmtPctShape(p: Option<real>, withIcon: bool)
    ensures var r := FmtPct(p, withIcon);
      && (p.Some? ==> EndsWith(r, "%") && |r| >= 4)
      && (p.Some? && withIcon ==> StartsWith(r, Icon(TierOf(p.value)) + " "))
      && (p.Some? && !withIcon ==> r[0] == '-' || IsDigit(r[0]))
      && '\n' !in r && |r| >= 1 && !IsSpace(r[|r| - 1])
  {
    match p
    case None =>
    case Some(v) =>
      if withIcon {
        FmtPctWithIcon(v);
      } else {
        FmtPctPlain(v);
      }
  }

  lemma FmtPctWithIcon(v: real)
    ensures var r := FmtPct(Some(v), true);
      && EndsWith(r, "%") && |r| >= 4 && StartsWith(r, Icon(TierOf(v)) + " ")
      && '\n' !in r && !IsSpace(r[|r| - 1])
  {
    var f := Fixed1(v);
    Fixed1OneLine(v);
    var a := Icon(TierOf(v)) + " ";
    assert FmtPct(Some(v), true) == a + f + "%";
    SuffixOfConcat(a + f, "%");
    PrefixOfConcat(a + f, "%");
    PrefixOfConcat(a, f);
    PrefixTransitive(a + f + "%", a + f, a);
  }

  lemma FmtPctPlain(v: real)
    ensures var r := FmtPct(Some(v), false);
      && EndsWith(r, "%") && |r| >= 4 && (r[0] == '-' || IsDigit(r[0]))
      && '\n' !in r && !IsSpace(r[|r| - 1])
  {
    var f := Fixed1(v);
    Fixed1OneLine(v);
    assert FmtPct(Some(v), false) == f + "%";
    SuffixOfConcat(f, "%");
  }

  lemma Fixed1OneLine(p: real)
    ensures '\n' !in Fixed1(p)
  {
    assert Fixed1(p) == SignText(p < 0.0) + TenthsText(TenthsOf(p));
  }

  /** The figure inside a rendered percentage: between the indicator (if any) and the "%". */
  function Figure(r: string, withIcon: bool): string
    requires |r| >= 3
  {
    if withIcon then r[2..|r| - 1] else r[..|r| - 1]
  }

  lemma {:induction false} NatToStringHasNoPoint(n: nat)
    ensures IndexOf(NatToString(n), '.') == |NatToString(n)|
  {
    var s := NatToString(n);
    assert forall i :: 0 <= i < |s| ==> s[i] != '.' by {
      forall i | 0 <= i < |s| ensures s[i] != '.' {
        assert IsDigit(s[i]);
      }
    }
    IndexOfAbsent(s, '.');
  }

  /** A count of tenths written out reads back as that many tenths. */
  lemma TenthsTextReadsBack(t: nat)
    ensures ParseUnsignedDecimal(TenthsText(t)) == Some(t as real / 10.0)
  {
    var a := NatToString(t / 10);
    var d := DigitChar(t % 10);
    var s := TenthsText(t);
    assert s == a + ['.'] + [d];
    NatToStringHasNoPoint(t / 10);
    IndexOfAfterPrefix(a, '.', [d]);
    assert s[..|a|] == a && s[|a| + 1..] == [d];
    NatToStringRoundTrip(t / 10);
    assert FractionValue([d]) == (t % 10) as real / 10.0 by {
      assert [d][1..] == [];
    }
    assert (t / 10) as real + (t % 10) as real / 10.0 == t as real / 10.0;
  }

  lemma FigureOfFmtPct(p: real, withIcon: bool)
    ensures Figure(FmtPct(Some(p), withIcon), withIcon) == Fixed1(p)
  {
    var f := Fixed1(p);
    if withIcon {
      var r := Icon(TierOf(p)) + " " + f + "%";
      assert r[2..|r| - 1] == f;
    } else {
      var r := f + "%";
      assert r[..|r| - 1] == f;
    }
  }

  /** A run of digits (and a point) that reads back as `x`, after an optional minus sign, reads back as `x` with that sign. */
  lemma SignedReadsBack(negative: bool, u: string, x: real)
    requires |u| >= 1 && IsDigit(u[0]) && IsDigit(u[|u| - 1])
    requires ParseUnsignedDecimal(u) == Some(x)
    ensures ParseFloat(SignText(negative) + u) == Some(if negative then -x else x)
  {
    if negative {
      var f := "-" + u;
      assert f[0] == '-' && f[1..] == u && f[|f| - 1] == u[|u| - 1];
      StripNoop(f);
      ParseFloatNegative(f, u, x);
    } else {
      StripNoop(u);
      ParseFloatUnsigned(u);
    }
  }

  lemma ParseFloatNegative(s: string, u: string, x: real)
    requires |s| >= 1 && s[0] == '-' && s[1..] == u
    requires Strip(s) == s && ParseUnsignedDecimal(u) == Some(x)
    ensures ParseFloat(s) == Some(-x)
  {
  }

  lemma ParseFloatUnsigned(u: string)
    requires Strip(u) == u && |u| > 0 && IsDigit(u[0])
    ensures ParseFloat(u) == ParseUnsignedDecimal(u)
  {
  }

  /** `t` tenths written out with an optional minus sign read back as that signed value. */
  lemma SignedTenthsReadsBack(negative: bool, t: nat)
    ensures ParseFloat(SignText(negative) + TenthsText(t)) == Some(SignedTenths(negative, t))
  {
    var u := TenthsText(t);
    var x := t as real / 10.0;
    TenthsTextReadsBack(t);
    SignedReadsBack(negative, u, x);
    assert SignedTenths(negative, t) == if negative then -x else x;
  }

  /** What `f"{p:.1f}"` shows reads back as `p` rounded to tenths. */
  lemma Fixed1ReadsBack(p: real)
    ensures ParseFloat(Fixed1(p)) == Some(Rounded1(p))
  {
    SignedTenthsReadsBack(p < 0.0, TenthsOf(p));
  }

  /** The figure of a rendered percentage reads back as the percentage rounded to tenths. */
  lemma FmtPctReadsBack(p: real, withIcon: bool)
    ensures ParseFloat(Figure(FmtPct(Some(p), withIcon), withIcon)) == Some(Rounded1(p))
  {
    FigureOfFmtPct(p, withIcon);
    Fixed1ReadsBack(p);
  }

  /** Examples: a missing percentage, and 69.9 with and without the indicator. */
  lemma FmtPctExamples()
    ensures FmtPct(None, true) == Dash
    ensures FmtPct(Some(69.9), false) == "69.9%"
    ensures FmtPct(Some(69.9), true) == "\U{274C} 69.9%"
  {
    assert RoundHalfEven(699.0) == 699;
    assert NatToString(69) == "69";
  }
}

=== FILE: lines.dfy ===
/**
 * The text lines the report messages are made of, and their rendering: the
 * lines joined by newlines, stripped, and closed with one newline. A line keeps
 * its parts (a name, rendered percentages, counts) until it is rendered.
 */
module Lines {
  import opened Wrappers
  import opened Text
  import opened Format

  const Month := "M\U{00EA}s"

  /** One line of a message. Percentages are held as `fmt_pct` rendered them. */
  datatype Line =
    | Blank
    | Heading(text: string)
      /** "Ontem: <day>  |  Mês: <month>": the overall figures. */
    | Summary(day: string, month: string)
      /** "- <name>: Ontem <day>  |  Mês <month>": an area or a collaborator. */
    | Entry(name: string, day: string, month: string)
      /** "- <unit>: <pct>  |  Planejadas <n>  |  Feitas <n>": a group or network. */
    | Group(unit: string, pct: string, planned: int, done: int)

  /** The day's percentage plain, the month's with its indicator. */
  function SummaryOf(day: Option<real>, month: Option<real>): Line {
    Summary(FmtPct(day, false), FmtPct(month, true))
  }

  function EntryOf(name: string, day: Option<real>, month: Option<real>): Line {
    Entry(name, FmtPct(day, false), FmtPct(month, true))
  }

  function GroupOf(unit: string, pct: Option<real>, planned: int, done: int): Line {
    Group(unit, FmtPct(pct, true), planned, done)
  }

  function LineText(l: Line): string {
    match l
    case Blank => ""
    case Heading(t) => t
    case Summary(d, m) => "Ontem: " + d + "  |  " + Month + ": " + m
    case Entry(n, d, m) => "- " + n + ": Ontem " + d + "  |  " + Month + " " + m
    case Group(u, p, planned, done) =>
      "- " + u + ": " + p + "  |  Planejadas " + IntToString(planned) + "  |  Feitas " + IntToString(done)
  }

  function Texts(lines: seq<Line>): (r: seq<string>)
    ensures |r| == |lines| && forall i :: 0 <= i < |lines| ==> r[i] == LineText(lines[i])
  {
    if |lines| == 0 then [] else [LineText(lines[0])] + Texts(lines[1..])
  }

  /** `"\n".join(lines).strip() + "\n"`. */
  function Render(lines: seq<Line>): string {
    JoinLines(Texts(lines))
  }

  /** No newline inside `s`. */
  predicate OneLine(s: string) {
    '\n' !in s
  }

  function Last(s: string): char
    requires |s| >= 1
  {
    s[|s| - 1]
  }

  /** A line whose text does not start with whitespace. */
  predicate StartsClean(l: Line) {
    |LineText(l)| >= 1 && !IsSpace(LineText(l)[0])
  }

  /** A line whose text does not end with whitespace. */
  predicate EndsClean(l: Line) {
    |LineText(l)| >= 1 && !IsSpace(Last(LineText(l)))
  }

  /** What `fmt_pct` renders: one line, not empty, not ending in whitespace. */
  predicate FigureText(s: string) {
    OneLine(s) && |s| >= 1 && !IsSpace(Last(s))
  }

  lemma FmtPctFigure(p: Option<real>, withIcon: bool)
    ensures FigureText(FmtPct(p, withIcon))
  {
    FmtPctShape(p, withIcon);
  }

  /** The parts of a line: names and headings on one line, figures as `fmt_pct` renders them. */
  predicate WellFormed(l: Line) {
    match l
    case Blank => true
    case Heading(t) => OneLine(t)
    case Summary(d, m) => FigureText(d) && FigureText(m)
    case Entry(n, d, m) => OneLine(n) && FigureText(d) && FigureText(m)
    case Group(u, p, _, _) => OneLine(u) && FigureText(p)
  }

  ghost predicate AllWellFormed(lines: seq<Line>) {
    forall i :: 0 <= i < |lines| ==> WellFormed(lines[i])
  }

  lemma IndexOfConcat<T>(a: seq<T>, b: seq<T>, i: int)
    requires 0 <= i < |a + b|
    ensures (a + b)[i] == if i < |a| then a[i] else b[i - |a|]
  {
  }

  lemma FirstOfConcat<T>(a: seq<T>, b: seq<T>)
    requires |a| >= 1
    ensures (a + b)[0] == a[0]
  {
  }

  lemma LastOfConcat<T>(a: seq<T>, b: seq<T>)
    requires |a + b| >= 1
    ensures (a + b)[|a + b| - 1] == if |b| >= 1 then b[|b| - 1] else a[|a| - 1]
  {
  }

  lemma AllWellFormedConcat(a: seq<Line>, b: seq<Line>)
    requires AllWellFormed(a) && AllWellFormed(b)
    ensures AllWellFormed(a + b)
  {
    forall i | 0 <= i < |a + b| ensures WellFormed((a + b)[i]) {
      if i < |a| {
        assert (a + b)[i] == a[i];
      } else {
        assert (a + b)[i] == b[i - |a|];
      }
    }
  }

  lemma SummaryOfWellFormed(day: Option<real>, month: Option<real>)
    ensures WellFormed(SummaryOf(day, month))
  {
    FmtPctFigure(day, false);
    FmtPctFigure(month, true);
  }

  lemma EntryOfWellFormed(name: string, day: Option<real>, month: Option<real>)
    requires OneLine(name)
    ensures WellFormed(EntryOf(name, day, month))
  {
    FmtPctFigure(day, false);
    FmtPctFigure(month, true);
  }

  lemma GroupOfWellFormed(unit: string, pct: Option<real>, planned: int, done: int)
    requires OneLine(unit)
    ensures WellFormed(GroupOf(unit, pct, planned, done))
  {
    FmtPctFigure(pct, true);
  }

  lemma OneLineConcat(a: string, b: string)
    requires OneLine(a) && OneLine(b)
    ensures OneLine(a + b)
  {
  }

  /** A well-formed line renders as one line. */
  lemma LineTextOneLine(l: Line)
    requires WellFormed(l)
    ensures OneLine(LineText(l))
  {
    match l
    case Blank =>
    case Heading(_) =>
    case Summary(d, m) =>
      OneLineConcat("Ontem: " + d + "  |  " + Month + ": ", m);
    case Entry(n, d, m) =>
      OneLineConcat("- " + n + ": Ontem " + d + "  |  " + Month + " ", m);
    case Group(u, p, planned, done) =>
      OneLineConcat("- " + u + ": " + p + "  |  Planejadas " + IntToString(planned) + "  |  Feitas ", IntToString(done));
  }

  /** A figure line ends in a figure, so never in whitespace. */
  lemma FigureLineEnd(l: Line)
    requires WellFormed(l) && (l.Summary? || l.Entry? || l.Group?)
    ensures EndsClean(l)
  {
    match l
    case Summary(d, m) =>
      var t := LineText(l);
      assert t == ("Ontem: " + d + "  |  " + Month + ": ") + m;
      assert Last(t) == Last(m);
    case Entry(n, d, m) =>
      var t := LineText(l);
      assert t == ("- " + n + ": Ontem " + d + "  |  " + Month + " ") + m;
      assert Last(t) == Last(m);
    case Group(u, p, planned, done) =>
      var t := LineText(l);
      var n := IntToString(done);
      assert t == ("- " + u + ": " + p + "  |  Planejadas " + IntToString(planned) + "  |  Feitas ") + n;
      assert Last(t) == Last(n);
  }

  /**
   * Well-formed lines render to a text that reads back, line by line, as
   * exactly their texts, and ends with a single newline: the strip removes
   * nothing, because the first line does not start with whitespace and the
   * last does not end with it.
   */
  lemma RenderReadsBack(lines: seq<Line>)
    requires Renderable(lines)
    ensures SplitLines(Render(lines)) == Texts(lines)
    ensures EndsInOneNewline(Render(lines))
  {
    var texts := Texts(lines);
    assert Render(lines) == JoinLines(texts);
    TextsClean(lines);
    StrippedJoinReadsBack(texts);
    JoinLinesEnd(texts);
  }

  /** Well-formed lines, the first not starting with whitespace and the last not ending with it. */
  ghost predicate Renderable(lines: seq<Line>) {
    |lines| >= 1 && StartsClean(lines[0]) && EndsClean(lines[|lines| - 1]) && AllWellFormed(lines)
  }

  /** The texts of renderable lines are lines a text can be read back from. */
  lemma TextsClean(lines: seq<Line>)
    requires Renderable(lines)
    ensures CleanLines(Texts(lines))
  {
    TextsOneLine(lines);
    TextsFirst(lines);
    TextsLast(lines);
  }

  /** The texts of well-formed lines hold no newline. */
  lemma TextsOneLine(lines: seq<Line>)
    requires AllWellFormed(lines)
    ensures forall i :: 0 <= i < |Texts(lines)| ==> '\n' !in Texts(lines)[i]
  {
    var texts := Texts(lines);
    forall i | 0 <= i < |texts| ensures '\n' !in texts[i] {
      LineTextOneLine(lines[i]);
    }
  }

  /** The first text starts as the first line does. */
  lemma TextsFirst(lines: seq<Line>)
    requires |lines| >= 1 && StartsClean(lines[0])
    ensures |Texts(lines)| >= 1 && |Texts(lines)[0]| >= 1 && !IsSpace(Texts(lines)[0][0])
  {
    assert Texts(lines)[0] == LineText(lines[0]);
  }

  /** The last text ends as the last line does. */
  lemma TextsLast(lines: seq<Line>)
    requires |lines| >= 1 && EndsClean(lines[|lines| - 1])
    ensures var texts := Texts(lines);
            |texts| == |lines| && |texts[|texts| - 1]| >= 1 && !IsSpace(texts[|texts| - 1][|texts[|texts| - 1]| - 1])
  {
    LastTextEnds(Texts(lines), LineText(lines[|lines| - 1]));
  }

  lemma LastTextEnds(texts: seq<string>, t: string)
    requires |texts| >= 1 && texts[|texts| - 1] == t
    requires |t| >= 1 && !IsSpace(Last(t))
    ensures |texts[|texts| - 1]| >= 1 && !IsSpace(texts[|texts| - 1][|texts[|texts| - 1]| - 1])
  {
  }
}

=== FILE: messages.dfy ===
/**
 * The two WhatsApp messages of report_builder.py: the general report for the
 * general leaders and the per-area report for an area leader.
 */
module Messages {
  import opened Wrappers
  import opened Text
  import opened Metric
  import opened Format
  import opened Sorting
  import opened AreaOrder
  import opened Dicts
  import opened Lines

  const Unidentified := "N\U{00E3}o Identificada"
  const UnitKey := "unidade"

  const GeneralTitle := "\U{1F4CA} Relat\U{00F3}rio Merchandising (ref.: "
  const OverallHeading := "Ader\U{00EA}ncia ao Roteiro Geral"
  const AreasHeading := "\U{1F4CD} Ader\U{00EA}ncia ao Roteiro por \U{00C1}rea"
  const LeaderTitlePrefix := "\U{1F4CA} Relat\U{00F3}rio Merchan - "
  const AreaHeadingPrefix := "Ader\U{00EA}ncia ao Roteiro "
  const CollaboratorsHeading := "\U{1F465} Colaboradores (ordem alfab\U{00E9}tica)"

  const GroupsHeadingPrefix := "\U{1F3EA} Grupos/Redes Importantes ("

  function GroupsHeading(monthLabel: string): string {
    GroupsHeadingPrefix + monthLabel + ")"
  }

  function LeaderTitle(areaName: string, refLabel: string): string {
    LeaderTitlePrefix + areaName + " (ref.: " + refLabel + ")"
  }

  /**
   * `d.get(name, AdherenceMetric(0, 0, None)).aderencia_pct`: the percentage of
   * the name's entry, or none when it has no entry.
   */
  function FigureFor(byName: Dict<AdherenceMetric>, name: string): (r: Option<real>)
    ensures Lookup(byName, name).None? ==> r.None?
    ensures Lookup(byName, name).Some? ==> r == Lookup(byName, name).value.pct
  {
    GetOr(byName, name, NoMetric).pct
  }

  // ----- the general leaders' message -----

  /** `(r.get("area_merchan") or "Não Identificada").strip()`. */
  function AreaLabel(row: Row): string {
    Strip(TextOr(row, AreaKey, Unidentified))
  }

  /** An area's line: its own day figure, and its month figure looked up by its label. */
  function AreaEntry(row: Row, monthByArea: Dict<AdherenceMetric>): Line {
    var area := AreaLabel(row);
    EntryOf(area, MetricFromRow(row).pct, FigureFor(monthByArea, area))
  }

  function AreaEntries(ordered: seq<Row>, monthByArea: Dict<AdherenceMetric>): (r: seq<Line>)
    ensures |r| == |ordered|
    ensures forall i :: 0 <= i < |r| ==> r[i].Entry?
  {
    seq(|ordered|, i requires 0 <= i < |ordered| => AreaEntry(ordered[i], monthByArea))
  }


  function UnitLabel(row: Row): string {
    Strip(TextOr(row, UnitKey, ""))
  }

  /** A group's or network's line; its columns are read as `metric_from_row` reads them. */
  function GroupEntry(row: Row): Line {
    var m := MetricFromRow(row);
    GroupOf(UnitLabel(row), m.pct, m.planned, m.done)
  }

  function GroupEntries(rows: seq<Row>): (r: seq<Line>)
    ensures |r| == |rows|
    ensures forall i :: 0 <= i < |r| ==> r[i].Group?
  {
    seq(|rows|, i requires 0 <= i < |rows| => GroupEntry(rows[i]))
  }


  function GeneralHeader(refLabel: string, overallDay: AdherenceMetric, overallMonth: AdherenceMetric): seq<Line> {
    [Heading(GeneralTitle + refLabel + ")"), Blank, Heading(OverallHeading),
     SummaryOf(overallDay.pct, overallMonth.pct), Blank, Heading(AreasHeading)]
  }

  function GroupSection(monthLabel: string, groupRows: seq<Row>): seq<Line> {
    [Blank, Heading(GroupsHeading(monthLabel))] + GroupEntries(groupRows)
  }

  /** The lines of `build_general_leader_message`; a missing list of groups is the empty list. */
  function GeneralLines(priority: seq<string>, refLabel: string, monthLabel: string,
                        overallDay: AdherenceMetric, overallMonth: AdherenceMetric,
                        areasDay: seq<Row>, monthByArea: Dict<AdherenceMetric>,
                        includeGroups: bool, groupRows: seq<Row>): seq<Line>
  {
    GeneralHeader(refLabel, overallDay, overallMonth)
      + AreaEntries(OrderAreas(priority, areasDay), monthByArea)
      + (if includeGroups then GroupSection(monthLabel, groupRows) else [])
  }

  /** `build_general_leader_message`. */
  function GeneralMessage(priority: seq<string>, refLabel: string, monthLabel: string,
                          overallDay: AdherenceMetric, overallMonth: AdherenceMetric,
                          areasDay: seq<Row>, monthByArea: Dict<AdherenceMetric>,
                          includeGroups: bool, groupRows: seq<Row>): string
  {
    Render(GeneralLines(priority, refLabel, monthLabel, overallDay, overallMonth,
                        areasDay, monthByArea, includeGroups, groupRows))
  }

  /**
   * The general message opens with the title carrying the date label, the
   * overall figures on line 3 and the areas heading on line 5; it has one line
   * per area and, when the groups are asked for, two more plus one per group.
   */
  lemma GeneralLayout(priority: seq<string>, refLabel: string, monthLabel: string,
                      overallDay: AdherenceMetric, overallMonth: AdherenceMetric,
                      areasDay: seq<Row>, monthByArea: Dict<AdherenceMetric>,
                      includeGroups: bool, groupRows: seq<Row>)
    ensures var lines := GeneralLines(priority, refLabel, monthLabel, overallDay, overallMonth,
                                      areasDay, monthByArea, includeGroups, groupRows);
            && |lines| == 6 + |areasDay| + (if includeGroups then 2 + |groupRows| else 0)
            && lines[0] == Heading(GeneralTitle + refLabel + ")")
            && lines[3] == Summary(FmtPct(overallDay.pct, false), FmtPct(overallMonth.pct, true))
            && lines[5] == Heading(AreasHeading)
  {
    var header := GeneralHeader(refLabel, overallDay, overallMonth);
    var areas := AreaEntries(OrderAreas(priority, areasDay), monthByArea);
    var tail := if includeGroups then GroupSection(monthLabel, groupRows) else [];
    IndexOfConcat(header + areas, tail, 0);
    IndexOfConcat(header, areas, 0);
    IndexOfConcat(header + areas, tail, 3);
    IndexOfConcat(header, areas, 3);
    IndexOfConcat(header + areas, tail, 5);
    IndexOfConcat(header, areas, 5);
  }

  /**
   * Line 6 + k of the general message is the k-th area of the day in
   * `order_areas` order, with the area's own day figure and the month figure
   * found under its label (none, so the dash, when the month has no such entry).
   */
  lemma GeneralAreaLine(priority: seq<string>, refLabel: string, monthLabel: string,
                        overallDay: AdherenceMetric, overallMonth: AdherenceMetric,
                        areasDay: seq<Row>, monthByArea: Dict<AdherenceMetric>,
                        includeGroups: bool, groupRows: seq<Row>, k: int)
    requires 0 <= k < |areasDay|
    ensures var lines := GeneralLines(priority, refLabel, monthLabel, overallDay, overallMonth,
                                      areasDay, monthByArea, includeGroups, groupRows);
            var row := OrderAreas(priority, areasDay)[k];
            && |lines| > 6 + k
            && lines[6 + k] == Entry(AreaLabel(row), FmtPct(MetricFromRow(row).pct, false),
                                     FmtPct(FigureFor(monthByArea, AreaLabel(row)), true))
  {
    var row := OrderAreas(priority, areasDay)[k];
    var header := GeneralHeader(refLabel, overallDay, overallMonth);
    var areas := AreaEntries(OrderAreas(priority, areasDay), monthByArea);
    var tail := if includeGroups then GroupSection(monthLabel, groupRows) else [];
    IndexOfConcat(header + areas, tail, 6 + k);
    IndexOfConcat(header, areas, 6 + k);
    assert areas[k] == AreaEntry(row, monthByArea);
  }

  /**
   * With the groups asked for, the area lines are followed by a blank line, the
   * groups heading and, at 8 + (number of areas) + g, the g-th group row's line.
   */
  lemma GeneralGroupLine(priority: seq<string>, refLabel: string, monthLabel: string,
                         overallDay: AdherenceMetric, overallMonth: AdherenceMetric,
                         areasDay: seq<Row>, monthByArea: Dict<AdherenceMetric>,
                         groupRows: seq<Row>, g: int)
    requires 0 <= g < |groupRows|
    ensures var lines := GeneralLines(priority, refLabel, monthLabel, overallDay, overallMonth,
                                      areasDay, monthByArea, true, groupRows);
            var m := MetricFromRow(groupRows[g]);
            && |lines| > 8 + |areasDay| + g
            && lines[6 + |areasDay|] == Blank
            && lines[7 + |areasDay|] == Heading(GroupsHeading(monthLabel))
            && lines[8 + |areasDay| + g] == Group(UnitLabel(groupRows[g]), FmtPct(m.pct, true), m.planned, m.done)
  {
    var upper := GeneralHeader(refLabel, overallDay, overallMonth) + AreaEntries(OrderAreas(priority, areasDay), monthByArea);
    var front := [Blank, Heading(GroupsHeading(monthLabel))];
    var groups := GroupEntries(groupRows);
    IndexOfConcat(upper, front + groups, |upper|);
    IndexOfConcat(upper, front + groups, |upper| + 1);
    IndexOfConcat(upper, front + groups, |upper| + 2 + g);
    IndexOfConcat(front, groups, 2 + g);
    assert groups[g] == GroupEntry(groupRows[g]);
  }

  /** The groups heading appears in the general message exactly when the groups are asked for. */
  lemma GroupsSectionIffIncluded(priority: seq<string>, refLabel: string, monthLabel: string,
                                 overallDay: AdherenceMetric, overallMonth: AdherenceMetric,
                                 areasDay: seq<Row>, monthByArea: Dict<AdherenceMetric>,
                                 includeGroups: bool, groupRows: seq<Row>)
    ensures var lines := GeneralLines(priority, refLabel, monthLabel, overallDay, overallMonth,
                                      areasDay, monthByArea, includeGroups, groupRows);
            (exists i :: 0 <= i < |lines| && lines[i] == Heading(GroupsHeading(monthLabel))) <==> includeGroups
  {
    if includeGroups {
      var header := GeneralHeader(refLabel, overallDay, overallMonth);
      var areas := AreaEntries(OrderAreas(priority, areasDay), monthByArea);
      var front := [Blank, Heading(GroupsHeading(monthLabel))];
      var tail := front + GroupEntries(groupRows);
      var k := |header| + |areas| + 1;
      IndexOfConcat(header + areas, tail, k);
      IndexOfConcat(front, GroupEntries(groupRows), 1);
      var lines := GeneralLines(priority, refLabel, monthLabel, overallDay, overallMonth,
                                areasDay, monthByArea, includeGroups, groupRows);
      assert lines == header + areas + tail;
      assert lines[k] == Heading(GroupsHeading(monthLabel));
    } else {
      GroupsHeadingAbsent(priority, refLabel, monthLabel, overallDay, overallMonth, areasDay, monthByArea, groupRows);
    }
  }

  lemma GroupsHeadingAbsent(priority: seq<string>, refLabel: string, monthLabel: string,
                            overallDay: AdherenceMetric, overallMonth: AdherenceMetric,
                            areasDay: seq<Row>, monthByArea: Dict<AdherenceMetric>, groupRows: seq<Row>)
    ensures var lines := GeneralLines(priority, refLabel, monthLabel, overallDay, overallMonth,
                                      areasDay, monthByArea, false, groupRows);
            forall i :: 0 <= i < |lines| ==> lines[i] != Heading(GroupsHeading(monthLabel))
  {
    var header := GeneralHeader(refLabel, overallDay, overallMonth);
    var areas := AreaEntries(OrderAreas(priority, areasDay), monthByArea);
    var lines := header + areas + [];
    var h := GroupsHeading(monthLabel);
    assert h[0] == '\U{1F3EA}';
    forall i | 0 <= i < |lines| ensures lines[i] != Heading(h) {
      IndexOfConcat(header + areas, [], i);
      IndexOfConcat(header, areas, i);
      if i == 0 {
        assert header[0].text[0] == '\U{1F4CA}';
      } else if i == 2 {
        assert header[2].text[0] == 'A';
      } else if i == 5 {
        assert header[5].text[0] == '\U{1F4CD}';
      }
    }
  }

  // ----- the area leader's message -----

  function LeaderHeader(areaName: string, refLabel: string, areaDay: AdherenceMetric, areaMonth: AdherenceMetric): seq<Line> {
    [Heading(LeaderTitle(areaName, refLabel)), Blank, Heading(AreaHeadingPrefix + areaName),
     SummaryOf(areaDay.pct, areaMonth.pct), Blank, Heading(CollaboratorsHeading)]
  }

  /** The case-insensitive sort key of a collaborator's name. */
  function NameKey(name: string): Key {
    Key(0, Lower(name))
  }

  const NameKeyFn: string -> Key := NameKey

  /** Every element occurs at most once. */
  ghost predicate NoRepeats(s: seq<string>) {
    forall n :: multiset(s)[n] <= 1
  }

  /** The names of `names` that are not in `taken`, in order. */
  function Fresh(names: seq<string>, taken: seq<string>): (r: seq<string>)
    ensures forall n :: n in r <==> n in names && n !in taken
    ensures forall n :: multiset(r)[n] <= multiset(names)[n]
  {
    if names == [] then []
    else
      assert names == [names[0]] + names[1..];
      (if names[0] in taken then [] else [names[0]]) + Fresh(names[1..], taken)
  }

  lemma {:induction false} DistinctKeysOnce<V>(d: Dict<V>)
    requires DistinctKeys(d)
    ensures NoRepeats(Keys(d))
  {
    if d != [] {
      DistinctKeysOnce(d[1..]);
      assert Keys(d) == [d[0].0] + Keys(d[1..]);
      assert d[0].0 !in Keys(d[1..]);
    }
  }

  /** `sorted(names, key=str.casefold)`, with case folding limited to ASCII letters. */
  function SortedNames(names: seq<string>): (r: seq<string>)
    ensures forall n :: n in r <==> n in names
    ensures NoRepeats(names) ==> NoRepeats(r)
  {
    var r := SortBy(names, NameKeyFn);
    assert multiset(r) == multiset(names);
    assert forall n :: n in r <==> n in multiset(names);
    r
  }

  /**
   * The collaborators listed: every name of either map, each once when the maps'
   * keys are distinct, sorted by lower-cased name. Names that differ only in case
   * keep month-map order first, then day-map order.
   */
  function Roster<V>(dayByName: Dict<V>, monthByName: Dict<V>): (r: seq<string>)
    ensures forall n :: n in r <==> n in Keys(dayByName) || n in Keys(monthByName)
    ensures DistinctKeys(dayByName) && DistinctKeys(monthByName) ==> NoRepeats(r)
  {
    var all := Keys(monthByName) + Fresh(Keys(dayByName), Keys(monthByName));
    AllNamesOnce(dayByName, monthByName);
    SortedNames(all)
  }

  /** The roster is in order of lower-cased names. */
  lemma RosterSorted<V>(dayByName: Dict<V>, monthByName: Dict<V>)
    ensures SortedBy(Roster(dayByName, monthByName), NameKeyFn)
  {
    SortBySorted(Keys(monthByName) + Fresh(Keys(dayByName), Keys(monthByName)), NameKeyFn);
  }

  lemma AllNamesOnce<V>(dayByName: Dict<V>, monthByName: Dict<V>)
    ensures DistinctKeys(dayByName) && DistinctKeys(monthByName) ==>
              NoRepeats(Keys(monthByName) + Fresh(Keys(dayByName), Keys(monthByName)))
  {
    var added := Fresh(Keys(dayByName), Keys(monthByName));
    var all := Keys(monthByName) + added;
    if DistinctKeys(dayByName) && DistinctKeys(monthByName) {
      DistinctKeysOnce(dayByName);
      DistinctKeysOnce(monthByName);
      forall n ensures multiset(all)[n] <= 1 {
        assert multiset(all)[n] == multiset(Keys(monthByName))[n] + multiset(added)[n];
        if n in Keys(monthByName) {
          assert n !in added;
        }
      }
    }
  }

  function CollaboratorEntries(names: seq<string>, dayByName: Dict<AdherenceMetric>, monthByName: Dict<AdherenceMetric>): (r: seq<Line>)
    ensures |r| == |names|
    ensures forall i :: 0 <= i < |r| ==> r[i].Entry?
  {
    seq(|names|, i requires 0 <= i < |names| => CollaboratorEntry(names[i], dayByName, monthByName))
  }

  function CollaboratorEntry(name: string, dayByName: Dict<AdherenceMetric>, monthByName: Dict<AdherenceMetric>): Line {
    EntryOf(name, FigureFor(dayByName, name), FigureFor(monthByName, name))
  }

  /** The lines of `build_area_leader_message`; the leader's name and the month label do not appear in them. */
  function LeaderLines(areaName: string, refLabel: string, areaDay: AdherenceMetric, areaMonth: AdherenceMetric,
                       dayByName: Dict<AdherenceMetric>, monthByName: Dict<AdherenceMetric>): seq<Line>
  {
    LeaderHeader(areaName, refLabel, areaDay, areaMonth)
      + CollaboratorEntries(Roster(dayByName, monthByName), dayByName, monthByName)
  }

  /** `build_area_leader_message`. */
  function LeaderMessage(areaName: string, refLabel: string, areaDay: AdherenceMetric, areaMonth: AdherenceMetric,
                         dayByName: Dict<AdherenceMetric>, monthByName: Dict<AdherenceMetric>): string
  {
    Render(LeaderLines(areaName, refLabel, areaDay, areaMonth, dayByName, monthByName))
  }

  /**
   * After the six header lines comes one line per collaborator of either map, in
   * roster order, with the figures found under that name, or none (so the dash)
   * where a map has no entry for it.
   */
  lemma LeaderLayout(areaName: string, refLabel: string, areaDay: AdherenceMetric, areaMonth: AdherenceMetric,
                     dayByName: Dict<AdherenceMetric>, monthByName: Dict<AdherenceMetric>)
    ensures var lines := LeaderLines(areaName, refLabel, areaDay, areaMonth, dayByName, monthByName);
            var names := Roster(dayByName, monthByName);
            && |lines| == 6 + |names|
            && lines[0] == Heading(LeaderTitle(areaName, refLabel))
            && lines[3] == Summary(FmtPct(areaDay.pct, false), FmtPct(areaMonth.pct, true))
            && lines[5] == Heading(CollaboratorsHeading)
            && (forall k :: 0 <= k < |names| ==>
                  lines[6 + k] == Entry(names[k], FmtPct(FigureFor(dayByName, names[k]), false),
                                        FmtPct(FigureFor(monthByName, names[k]), true)))
  {
    var header := LeaderHeader(areaName, refLabel, areaDay, areaMonth);
    var names := Roster(dayByName, monthByName);
    var entries := CollaboratorEntries(names, dayByName, monthByName);
    var lines := header + entries;
    IndexOfConcat(header, entries, 0);
    IndexOfConcat(header, entries, 3);
    IndexOfConcat(header, entries, 5);
    forall k | 0 <= k < |names|
      ensures lines[6 + k] == Entry(names[k], FmtPct(FigureFor(dayByName, names[k]), false),
                                    FmtPct(FigureFor(monthByName, names[k]), true))
    {
      IndexOfConcat(header, entries, 6 + k);
    }
  }

  // ----- the rendered text -----

  lemma GeneralHeadingsOneLine()
    ensures OneLine(GeneralTitle) && OneLine(OverallHeading) && OneLine(AreasHeading) && OneLine(")")
  {
    GeneralTitleOneLine();
    OverallHeadingOneLine();
    AreasHeadingOneLine();
  }

  lemma GeneralTitleOneLine()
    ensures OneLine(GeneralTitle)
  {
  }

  lemma OverallHeadingOneLine()
    ensures OneLine(OverallHeading)
  {
  }

  lemma AreasHeadingOneLine()
    ensures OneLine(AreasHeading)
  {
  }

  lemma GroupsHeadingOneLine()
    ensures OneLine(GroupsHeadingPrefix) && OneLine(")")
  {
  }

  lemma LeaderHeadingsOneLine()
    ensures OneLine(LeaderTitlePrefix) && OneLine(AreaHeadingPrefix) && OneLine(CollaboratorsHeading)
    ensures OneLine(" (ref.: ") && OneLine(")")
  {
  }

  lemma GeneralHeaderWellFormed(refLabel: string, overallDay: AdherenceMetric, overallMonth: AdherenceMetric)
    requires OneLine(refLabel)
    ensures AllWellFormed(GeneralHeader(refLabel, overallDay, overallMonth))
  {
    var h := GeneralHeader(refLabel, overallDay, overallMonth);
    GeneralHeadingsOneLine();
    assert OneLine(GeneralTitle + refLabel + ")");
    SummaryOfWellFormed(overallDay.pct, overallMonth.pct);
    forall i | 0 <= i < |h| ensures WellFormed(h[i]) {
      if i == 0 {
        assert h[i] == Heading(GeneralTitle + refLabel + ")");
      } else if i == 2 {
        assert h[i] == Heading(OverallHeading);
      } else if i == 3 {
        assert h[i] == SummaryOf(overallDay.pct, overallMonth.pct);
      } else if i == 5 {
        assert h[i] == Heading(AreasHeading);
      }
    }
  }

  lemma AreaEntriesWellFormed(ordered: seq<Row>, monthByArea: Dict<AdherenceMetric>)
    requires forall r :: r in ordered ==> OneLine(AreaLabel(r))
    ensures AllWellFormed(AreaEntries(ordered, monthByArea))
  {
    var areas := AreaEntries(ordered, monthByArea);
    forall i | 0 <= i < |areas| ensures WellFormed(areas[i]) {
      var row := ordered[i];
      assert row in ordered;
      assert areas[i] == AreaEntry(row, monthByArea);
      EntryOfWellFormed(AreaLabel(row), MetricFromRow(row).pct, FigureFor(monthByArea, AreaLabel(row)));
    }
  }

  lemma GroupSectionWellFormed(monthLabel: string, groupRows: seq<Row>)
    requires OneLine(monthLabel)
    requires forall r :: r in groupRows ==> OneLine(UnitLabel(r))
    ensures AllWellFormed(GroupSection(monthLabel, groupRows))
  {
    var groups := GroupEntries(groupRows);
    forall i | 0 <= i < |groups| ensures WellFormed(groups[i]) {
      var row := groupRows[i];
      var m := MetricFromRow(row);
      assert row in groupRows;
      GroupOfWellFormed(UnitLabel(row), m.pct, m.planned, m.done);
    }
    var front := [Blank, Heading(GroupsHeading(monthLabel))];
    GroupsHeadingOneLine();
    assert WellFormed(front[1]);
    AllWellFormedConcat(front, groups);
  }

  /** The general message's first line starts with its chart sign. */
  lemma GeneralFirstLine(priority: seq<string>, refLabel: string, monthLabel: string,
                         overallDay: AdherenceMetric, overallMonth: AdherenceMetric,
                         areasDay: seq<Row>, monthByArea: Dict<AdherenceMetric>,
                         includeGroups: bool, groupRows: seq<Row>)
    ensures var lines := GeneralLines(priority, refLabel, monthLabel, overallDay, overallMonth,
                                      areasDay, monthByArea, includeGroups, groupRows);
            |lines| >= 1 && StartsClean(lines[0])
  {
    var header := GeneralHeader(refLabel, overallDay, overallMonth);
    var areas := AreaEntries(OrderAreas(priority, areasDay), monthByArea);
    var tail := if includeGroups then GroupSection(monthLabel, groupRows) else [];
    FirstOfConcat(header + areas, tail);
    FirstOfConcat(header, areas);
    assert LineText(header[0])[0] == '\U{1F4CA}';
  }

  /** The general message's last line ends in a figure, in ")" (no groups) or in "a" (no areas either). */
  lemma GeneralLastLine(priority: seq<string>, refLabel: string, monthLabel: string,
                        overallDay: AdherenceMetric, overallMonth: AdherenceMetric,
                        areasDay: seq<Row>, monthByArea: Dict<AdherenceMetric>,
                        includeGroups: bool, groupRows: seq<Row>)
    requires AllWellFormed(GeneralLines(priority, refLabel, monthLabel, overallDay, overallMonth,
                                        areasDay, monthByArea, includeGroups, groupRows))
    ensures var lines := GeneralLines(priority, refLabel, monthLabel, overallDay, overallMonth,
                                      areasDay, monthByArea, includeGroups, groupRows);
            |lines| >= 1 && EndsClean(lines[|lines| - 1])
  {
    var header := GeneralHeader(refLabel, overallDay, overallMonth);
    var areas := AreaEntries(OrderAreas(priority, areasDay), monthByArea);
    var groups := GroupEntries(groupRows);
    var front := [Blank, Heading(GroupsHeading(monthLabel))];
    var tail := if includeGroups then front + groups else [];
    var lines := header + areas + tail;
    var last := lines[|lines| - 1];
    LastOfConcat(header + areas, tail);
    assert WellFormed(last);
    if includeGroups {
      LastOfConcat(front, groups);
      if |groups| > 0 {
        FigureLineEnd(last);
      } else {
        assert Last(LineText(last)) == ')';
      }
    } else {
      LastOfConcat(header, areas);
      if |areas| > 0 {
        FigureLineEnd(last);
      } else {
        assert Last(LineText(last)) == 'a';
      }
    }
  }

  /** The general message's lines are well formed when no label, area or unit name carries a newline. */
  lemma GeneralWellFormed(priority: seq<string>, refLabel: string, monthLabel: string,
                          overallDay: AdherenceMetric, overallMonth: AdherenceMetric,
                          areasDay: seq<Row>, monthByArea: Dict<AdherenceMetric>,
                          includeGroups: bool, groupRows: seq<Row>)
    requires OneLine(refLabel) && OneLine(monthLabel)
    requires forall r :: r in areasDay ==> OneLine(AreaLabel(r))
    requires forall r :: r in groupRows ==> OneLine(UnitLabel(r))
    ensures AllWellFormed(GeneralLines(priority, refLabel, monthLabel, overallDay, overallMonth,
                                       areasDay, monthByArea, includeGroups, groupRows))
  {
    var header := GeneralHeader(refLabel, overallDay, overallMonth);
    var ordered := OrderAreas(priority, areasDay);
    var areas := AreaEntries(ordered, monthByArea);
    var tail := if includeGroups then GroupSection(monthLabel, groupRows) else [];
    GeneralHeaderWellFormed(refLabel, overallDay, overallMonth);
    forall r | r in ordered ensures OneLine(AreaLabel(r)) {
      assert r in multiset(ordered);
    }
    AreaEntriesWellFormed(ordered, monthByArea);
    AllWellFormedConcat(header, areas);
    if includeGroups {
      GroupSectionWellFormed(monthLabel, groupRows);
    }
    AllWellFormedConcat(header + areas, tail);
  }

  lemma GeneralRenderable(priority: seq<string>, refLabel: string, monthLabel: string,
                          overallDay: AdherenceMetric, overallMonth: AdherenceMetric,
                          areasDay: seq<Row>, monthByArea: Dict<AdherenceMetric>,
                          includeGroups: bool, groupRows: seq<Row>)
    requires OneLine(refLabel) && OneLine(monthLabel)
    requires forall r :: r in areasDay ==> OneLine(AreaLabel(r))
    requires forall r :: r in groupRows ==> OneLine(UnitLabel(r))
    ensures Renderable(GeneralLines(priority, refLabel, monthLabel, overallDay, overallMonth,
                                    areasDay, monthByArea, includeGroups, groupRows))
  {
    GeneralWellFormed(priority, refLabel, monthLabel, overallDay, overallMonth, areasDay, monthByArea, includeGroups, groupRows);
    GeneralFirstLine(priority, refLabel, monthLabel, overallDay, overallMonth, areasDay, monthByArea, includeGroups, groupRows);
    GeneralLastLine(priority, refLabel, monthLabel, overallDay, overallMonth, areasDay, monthByArea, includeGroups, groupRows);
  }

  /**
   * `build_general_leader_message` renders exactly its lines, one per text line,
   * and ends with a single newline, provided no label, area or unit name carries
   * a newline of its own.
   */
  lemma GeneralMessageReadsBack(priority: seq<string>, refLabel: string, monthLabel: string,
                                overallDay: AdherenceMetric, overallMonth: AdherenceMetric,
                                areasDay: seq<Row>, monthByArea: Dict<AdherenceMetric>,
                                includeGroups: bool, groupRows: seq<Row>)
    requires OneLine(refLabel) && OneLine(monthLabel)
    requires forall r :: r in areasDay ==> OneLine(AreaLabel(r))
    requires forall r :: r in groupRows ==> OneLine(UnitLabel(r))
    ensures var lines := GeneralLines(priority, refLabel, monthLabel, overallDay, overallMonth,
                                      areasDay, monthByArea, includeGroups, groupRows);
            var text := GeneralMessage(priority, refLabel, monthLabel, overallDay, overallMonth,
                                       areasDay, monthByArea, includeGroups, groupRows);
            && SplitLines(text) == Texts(lines)
            && EndsInOneNewline(text)
  {
    GeneralRenderable(priority, refLabel, monthLabel, overallDay, overallMonth, areasDay, monthByArea, includeGroups, groupRows);
    RenderReadsBack(GeneralLines(priority, refLabel, monthLabel, overallDay, overallMonth,
                                 areasDay, monthByArea, includeGroups, groupRows));
  }

  lemma LeaderHeaderWellFormed(areaName: string, refLabel: string, areaDay: AdherenceMetric, areaMonth: AdherenceMetric)
    requires OneLine(areaName) && OneLine(refLabel)
    ensures AllWellFormed(LeaderHeader(areaName, refLabel, areaDay, areaMonth))
  {
    var h := LeaderHeader(areaName, refLabel, areaDay, areaMonth);
    LeaderHeadingsOneLine();
    assert OneLine(LeaderTitle(areaName, refLabel));
    assert OneLine(AreaHeadingPrefix + areaName);
    SummaryOfWellFormed(areaDay.pct, areaMonth.pct);
    forall i | 0 <= i < |h| ensures WellFormed(h[i]) {
      if i == 0 {
        assert h[i] == Heading(LeaderTitle(areaName, refLabel));
      } else if i == 2 {
        assert h[i] == Heading(AreaHeadingPrefix + areaName);
      } else if i == 3 {
        assert h[i] == SummaryOf(areaDay.pct, areaMonth.pct);
      } else if i == 5 {
        assert h[i] == Heading(CollaboratorsHeading);
      }
    }
  }

  lemma CollaboratorEntriesWellFormed(names: seq<string>, dayByName: Dict<AdherenceMetric>, monthByName: Dict<AdherenceMetric>)
    requires forall n :: n in names ==> OneLine(n)
    ensures AllWellFormed(CollaboratorEntries(names, dayByName, monthByName))
  {
    var entries := CollaboratorEntries(names, dayByName, monthByName);
    forall i | 0 <= i < |entries| ensures WellFormed(entries[i]) {
      var n := names[i];
      assert n in names;
      EntryOfWellFormed(n, FigureFor(dayByName, n), FigureFor(monthByName, n));
    }
  }

  /** The area leader's message starts with its chart sign. */
  lemma LeaderFirstLine(areaName: string, refLabel: string, areaDay: AdherenceMetric, areaMonth: AdherenceMetric,
                        dayByName: Dict<AdherenceMetric>, monthByName: Dict<AdherenceMetric>)
    ensures var lines := LeaderLines(areaName, refLabel, areaDay, areaMonth, dayByName, monthByName);
            |lines| >= 1 && StartsClean(lines[0])
  {
    var header := LeaderHeader(areaName, refLabel, areaDay, areaMonth);
    var entries := CollaboratorEntries(Roster(dayByName, monthByName), dayByName, monthByName);
    LeaderTitleStarts(areaName, refLabel);
    assert header[0] == Heading(LeaderTitle(areaName, refLabel));
    FirstOfConcat(header, entries);
  }

  lemma LeaderTitleStarts(areaName: string, refLabel: string)
    ensures StartsClean(Heading(LeaderTitle(areaName, refLabel)))
  {
    assert LeaderTitle(areaName, refLabel)[0] == '\U{1F4CA}';
  }

  /** The area leader's message ends in a figure, or in ")" when nobody is listed. */
  lemma LeaderLastLine(areaName: string, refLabel: string, areaDay: AdherenceMetric, areaMonth: AdherenceMetric,
                       dayByName: Dict<AdherenceMetric>, monthByName: Dict<AdherenceMetric>)
    requires AllWellFormed(LeaderLines(areaName, refLabel, areaDay, areaMonth, dayByName, monthByName))
    ensures var lines := LeaderLines(areaName, refLabel, areaDay, areaMonth, dayByName, monthByName);
            |lines| >= 1 && EndsClean(lines[|lines| - 1])
  {
    var header := LeaderHeader(areaName, refLabel, areaDay, areaMonth);
    var entries := CollaboratorEntries(Roster(dayByName, monthByName), dayByName, monthByName);
    var lines := header + entries;
    var last := lines[|lines| - 1];
    LastOfConcat(header, entries);
    assert WellFormed(last);
    if |entries| > 0 {
      FigureLineEnd(last);
    } else {
      assert Last(LineText(last)) == ')';
    }
  }

  lemma LeaderRenderable(areaName: string, refLabel: string, areaDay: AdherenceMetric, areaMonth: AdherenceMetric,
                         dayByName: Dict<AdherenceMetric>, monthByName: Dict<AdherenceMetric>)
    requires OneLine(areaName) && OneLine(refLabel)
    requires forall n :: n in Keys(dayByName) || n in Keys(monthByName) ==> OneLine(n)
    ensures Renderable(LeaderLines(areaName, refLabel, areaDay, areaMonth, dayByName, monthByName))
  {
    var header := LeaderHeader(areaName, refLabel, areaDay, areaMonth);
    var names := Roster(dayByName, monthByName);
    var entries := CollaboratorEntries(names, dayByName, monthByName);
    LeaderHeaderWellFormed(areaName, refLabel, areaDay, areaMonth);
    CollaboratorEntriesWellFormed(names, dayByName, monthByName);
    AllWellFormedConcat(header, entries);
    LeaderFirstLine(areaName, refLabel, areaDay, areaMonth, dayByName, monthByName);
    LeaderLastLine(areaName, refLabel, areaDay, areaMonth, dayByName, monthByName);
  }

  /**
   * `build_area_leader_message` renders exactly its lines and ends with a single
   * newline, provided the area, the date label and the names carry no newline.
   */
  lemma LeaderMessageReadsBack(areaName: string, refLabel: string, areaDay: AdherenceMetric, areaMonth: AdherenceMetric,
                               dayByName: Dict<AdherenceMetric>, monthByName: Dict<AdherenceMetric>)
    requires OneLine(areaName) && OneLine(refLabel)
    requires forall n :: n in Keys(dayByName) || n in Keys(monthByName) ==> OneLine(n)
    ensures var text := LeaderMessage(areaName, refLabel, areaDay, areaMonth, dayByName, monthByName);
            && SplitLines(text) == Texts(LeaderLines(areaName, refLabel, areaDay, areaMonth, dayByName, monthByName))
            && EndsInOneNewline(text)
  {
    LeaderRenderable(areaName, refLabel, areaDay, areaMonth, dayByName, monthByName);
    RenderReadsBack(LeaderLines(areaName, refLabel, areaDay, areaMonth, dayByName, monthByName));
  }
}

=== FILE: metric.dfy ===
/**
 * The adherence metric of report_builder.py and its safe construction from the
 * loosely-typed rows the database returns.
 */
module Metric {
  import opened Wrappers
  import opened Text

  /** A value of a result row as the driver hands it over. */
  datatype Value = VNone | VInt(i: int) | VReal(x: real) | VText(s: string)

  /** A result row: column name to value; a column the query lacks is absent. */
  type Row = map<string, Value>

  /** (visits done, visits planned, adherence percentage or none). */
  datatype AdherenceMetric = AdherenceMetric(done: int, planned: int, pct: Option<real>)

  /** `AdherenceMetric(0, 0, None)`, the stand-in for a missing figure. */
  const NoMetric := AdherenceMetric(0, 0, None)

  const DoneKey := "visitas_feitas"
  const PlannedKey := "visitas_planejadas"
  const PctKey := "aderencia_pct"

  /** The three column names differ (they differ in length). */
  lemma KeysDistinct()
    ensures DoneKey != PlannedKey && DoneKey != PctKey && PlannedKey != PctKey
  {
    assert |DoneKey| == 14 && |PlannedKey| == 18 && |PctKey| == 13;
  }

  /** Python's `row.get(key, default)`. */
  function Get(row: Row, key: string, default: Value): (v: Value)
    ensures key !in row ==> v == default
    ensures key in row ==> v == row[key]
  {
    if key in row then row[key] else default
  }

  /**
   * `(row.get(key) or default)` for a text column: a missing, NULL or empty value
   * gives `default`.
   */
  function TextOr(row: Row, key: string, default: string): (r: string)
    ensures key in row && row[key].VText? && row[key].s != "" ==> r == row[key].s
    ensures !(key in row && row[key].VText?) ==> r == default
    ensures key in row && row[key] == VText("") ==> r == default
  {
    if key in row && row[key].VText? && row[key].s != "" then row[key].s else default
  }

  /** Python's `int(x)` on a float: truncation toward zero. */
  function Truncate(x: real): (r: int)
    ensures x >= 0.0 ==> r as real <= x < r as real + 1.0
    ensures x < 0.0 ==> r as real - 1.0 < x <= r as real
  {
    if x >= 0.0 then x.Floor else -((-x).Floor)
  }

  /** `_safe_int`: Python's `int(x)`, with 0 whenever that raises. */
  function SafeInt(v: Value): (r: int)
    ensures v.VNone? ==> r == 0
    ensures v.VInt? ==> r == v.i
    ensures v.VText? && ParseInt(v.s).None? ==> r == 0
  {
    match v
    case VNone => 0
    case VInt(i) => i
    case VReal(x) => Truncate(x)
    case VText(s) => ParseInt(s).GetOr(0)
  }

  /** The value of the digits after a decimal point: `.d1d2...` read as a fraction. */
  function FractionValue(fp: string): (r: real)
    requires AllDigits(fp)
    ensures 0.0 <= r <= 1.0
  {
    if fp == [] then 0.0 else (DigitValue(fp[0]) as real + FractionValue(fp[1..])) / 10.0
  }

  /** An unsigned decimal `ddd`, `ddd.`, `.ddd` or `ddd.ddd`. */
  function ParseUnsignedDecimal(t: string): Option<real> {
    var k := IndexOf(t, '.');
    if k == |t| then
      if |t| > 0 && AllDigits(t) then Some(DigitsValue(t) as real) else None
    else
      var ip := t[..k];
      var fp := t[k + 1..];
      if |ip| + |fp| > 0 && AllDigits(ip) && AllDigits(fp)
      then Some(DigitsValue(ip) as real + FractionValue(fp))
      else None
  }

  /**
   * Python's `float(s)` on a string, restricted to plain decimal notation:
   * surrounding whitespace, an optional sign, digits with an optional point.
   */
  function ParseFloat(s: string): (r: Option<real>)
    ensures Strip(s) == [] ==> r.None?
  {
    var t := Strip(s);
    if |t| > 0 && (t[0] == '-' || t[0] == '+') then
      match ParseUnsignedDecimal(t[1..])
      case Some(x) => Some(if t[0] == '-' then -x else x)
      case None => None
    else ParseUnsignedDecimal(t)
  }

  /** Python's `float(x)`, with `None` whenever that raises. */
  function SafeFloat(v: Value): (r: Option<real>)
    ensures v.VNone? ==> r.None?
    ensures v.VInt? ==> r == Some(v.i as real)
    ensures v.VReal? ==> r == Some(v.x)
  {
    match v
    case VNone => None
    case VInt(i) => Some(i as real)
    case VReal(x) => Some(x)
    case VText(s) => ParseFloat(s)
  }

  /** `metric_from_row`. */
  function MetricFromRow(row: Row): AdherenceMetric {
    AdherenceMetric(
      SafeInt(Get(row, DoneKey, VInt(0))),
      SafeInt(Get(row, PlannedKey, VInt(0))),
      SafeFloat(Get(row, PctKey, VNone)))
  }

  /**
   * `metric_from_row` never fails: a missing or unusable count becomes 0 and a
   * missing or unusable percentage becomes none.
   */
  lemma MetricFromRowColumns(row: Row)
    ensures var m := MetricFromRow(row);
            && (DoneKey !in row || row[DoneKey].VNone? ==> m.done == 0)
            && (DoneKey in row && row[DoneKey].VInt? ==> m.done == row[DoneKey].i)
            && (DoneKey in row && row[DoneKey].VText? && ParseInt(row[DoneKey].s).None? ==> m.done == 0)
            && (PlannedKey !in row || row[PlannedKey].VNone? ==> m.planned == 0)
            && (PlannedKey in row && row[PlannedKey].VInt? ==> m.planned == row[PlannedKey].i)
            && (PlannedKey in row && row[PlannedKey].VText? && ParseInt(row[PlannedKey].s).None? ==> m.planned == 0)
            && (PctKey !in row || row[PctKey].VNone? ==> m.pct.None?)
            && (PctKey in row && row[PctKey].VReal? ==> m.pct == Some(row[PctKey].x))
            && (PctKey in row && row[PctKey].VText? && ParseFloat(row[PctKey].s).None? ==> m.pct.None?)
  {
  }

  /** The row a query returns for a metric, with the driver's typed values. */
  function MetricRow(m: AdherenceMetric): Row {
    map[DoneKey := VInt(m.done), PlannedKey := VInt(m.planned),
        PctKey := if m.pct.Some? then VReal(m.pct.value) else VNone]
  }

  /** The same row with every value delivered as text. */
  function MetricTextRow(m: AdherenceMetric): Row
    requires m.pct.None?
  {
    map[DoneKey := VText(IntToString(m.done)), PlannedKey := VText(IntToString(m.planned)),
        PctKey := VNone]
  }

  /** Reading a metric back from its row gives the metric. */
  lemma MetricRowRoundTrip(m: AdherenceMetric)
    ensures MetricFromRow(MetricRow(m)) == m
  {
  }

  /** Counts delivered as text are read back exactly. */
  lemma MetricTextRowRoundTrip(m: AdherenceMetric)
    requires m.pct.None?
    ensures MetricFromRow(MetricTextRow(m)) == m
  {
    var row := MetricTextRow(m);
    KeysDistinct();
    assert Get(row, DoneKey, VInt(0)) == VText(IntToString(m.done));
    assert Get(row, PlannedKey, VInt(0)) == VText(IntToString(m.planned));
    assert Get(row, PctKey, VNone) == VNone;
    IntToStringRoundTrip(m.done);
    IntToStringRoundTrip(m.planned);
  }

  /** A row with nothing usable in it still yields a metric: the empty one. */
  lemma EmptyRowIsNoMetric()
    ensures MetricFromRow(map[]) == NoMetric
    ensures MetricFromRow(map[DoneKey := VText("abc"), PctKey := VText("n/a")]) == NoMetric
  {
    StripNoop("abc");
    assert !IsDigit("abc"[0]);
    StripNoop("n/a");
    assert !IsDigit("n/a"[0]);
    assert IndexOf("n/a", '.') == 3;
  }

  /** `scalar_metric`: the metric of the first row, or the empty metric for no rows. */
  function ScalarMetric(rows: seq<Row>): (m: AdherenceMetric)
    ensures rows == [] ==> m == NoMetric
    ensures rows != [] ==> m == MetricFromRow(rows[0])
  {
    if rows == [] then NoMetric else MetricFromRow(rows[0])
  }

  /** A query whose first row carries a metric yields that metric, whatever rows follow. */
  lemma ScalarMetricOfRows(m: AdherenceMetric, rest: seq<Row>)
    ensures ScalarMetric([MetricRow(m)] + rest) == m
    ensures ScalarMetric([]) == NoMetric
  {
    MetricRowRoundTrip(m);
  }
}

=== FILE: period.dfy ===
/**
 * The business calendar of a run (main.py): which days send, which day the
 * "yesterday" figures describe, and the half-open windows the queries cover.
 */
module Period {
  import opened Calendar

  const Monday: nat := 0
  const Saturday: nat := 5
  const Sunday: nat := 6

  /** Reports go out Monday to Saturday; a Sunday run does nothing. */
  function ShouldSendToday(today: Day): (r: bool)
    ensures r <==> Weekday(today) != Sunday
  {
    Weekday(today) != 6
  }

  /** On the civil calendar: Sunday 2026-01-11 sends nothing, Monday 2026-01-12 sends. */
  lemma ShouldSendCivilExamples()
    ensures !ShouldSendToday(ToDay(Civil(2026, 1, 11)))
    ensures ShouldSendToday(ToDay(Civil(2026, 1, 12)))
  {
    ExampleMonday();
    assert ToDay(Civil(2026, 1, 11)) + 1 == ToDay(Civil(2026, 1, 12));
  }

  /** Exactly one day in each week of seven consecutive days sends nothing. */
  lemma OneQuietDayPerWeek(d: Day, e: Day)
    requires d <= e < d + 7 && !ShouldSendToday(e)
    ensures forall k :: d <= k < d + 7 && k != e ==> ShouldSendToday(k)
  {
  }

  /**
   * The day the "yesterday" figures describe: the Saturday before a Monday run,
   * the previous day otherwise. Day 0 (0001-01-01) is a Monday and the source's
   * date arithmetic raises before it, so a run on day 0 is excluded.
   */
  function ReferenceDate(today: Day): (r: Day)
    requires today != 0
    ensures r < today && Weekday(r) != Sunday
    ensures forall d :: r < d < today ==> Weekday(d) == Sunday
  {
    if Weekday(today) == Monday then today - 2 else today - 1
  }

  /** `ReferenceDate` is the latest working day (not a Sunday) strictly before the run day. */
  lemma ReferenceIsLatestWorkingDay(today: Day, d: Day)
    requires today != 0 && d < today && Weekday(d) != Sunday
    ensures d <= ReferenceDate(today)
  {
  }

  /** The first day of the reference date's month. */
  function MonthStart(d: Day): (r: Day)
    ensures r <= d && d - r == FromDay(d).day - 1
    ensures FromDay(r) == Civil(FromDay(d).year, FromDay(d).month, 1)
  {
    var c := FromDay(d);
    var first := Civil(c.year, c.month, 1);
    CivilRoundTrip(first);
    ToDay(first)
  }

  /** The Monday on or before `d`. */
  function WeekStart(d: Day): (r: Day)
    ensures Weekday(r) == Monday && r <= d < r + 7
  {
    d - Weekday(d)
  }

  /** Any Monday within the six days before `d` (or `d` itself) is `WeekStart(d)`. */
  lemma WeekStartUnique(d: Day, m: Day)
    requires Weekday(m) == Monday && m <= d < m + 7
    ensures m == WeekStart(d)
  {
  }

  lemma WeekdayPlusWeek(d: Day)
    ensures Weekday(d + 7) == Weekday(d)
  {
  }

  /** The Monday of the week before `d`'s week. */
  function PrevWeekStart(d: Day): (r: Day)
    requires WeekStart(d) >= 7
    ensures Weekday(r) == Monday && r + 7 == WeekStart(d)
  {
    var ws := WeekStart(d);
    WeekdayPlusWeek(ws - 7);
    ws - 7
  }

  /** A half-open interval of days `[start, end)`. */
  datatype Window = Window(start: Day, end: Day) {
    predicate Contains(d: Day) {
      start <= d < end
    }
  }

  /** Everything one run derives from its run day (main.py, before any query). */
  datatype RunDates = RunDates(
    reference: Day,
    dayWindow: Window,
    monthWindow: Window,
    prevWeekWindow: Window,
    isMonday: bool)

  /** The date texts the messages show (`strftime` of the dates above). */
  datatype Labels = Labels(
    refLabel: string,
    monthLabel: string,
    prevWeekLabel: string,
    yesterdayLabel: string)

  /** "dd/mm a dd/mm" from a Monday `s` to the Saturday `s + 5`. */
  function WeekSpan(s: Day): (t: string)
    ensures |t| == 13 && t[..5] == DayMonth(s) && t[5..8] == " a " && t[8..] == DayMonth(s + 5)
  {
    var a := DayMonth(s);
    var b := DayMonth(s + 5);
    DayMonthReadsBack(s);
    DayMonthReadsBack(s + 5);
    ConcatParts(a, b);
    a + " a " + b
  }

  lemma ConcatParts(a: string, b: string)
    requires |a| == 5 && |b| == 5
    ensures var t := a + " a " + b;
            |t| == 13 && t[..5] == a && t[5..8] == " a " && t[8..] == b
  {
  }

  /**
   * The reference date as `%d/%m/%Y` for the titles, the month as `%m`, the previous
   * week as "Monday a Saturday" in `%d/%m`, and the "yesterday" label, which is the
   * day BEFORE the reference date (main.py:170), not the reference date itself.
   */
  function LabelsOf(r: RunDates): (l: Labels)
    requires r.reference >= 1
    ensures l.refLabel == DayMonthYear(r.reference)
    ensures l.monthLabel == MonthNumber(r.monthWindow.start)
    ensures l.prevWeekLabel == WeekSpan(r.prevWeekWindow.start)
    ensures l.yesterdayLabel == DayMonth(r.reference - 1)
  {
    Labels(
      DayMonthYear(r.reference),
      MonthNumber(r.monthWindow.start),
      WeekSpan(r.prevWeekWindow.start),
      DayMonth(r.reference - 1))
  }

  /**
   * The dates of a reporting run. The source computes the previous week's Monday
   * with date arithmetic that raises before 0001-01-01, hence the requirement that
   * the reference week is not the first one.
   */
  function PlanDates(today: Day): (r: RunDates)
    requires ShouldSendToday(today) && today != 0
    requires WeekStart(ReferenceDate(today)) >= 7
    ensures r.reference == ReferenceDate(today)
    ensures r.dayWindow.end - r.dayWindow.start == 1 && r.dayWindow.Contains(r.reference)
    ensures r.monthWindow.Contains(r.reference) && !r.monthWindow.Contains(today)
    ensures r.monthWindow.end == today
    ensures FromDay(r.monthWindow.start).day == 1
    ensures FromDay(r.monthWindow.start).year == FromDay(r.reference).year
    ensures FromDay(r.monthWindow.start).month == FromDay(r.reference).month
    ensures r.prevWeekWindow == Window(PrevWeekStart(r.reference), PrevWeekStart(r.reference) + 6)
    ensures r.isMonday <==> Weekday(today) == Monday
  {
    var ref := ReferenceDate(today);
    var ms := MonthStart(ref);
    var wsPrev := PrevWeekStart(ref);
    RunDates(
      ref,
      Window(ref, ref + 1),
      Window(ms, today),
      Window(wsPrev, wsPrev + 6),
      Weekday(today) == 0)
  }

  /**
   * In a run's labels the previous week reads "dd/mm a dd/mm", from the Monday that
   * opens the previous-week window to the Saturday that is the window's last day,
   * two days before the reference week's Monday.
   */
  lemma PrevWeekLabelSpan(today: Day, r: RunDates, s: Day, e: Day)
    requires ShouldSendToday(today) && today != 0
    requires WeekStart(ReferenceDate(today)) >= 7
    requires r == PlanDates(today) && s == r.prevWeekWindow.start && e == s + 5
    ensures var l := LabelsOf(r).prevWeekLabel;
            |l| == 13 && l[..5] == DayMonth(s) && l[5..8] == " a " && l[8..] == DayMonth(e)
    ensures Weekday(s) == Monday && Weekday(e) == Saturday
    ensures r.prevWeekWindow.Contains(e) && !r.prevWeekWindow.Contains(e + 1)
    ensures e + 2 == WeekStart(r.reference)
  {
    PrevWeekSpanOf(r, s, e);
  }

  /** The same facts for any run whose previous-week window is the one PlanDates builds. */
  lemma PrevWeekSpanOf(r: RunDates, s: Day, e: Day)
    requires WeekStart(r.reference) >= 7
    requires r.prevWeekWindow == Window(PrevWeekStart(r.reference), PrevWeekStart(r.reference) + 6)
    requires s == r.prevWeekWindow.start && e == s + 5
    ensures var l := LabelsOf(r).prevWeekLabel;
            |l| == 13 && l[..5] == DayMonth(s) && l[5..8] == " a " && l[8..] == DayMonth(e)
    ensures Weekday(s) == Monday && Weekday(e) == Saturday
    ensures r.prevWeekWindow.Contains(e) && !r.prevWeekWindow.Contains(e + 1)
    ensures e + 2 == WeekStart(r.reference)
  {
    PrevWeekEnd(r.reference, s, e);
    PrevWeekLabelOf(r, s, e);
  }

  lemma PrevWeekLabelOf(r: RunDates, s: Day, e: Day)
    requires r.reference >= 1 && s == r.prevWeekWindow.start && e == s + 5
    ensures var l := LabelsOf(r).prevWeekLabel;
            |l| == 13 && l[..5] == DayMonth(s) && l[5..8] == " a " && l[8..] == DayMonth(e)
  {
    SpanParts(LabelsOf(r).prevWeekLabel, s, e);
  }

  lemma SpanParts(l: string, s: Day, e: Day)
    requires l == WeekSpan(s) && e == s + 5
    ensures |l| == 13 && l[..5] == DayMonth(s) && l[5..8] == " a " && l[8..] == DayMonth(e)
  {
    var b := DayMonth(s + 5);
    assert b == DayMonth(e);
    assert l[8..] == b;
  }

  lemma PrevWeekEnd(ref: Day, s: Day, e: Day)
    requires WeekStart(ref) >= 7 && s == PrevWeekStart(ref) && e == s + 5
    ensures Weekday(s) == Monday && Weekday(e) == Saturday && e + 2 == WeekStart(ref)
  {
    PrevWeekIsMondayToSaturday(ref, s);
  }

  /**
   * The previous-week window `[PrevWeekStart(ref), PrevWeekStart(ref) + 6)` covers
   * exactly Monday to Saturday of the week before the reference week, and the label's
   * end day `PrevWeekStart(ref) + 5` is that Saturday.
   */
  lemma PrevWeekIsMondayToSaturday(ref: Day, d: Day)
    requires WeekStart(ref) >= 7
    ensures var s := PrevWeekStart(ref);
            (s <= d < s + 6) <==> (WeekStart(d) == WeekStart(ref) - 7 && Weekday(d) != Sunday)
    ensures Weekday(PrevWeekStart(ref) + 5) == Saturday
  {
    var s := PrevWeekStart(ref);
    if s <= d < s + 7 {
      WeekStartUnique(d, s);
      assert d % 7 == d - s;
    }
    if WeekStart(d) == s {
      assert s <= d < s + 7;
    }
  }

  /** On a month's first day that is also a Monday, the month window anchors on the reference date's month. */
  lemma MondayFirstOfMonth()
    ensures var today := ToDay(Civil(2025, 9, 1));
            Weekday(today) == Monday
            && FromDay(PlanDates(today).monthWindow.start) == Civil(2025, 8, 1)
  {
    var today := ToDay(Civil(2025, 9, 1));
    var sat := Civil(2025, 8, 30);
    assert ReferenceDate(today) == ToDay(sat);
    CivilRoundTrip(sat);
  }
}

=== FILE: phone.dfy ===
/** `normalize_phone_to_e164` of report_builder.py: towards ITU-T E.164 ("+" country code, digits). */
module Phone {
  import opened Text

  /** The separators removed before anything else: space, dash, parentheses. */
  const Separators: set<char> := {' ', '-', '(', ')'}

  /** Brazil's country calling code, assumed for bare 10- and 11-digit numbers. */
  const HomeCode := "55"

  /** The phone text after stripping whitespace and removing separators. */
  function Cleaned(raw: string): (s: string)
    ensures forall i :: 0 <= i < |s| ==> s[i] !in Separators
  {
    Without(Strip(raw), Separators)
  }

  /**
   * A cleaned text that already starts with "+" is kept as it is. Otherwise only
   * its digits count: digits starting "55" get a "+", 10 or 11 digits get "+55",
   * other digits get a "+", and no digits give the empty string.
   */
  function NormalizePhone(raw: string): (r: string)
    ensures r == [] || r[0] == '+'
    ensures StartsWith(Cleaned(raw), "+") ==> r == Cleaned(raw)
    ensures !StartsWith(Cleaned(raw), "+") ==>
      (r == [] <==> DigitsOf(Cleaned(raw)) == [])
      && (r != [] ==> AllDigits(r[1..]) && EndsWith(r, DigitsOf(Cleaned(raw))))
    ensures !StartsWith(Cleaned(raw), "+") ==>
      var d := DigitsOf(Cleaned(raw));
      r == if StartsWith(d, HomeCode) then "+" + d
           else if |d| == 10 || |d| == 11 then "+" + HomeCode + d
           else if d == [] then ""
           else "+" + d
  {
    FromCleaned(Cleaned(raw))
  }

  function FromCleaned(s: string): (r: string)
    ensures r == [] || r[0] == '+'
    ensures StartsWith(s, "+") ==> r == s
    ensures !StartsWith(s, "+") ==>
      (r == [] <==> DigitsOf(s) == [])
      && (r != [] ==> AllDigits(r[1..]) && EndsWith(r, DigitsOf(s)))
  {
    if StartsWith(s, "+") then s else FromDigits(DigitsOf(s))
  }

  /** The digits branch: "55..." gets a "+", 10 or 11 digits get "+55", others a "+", none stay none. */
  function FromDigits(digits: string): (r: string)
    ensures r == [] || r[0] == '+'
    ensures r == [] <==> digits == []
    ensures r != [] ==> EndsWith(r, digits) && (AllDigits(digits) ==> AllDigits(r[1..]))
  {
    PlusDigitsShape(digits);
    assert ("+" + HomeCode + digits) == "+" + (HomeCode + digits);
    if StartsWith(digits, HomeCode) then "+" + digits
    else if |digits| == 10 || |digits| == 11 then "+" + HomeCode + digits
    else if digits != [] then "+" + digits
    else ""
  }

  lemma PlusDigitsShape(d: string)
    ensures ("+" + d)[1..] == d && EndsWith("+" + d, d)
    ensures EndsWith("+" + HomeCode + d, d)
    ensures AllDigits(d) ==> AllDigits(("+" + HomeCode + d)[1..])
  {
    var t := "+" + HomeCode + d;
    assert t[|t| - |d|..] == d;
    assert t[1..] == HomeCode + d;
  }

  /** What the non-"+" branches produce: "+" then digits, after an optional "55". */
  lemma NormalizedDigitsShape(raw: string)
    requires !StartsWith(Cleaned(raw), "+") && NormalizePhone(raw) != []
    ensures var d := DigitsOf(Cleaned(raw));
            var r := NormalizePhone(raw);
            r == "+" + d || (r == "+" + HomeCode + d && (|d| == 10 || |d| == 11))
  {
  }

  /** "+" followed only by digits is already normal. */
  lemma PlusDigitsIsFixed(d: string)
    requires AllDigits(d)
    ensures NormalizePhone("+" + d) == "+" + d
  {
    var r := "+" + d;
    StripNoop(r);
    assert forall i :: 0 <= i < |r| ==> r[i] !in Separators by {
      forall i | 0 <= i < |r| ensures r[i] !in Separators {
        if i > 0 {
          assert r[i] == d[i - 1];
        }
      }
    }
  }

  /** Normalising the output of the digit branches again changes nothing. */
  lemma NormalizeIdempotent(raw: string)
    requires !StartsWith(Cleaned(raw), "+")
    ensures NormalizePhone(NormalizePhone(raw)) == NormalizePhone(raw)
  {
    var r := NormalizePhone(raw);
    if r == [] {
      StripNoop(r);
    } else {
      assert r == "+" + r[1..];
      PlusDigitsIsFixed(r[1..]);
    }
  }

  /**
   * A text already starting with "+" is returned without a second strip, so a tab
   * left at the end once a trailing dash is removed survives the first pass only.
   */
  lemma PlusBranchNotIdempotent()
    ensures NormalizePhone(NormalizePhone("+1\t-")) != NormalizePhone("+1\t-")
  {
    PlusBranchKeepsTab("+1\t-");
    PlusBranchDropsTab("+1\t");
  }

  lemma PlusBranchKeepsTab(s: string)
    requires s == "+1\t-"
    ensures NormalizePhone(s) == "+1\t"
  {
    CleanedKeepsTab(s);
    assert StartsWith("+1\t", "+");
  }

  lemma CleanedKeepsTab(s: string)
    requires s == "+1\t-"
    ensures Cleaned(s) == "+1\t"
  {
    assert !IsSpace(s[0]) && !IsSpace(s[|s| - 1]);
    StripNoop(s);
    assert s == "+1\t" + "-";
    WithoutAppend("+1\t", "-", Separators);
    WithoutOne('-', Separators);
    assert Without("+1\t", Separators) == "+1\t";
  }

  lemma PlusBranchDropsTab(s: string)
    requires s == "+1\t"
    ensures NormalizePhone(s) == "+1"
  {
    CleanedTabbed(s, "+1");
    assert StartsWith("+1", "+");
  }

  lemma CleanedTabbed(s: string, c: string)
    requires s == c + "\t" && c == "+1"
    ensures Cleaned(s) == c
  {
    TrimLeftKeeps(s);
    TrimRightDropsTab(s, c);
    assert Strip(s) == c;
    NoSeparators(c);
  }

  lemma NoSeparators(c: string)
    requires c == "+1"
    ensures Without(c, Separators) == c
  {
    DigitsKept("1");
    WithoutOne('+', Separators);
    WithoutAppend("+", "1", Separators);
  }

  lemma TrimLeftKeeps(s: string)
    requires |s| > 0 && !IsSpace(s[0])
    ensures TrimLeft(s) == s
  {
  }

  lemma TrimRightDropsTab(s: string, c: string)
    requires s == c + "\t" && |c| > 0 && !IsSpace(c[|c| - 1])
    ensures TrimRight(s) == c
  {
    assert s[..|s| - 1] == c;
    assert IsSpace(s[|s| - 1]);
  }

  lemma WithoutOne(c: char, drop: set<char>)
    ensures Without([c], drop) == if c in drop then [] else [c]
  {
    assert [c][1..] == [];
  }

  /** Digits are never separators. */
  lemma DigitsKept(s: string)
    requires AllDigits(s)
    ensures Without(s, Separators) == s
  {
    assert forall i :: 0 <= i < |s| ==> s[i] !in Separators;
  }

  /** A string of digits is already clean. */
  lemma CleanDigits(s: string)
    requires AllDigits(s)
    ensures Cleaned(s) == s
  {
    if s != [] {
      assert IsDigit(s[0]) && IsDigit(s[|s| - 1]);
      StripNoop(s);
    }
    assert Strip(s) == s;
    DigitsKept(s);
  }

  /** A bare 10- or 11-digit number not starting with "55" gets "+55". */
  lemma BareNumberGetsHomeCode(d: string)
    requires AllDigits(d) && (|d| == 10 || |d| == 11) && !StartsWith(d, HomeCode)
    ensures NormalizePhone(d) == "+55" + d
  {
    CleanDigits(d);
    assert d[..1][0] == d[0];
    assert "+" + HomeCode + d == "+55" + d;
  }

  /** Example: a bare Brazilian mobile number (area code 85) gets "+55". */
  lemma NormalizeExampleBare(a: string)
    requires a == "85986068742"
    ensures NormalizePhone(a) == "+55" + a
  {
    forall i | 0 <= i < |a| ensures IsDigit(a[i]) {
      if i < 6 { } else { }
    }
    assert a[..2][0] == '8';
    BareNumberGetsHomeCode(a);
  }

  /** Removing the separators of "+x y-z" leaves "+xyz". */
  lemma WithoutSpacedNumber(x: string, y: string, z: string)
    requires AllDigits(x) && AllDigits(y) && AllDigits(z)
    ensures Without("+" + x + " " + y + "-" + z, Separators) == "+" + x + y + z
  {
    DigitsKept(x);
    DigitsKept(y);
    DigitsKept(z);
    WithoutOne('+', Separators);
    WithoutOne(' ', Separators);
    WithoutOne('-', Separators);
    var a1 := "+" + x;
    WithoutAppend("+", x, Separators);
    assert Without(a1, Separators) == a1;
    var a2 := a1 + " ";
    WithoutAppend(a1, " ", Separators);
    assert Without(a2, Separators) == a1;
    var a3 := a2 + y;
    WithoutAppend(a2, y, Separators);
    assert Without(a3, Separators) == a1 + y;
    var a4 := a3 + "-";
    WithoutAppend(a3, "-", Separators);
    assert Without(a4, Separators) == a1 + y;
    WithoutAppend(a4, z, Separators);
    assert Without(a4 + z, Separators) == a1 + y + z;
  }

  lemma CleanedExamplePlus(b: string)
    requires b == "+1 555-0100"
    ensures Cleaned(b) == "+" + "1" + "555" + "0100"
  {
    assert IsDigit(b[|b| - 1]);
    StripNoop(b);
    assert b == "+" + "1" + " " + "555" + "-" + "0100";
    assert AllDigits("0100") && AllDigits("555") && AllDigits("1");
    WithoutSpacedNumber("1", "555", "0100");
  }

  /** Example: a number already carrying "+" only loses its separators. */
  lemma NormalizeExamplePlus(b: string)
    requires b == "+1 555-0100"
    ensures NormalizePhone(b) == "+" + "1" + "555" + "0100"
  {
    CleanedExamplePlus(b);
    var c := Cleaned(b);
    assert c[..1] == "+";
  }

  /** Digits starting "55" only get a "+", whatever their number. */
  lemma HomePrefixedNumber(d: string)
    requires AllDigits(d) && StartsWith(d, HomeCode)
    ensures NormalizePhone(d) == "+" + d
  {
    CleanDigits(d);
    HomePrefixedFromCleaned(d);
  }

  lemma HomePrefixedFromCleaned(d: string)
    requires AllDigits(d) && StartsWith(d, HomeCode)
    ensures FromCleaned(d) == "+" + d
  {
    assert IsDigit(d[0]) && d[..1][0] == d[0];
  }

  /** Example: ten digits starting "55" take the "55" branch before the ten-digit one. */
  lemma NormalizeExampleHomePrefix(a: string)
    requires a == "5585986068"
    ensures NormalizePhone(a) == "+" + a
  {
    forall i | 0 <= i < |a| ensures IsDigit(a[i]) {
      if i < 5 { } else { }
    }
    assert a[..2] == HomeCode;
    HomePrefixedNumber(a);
  }

  // ----- the normaliser as evidently intended -----

  /**
   * `normalize_phone_to_e164` with the whitespace that removing separators can
   * expose stripped once more, so that a "+" number never keeps a trailing tab.
   * The digits branch is the original's.
   */
  function NormalizeE164(raw: string): (r: string)
    ensures r == [] || r[0] == '+'
    ensures r == [] || !IsSpace(r[|r| - 1])
    ensures forall i :: 0 <= i < |r| ==> r[i] !in Separators
  {
    var c := Cleaned(raw);
    if StartsWith(c, "+") then
      PlusBranchClean(c);
      Strip(c)
    else
      DigitBranchClean(c);
      FromCleaned(c)
  }

  /** The "+" branch, stripped once more, keeps its "+" and has no separator or trailing whitespace. */
  lemma PlusBranchClean(c: string)
    requires StartsWith(c, "+")
    requires forall i :: 0 <= i < |c| ==> c[i] !in Separators
    ensures var r := Strip(c);
            r != [] && r[0] == '+' && !IsSpace(r[|r| - 1]) && forall i :: 0 <= i < |r| ==> r[i] !in Separators
  {
    PlusSurvivesStrip(c);
    StripKeepsAbsent(c, Separators);
  }

  /** The digits branch yields "+" and digits, or nothing: no separator and no trailing whitespace. */
  lemma DigitBranchClean(c: string)
    requires !StartsWith(c, "+")
    ensures var r := FromCleaned(c);
            (r == [] || !IsSpace(r[|r| - 1])) && forall i :: 0 <= i < |r| ==> r[i] !in Separators
  {
    var r := FromCleaned(c);
    if r != [] {
      PlusDigitsClean(r);
    }
  }

  lemma PlusDigitsClean(r: string)
    requires r != [] && r[0] == '+' && AllDigits(r[1..])
    ensures !IsSpace(r[|r| - 1]) && forall i :: 0 <= i < |r| ==> r[i] !in Separators
  {
    if |r| > 1 {
      assert r[|r| - 1] == r[1..][|r| - 2];
    }
    forall i | 0 <= i < |r| ensures r[i] !in Separators {
      if i > 0 {
        assert r[i] == r[1..][i - 1];
      }
    }
  }

  /** A result of the corrected normaliser is a fixed point of it. */
  lemma NormalizeE164Idempotent(raw: string)
    ensures NormalizeE164(NormalizeE164(raw)) == NormalizeE164(raw)
  {
    NormalFixed(NormalizeE164(raw));
  }

  /** A text that is empty or "+"-led, clean of separators and of trailing whitespace, is left alone. */
  lemma NormalFixed(r: string)
    requires r == [] || r[0] == '+'
    requires r == [] || !IsSpace(r[|r| - 1])
    requires forall i :: 0 <= i < |r| ==> r[i] !in Separators
    ensures NormalizeE164(r) == r
  {
    StripNoop(r);
    assert Cleaned(r) == r;
    if r != [] {
      assert r[..1] == "+";
      StripNoop(r);
    }
  }

  /**
   * The correction changes only the "+" branch, and there only by stripping the
   * result once more; the digits branch is the original's, whatever whitespace
   * the cleaned text still carries.
   */
  lemma NormalizeE164Differs(raw: string)
    ensures StartsWith(Cleaned(raw), "+") ==> NormalizeE164(raw) == Strip(NormalizePhone(raw))
    ensures !StartsWith(Cleaned(raw), "+") ==> NormalizeE164(raw) == NormalizePhone(raw)
    ensures NormalizeE164(raw) == Strip(NormalizePhone(raw))
  {
    if !StartsWith(Cleaned(raw), "+") {
      StripNoop(NormalizeE164(raw));
    }
  }

  lemma PlusSurvivesStrip(c: string)
    requires StartsWith(c, "+")
    ensures StartsWith(Strip(c), "+") && FromCleaned(Strip(c)) == Strip(FromCleaned(c))
  {
    assert c[0] == '+';
    TrimLeftKeeps(c);
    var r := TrimRight(c);
    assert !IsSpace(c[0]);
    assert |r| > 0;
    assert r[0] == c[0];
    assert r[..1] == "+";
  }

  /** On the input that shows the original's defect the correction settles in one pass. */
  lemma NormalizeE164DropsTab(s: string)
    requires s == "+1\t-"
    ensures NormalizeE164(s) == "+1"
  {
    CleanedKeepsTab(s);
    var c := Cleaned(s);
    assert c == "+1\t";
    assert StartsWith(c, "+");
    StripTabbed(c, "+1");
  }

  lemma StripTabbed(s: string, c: string)
    requires s == c + "\t" && c == "+1"
    ensures Strip(s) == c
  {
    TrimLeftKeeps(s);
    TrimRightDropsTab(s, c);
  }

  /** Example: nothing gives nothing. */
  lemma NormalizeExampleEmpty()
    ensures NormalizePhone("") == ""
  {
  }
}

=== FILE: planning.dfy ===
/**
 * The planning half of `main` in main.py: from the run day and the leader rows
 * of `dimAreaMerchan` to the list of items handed to the sender. The database is
 * an oracle from the queries the area loop issues to their rows; the general and
 * board message texts are inputs (their builders are modelled in Messages).
 */
module Planning {
  import opened Wrappers
  import opened Text
  import opened Metric
  import opened Dicts
  import opened Calendar
  import opened Period
  import Phone
  import AreaOrder
  import Messages
  import Dispatch

  const LeaderKey := "colaborador_superior"
  const PhoneKey := "telefone"
  const CollaboratorKey := "colaborador"

  /** The recipient a merchandising or board row falls back to when it names nobody. */
  const MerchanDefault := "L\U{00ED}der Merchan"
  const DiretoriaDefault := "Diretoria"

  /** The `tipo` of each kind of item. */
  const KindMerchan := "lider_merchan"
  const KindDiretoria := "diretoria"
  const KindArea := "lider_area"

  /** `USE_TEST_PHONE` and `TEST_PHONE_E164`. */
  datatype PhoneConfig = PhoneConfig(useTestPhone: bool, testPhone: string)

  /** The values config.example.py ships with: every message goes to one test number. */
  const ExampleConfig := PhoneConfig(true, "+5585986068742")

  // ----- the three kinds of leader -----

  /** `_norm_area(r.get("area_merchan"))`: the area stripped and lower-cased. */
  function NormArea(row: Row): string {
    Lower(Strip(TextOr(row, AreaOrder.AreaKey, "")))
  }

  /** Which list a leader row goes to. */
  datatype Class = MerchanClass | DiretoriaClass | AreaClass

  function ClassOf(row: Row): (c: Class)
    ensures c == MerchanClass <==> NormArea(row) == "merchan"
    ensures c == DiretoriaClass <==> NormArea(row) == "diretoria"
  {
    var a := NormArea(row);
    if a == "merchan" then MerchanClass
    else if a == "diretoria" then DiretoriaClass
    else AreaClass
  }

  /** The elements of one class, in order. */
  function Select<T(==)>(xs: seq<T>, classOf: T -> Class, c: Class): (r: seq<T>)
    ensures forall k :: 0 <= k < |r| ==> r[k] in xs && classOf(r[k]) == c
    ensures forall k :: 0 <= k < |xs| && classOf(xs[k]) == c ==> xs[k] in r
    ensures |r| <= |xs|
  {
    if xs == [] then []
    else (if classOf(xs[0]) == c then [xs[0]] else []) + Select(xs[1..], classOf, c)
  }

  /** The three classes together. */
  function Parts<T(==)>(xs: seq<T>, classOf: T -> Class): multiset<T> {
    multiset(Select(xs, classOf, MerchanClass)) + multiset(Select(xs, classOf, DiretoriaClass))
      + multiset(Select(xs, classOf, AreaClass))
  }

  /** The three classes split a sequence: together they hold every element exactly as often as it does. */
  lemma {:induction false} SelectPartition<T>(xs: seq<T>, classOf: T -> Class)
    ensures Parts(xs, classOf) == multiset(xs)
  {
    if xs != [] {
      SelectPartition(xs[1..], classOf);
      SelectCons(xs, classOf, MerchanClass);
      SelectCons(xs, classOf, DiretoriaClass);
      SelectCons(xs, classOf, AreaClass);
      MultisetCons(xs);
    }
  }

  lemma SelectCons<T>(xs: seq<T>, classOf: T -> Class, c: Class)
    requires xs != []
    ensures multiset(Select(xs, classOf, c))
              == (if classOf(xs[0]) == c then multiset{xs[0]} else multiset{}) + multiset(Select(xs[1..], classOf, c))
  {
  }

  lemma MultisetCons<T>(s: seq<T>)
    requires s != []
    ensures multiset(s) == multiset{s[0]} + multiset(s[1..])
  {
    assert s == [s[0]] + s[1..];
  }

  /** `merchan_leaders`, `diretoria_leaders` and `area_leaders`: the rows of one class, in order. */
  function Leaders(rows: seq<Row>, c: Class): seq<Row> {
    Select(rows, ClassOf, c)
  }

  /** The three lists split the leader rows: together they hold every row exactly as often as the input does. */
  lemma LeadersPartition(rows: seq<Row>)
    ensures multiset(Leaders(rows, MerchanClass)) + multiset(Leaders(rows, DiretoriaClass))
              + multiset(Leaders(rows, AreaClass)) == multiset(rows)
  {
    SelectPartition(rows, ClassOf);
  }

  /** No row is in two lists. */
  lemma LeadersDisjoint(rows: seq<Row>, x: Row)
    ensures !(x in Leaders(rows, MerchanClass) && x in Leaders(rows, DiretoriaClass))
    ensures !(x in Leaders(rows, MerchanClass) && x in Leaders(rows, AreaClass))
    ensures !(x in Leaders(rows, DiretoriaClass) && x in Leaders(rows, AreaClass))
  {
  }

  // ----- recipient and phone -----

  /** `(row.get("colaborador_superior") or "").strip()`. */
  function LeaderOf(row: Row): string {
    Strip(TextOr(row, LeaderKey, ""))
  }

  /** The leader's name, or `default` when the row names nobody. */
  function RecipientOf(row: Row, default: string): (r: string)
    ensures r == default || (r != [] && r == LeaderOf(row))
    ensures LeaderOf(row) != [] ==> r == LeaderOf(row)
  {
    var s := LeaderOf(row);
    if s == "" then default else s
  }

  /** `(row.get("telefone") or "").strip()`: the phone text as the row holds it. */
  function RawPhone(row: Row): string {
    Strip(TextOr(row, PhoneKey, ""))
  }

  /**
   * The number an item goes to: the test number when the configuration says so,
   * otherwise the row's stripped phone through `normalize_phone_to_e164` as written.
   */
  function ItemPhone(cfg: PhoneConfig, row: Row): (r: string)
    ensures cfg.useTestPhone ==> r == cfg.testPhone
    ensures !cfg.useTestPhone ==> r == Phone.NormalizePhone(RawPhone(row))
    ensures !cfg.useTestPhone ==> r == [] || r[0] == '+'
  {
    if cfg.useTestPhone then cfg.testPhone
    else Phone.NormalizePhone(RawPhone(row))
  }

  /**
   * Without the test override an item's phone is the corrected normaliser's number
   * up to whitespace at its ends: stripping it gives exactly that number.
   */
  lemma ItemPhoneNearlyNormal(cfg: PhoneConfig, row: Row)
    ensures !cfg.useTestPhone ==> Strip(ItemPhone(cfg, row)) == Phone.NormalizeE164(RawPhone(row))
  {
    Phone.NormalizeE164Differs(RawPhone(row));
  }

  /** A stored phone "+1\t-" goes out as "+1\t": the trailing tab survives into the item. */
  lemma ItemPhoneKeepsTab(cfg: PhoneConfig, row: Row)
    requires !cfg.useTestPhone
    requires row == map[PhoneKey := VText("+1\t-")]
    ensures ItemPhone(cfg, row) == "+1\t"
    ensures Phone.NormalizeE164(ItemPhone(cfg, row)) != ItemPhone(cfg, row)
  {
    var s := "+1\t-";
    RawPhoneTabbed(row, s);
    Phone.PlusBranchKeepsTab(s);
    Phone.NormalizeE164DropsTab(s);
    Phone.NormalizeE164Differs(s);
    Phone.NormalizeE164Idempotent(s);
  }

  lemma RawPhoneTabbed(row: Row, s: string)
    requires s == "+1\t-" && row == map[PhoneKey := VText(s)]
    ensures RawPhone(row) == s
  {
    assert TextOr(row, PhoneKey, "") == s;
    assert !IsSpace(s[0]) && !IsSpace(s[|s| - 1]);
    StripNoop(s);
  }

  // ----- merchandising and board leaders -----

  /** One item per row, all with the same message: the merchandising and the board loops. */
  function HeadItems(rows: seq<Row>, cfg: PhoneConfig, default: string, msg: string, kind: string): (r: seq<Dispatch.Item>)
    ensures |r| == |rows|
    ensures forall k :: 0 <= k < |r| ==>
              && r[k].kind == kind && r[k].messages == [msg]
              && (LeaderOf(rows[k]) != "" ==> r[k].recipient == LeaderOf(rows[k]))
              && (LeaderOf(rows[k]) == "" ==> r[k].recipient == default)
              && r[k].phone == ItemPhone(cfg, rows[k])
  {
    seq(|rows|, k requires 0 <= k < |rows| =>
      Dispatch.Item(RecipientOf(rows[k], default), ItemPhone(cfg, rows[k]), [msg], kind))
  }

  // ----- area leaders -----

  /** The queries the area loop issues: an area's total and its collaborators, over a window. */
  datatype Query =
    | AreaTotal(area: string, window: Window)
    | AreaCollaborators(area: string, window: Window)

  /** What the database answers to each query. */
  type Db = Query -> seq<Row>

  /** What every area item of one run shares. */
  datatype AreaContext = AreaContext(dates: RunDates, refLabel: string, cfg: PhoneConfig, db: Db)

  /** The area a leader row names, or "Não Identificada" when it names none. */
  function ListedArea(row: Row): (r: string)
    ensures r != []
    ensures Strip(TextOr(row, AreaOrder.AreaKey, Messages.Unidentified)) != "" ==>
              r == Strip(TextOr(row, AreaOrder.AreaKey, Messages.Unidentified))
    ensures Strip(TextOr(row, AreaOrder.AreaKey, Messages.Unidentified)) == "" ==> r == Messages.Unidentified
  {
    var s := Strip(TextOr(row, AreaOrder.AreaKey, Messages.Unidentified));
    if s == "" then Messages.Unidentified else s
  }

  /** The area's name as the first row of its day total spells it, when that is not blank. */
  function ResolvedArea(listed: string, dayRows: seq<Row>): (r: string)
    ensures r == listed || (dayRows != [] && r == AreaOrder.AreaName(dayRows[0]) && r != [])
    ensures dayRows == [] ==> r == listed
    ensures dayRows != [] && AreaOrder.AreaName(dayRows[0]) != "" ==> r == AreaOrder.AreaName(dayRows[0])
    ensures dayRows != [] && AreaOrder.AreaName(dayRows[0]) == "" ==> r == listed
  {
    if dayRows != [] && AreaOrder.AreaName(dayRows[0]) != "" then AreaOrder.AreaName(dayRows[0]) else listed
  }

  /** `(r2.get("colaborador") or "").strip()`. */
  function CollaboratorOf(row: Row): string {
    Strip(TextOr(row, CollaboratorKey, ""))
  }

  /** `coll_*_by_name`: each named collaborator's metric, a later row replacing an earlier one. */
  function ByCollaborator(rows: seq<Row>): (d: Dict<AdherenceMetric>)
    ensures DistinctKeys(d)
  {
    IndexBy(rows, CollaboratorOf, MetricFromRow)
  }

  /** The item an area leader's first row yields, or none when the area has no collaborator in either window. */
  function AreaItem(ctx: AreaContext, row: Row): (r: Option<Dispatch.Item>)
    ensures r.Some? ==> r.value.recipient == LeaderOf(row) && r.value.kind == KindArea
                        && r.value.phone == ItemPhone(ctx.cfg, row) && |r.value.messages| == 1
    ensures r.Some? ==>
              var listed := ListedArea(row);
              var area := ReportedArea(ctx, row);
              r.value.messages == [Messages.LeaderMessage(
                area, ctx.refLabel,
                ScalarMetric(ctx.db(AreaTotal(listed, ctx.dates.dayWindow))),
                ScalarMetric(ctx.db(AreaTotal(listed, ctx.dates.monthWindow))),
                ByCollaborator(ctx.db(AreaCollaborators(area, ctx.dates.dayWindow))),
                ByCollaborator(ctx.db(AreaCollaborators(area, ctx.dates.monthWindow))))]
  {
    var listed := ListedArea(row);
    var dayRows := ctx.db(AreaTotal(listed, ctx.dates.dayWindow));
    var monthRows := ctx.db(AreaTotal(listed, ctx.dates.monthWindow));
    var area := ResolvedArea(listed, dayRows);
    var collDay := ByCollaborator(ctx.db(AreaCollaborators(area, ctx.dates.dayWindow)));
    var collMonth := ByCollaborator(ctx.db(AreaCollaborators(area, ctx.dates.monthWindow)));
    if collDay == [] && collMonth == [] then None
    else
      var msg := Messages.LeaderMessage(area, ctx.refLabel, ScalarMetric(dayRows), ScalarMetric(monthRows), collDay, collMonth);
      Some(Dispatch.Item(LeaderOf(row), ItemPhone(ctx.cfg, row), [msg], KindArea))
  }

  /** The area whose collaborators an area item reports. */
  function ReportedArea(ctx: AreaContext, row: Row): string {
    var listed := ListedArea(row);
    ResolvedArea(listed, ctx.db(AreaTotal(listed, ctx.dates.dayWindow)))
  }

  /** No collaborator named in either window of the reported area means no item, and any named one means an item. */
  lemma AreaItemSkipsEmptyRoster(ctx: AreaContext, row: Row)
    ensures var area := ReportedArea(ctx, row);
            var day := ctx.db(AreaCollaborators(area, ctx.dates.dayWindow));
            var month := ctx.db(AreaCollaborators(area, ctx.dates.monthWindow));
            AreaItem(ctx, row).None? <==>
              (forall k :: 0 <= k < |day| ==> CollaboratorOf(day[k]) == "")
              && (forall k :: 0 <= k < |month| ==> CollaboratorOf(month[k]) == "")
  {
    var area := ReportedArea(ctx, row);
    var day := ctx.db(AreaCollaborators(area, ctx.dates.dayWindow));
    var month := ctx.db(AreaCollaborators(area, ctx.dates.monthWindow));
    AreaItemNone(ctx, row);
    IndexByEmpty(day, CollaboratorOf, MetricFromRow);
    IndexByEmpty(month, CollaboratorOf, MetricFromRow);
  }

  lemma AreaItemNone(ctx: AreaContext, row: Row)
    ensures var area := ReportedArea(ctx, row);
            AreaItem(ctx, row).None? <==>
              ByCollaborator(ctx.db(AreaCollaborators(area, ctx.dates.dayWindow))) == []
              && ByCollaborator(ctx.db(AreaCollaborators(area, ctx.dates.monthWindow))) == []
  {
  }

  /** The state of the area loop: the leader names seen so far and the items appended. */
  datatype AreaPass = AreaPass(seen: set<string>, items: seq<Dispatch.Item>)

  /** The body of the area loop for one run. */
  function AreaMaker(ctx: AreaContext): Row -> Option<Dispatch.Item> {
    row => AreaItem(ctx, row)
  }

  function Items(o: Option<Dispatch.Item>): seq<Dispatch.Item> {
    if o.Some? then [o.value] else []
  }

  /**
   * The area loop over `area_leaders` with its `seen_area_leaders` set: a row whose
   * leader (`name`) is blank or already seen is skipped, any other adds its leader
   * to the set and appends the item `make` builds for it, if any.
   */
  function AreaLoop<T>(name: T -> string, make: T -> Option<Dispatch.Item>, rows: seq<T>): AreaPass {
    if rows == [] then AreaPass({}, [])
    else
      var prev := AreaLoop(name, make, rows[..|rows| - 1]);
      var row := rows[|rows| - 1];
      if name(row) == "" || name(row) in prev.seen then prev
      else AreaPass(prev.seen + {name(row)}, prev.items + Items(make(row)))
  }

  /** The names of the rows, blank ones included. */
  function Names<T>(name: T -> string, rows: seq<T>): (r: seq<string>)
    ensures |r| == |rows| && forall k :: 0 <= k < |rows| ==> r[k] == name(rows[k])
  {
    if rows == [] then [] else Names(name, rows[..|rows| - 1]) + [name(rows[|rows| - 1])]
  }

  /** Row `k` carries a non-blank name that no earlier row carries. */
  predicate FirstOfName<T>(name: T -> string, rows: seq<T>, k: nat)
    requires k < |rows|
  {
    name(rows[k]) != "" && name(rows[k]) !in Names(name, rows)[..k]
  }

  /** The reference for the loop: the rows that first carry their name, in order. */
  function FirstRows<T>(name: T -> string, rows: seq<T>): (r: seq<T>)
    ensures |r| <= |rows|
  {
    if rows == [] then []
    else FirstRows(name, rows[..|rows| - 1]) + (if FirstOfName(name, rows, |rows| - 1) then [rows[|rows| - 1]] else [])
  }

  /** The item of each row in turn, rows without one dropped. */
  function AreaItems<T>(make: T -> Option<Dispatch.Item>, rows: seq<T>): seq<Dispatch.Item> {
    if rows == [] then [] else AreaItems(make, rows[..|rows| - 1]) + Items(make(rows[|rows| - 1]))
  }

  /** The non-blank names of the rows. */
  function NamesOf<T>(name: T -> string, rows: seq<T>): set<string> {
    set n | n in Names(name, rows) && n != ""
  }

  lemma SnocParts<T>(s: seq<T>, x: T)
    ensures (s + [x])[..|s|] == s && (s + [x])[|s|] == x && |s + [x]| == |s| + 1
  {
  }

  lemma AreaItemsSnoc<T>(make: T -> Option<Dispatch.Item>, s: seq<T>, x: T)
    ensures AreaItems(make, s + [x]) == AreaItems(make, s) + Items(make(x))
  {
    SnocParts(s, x);
  }

  /**
   * Deduplication keeps the first row of each leader: the loop has seen exactly
   * the non-blank leader names, and its items are those of the rows that first
   * name their leader, in order.
   */
  lemma {:induction false} AreaLoopKeepsFirstRows<T>(name: T -> string, make: T -> Option<Dispatch.Item>, rows: seq<T>)
    ensures AreaLoop(name, make, rows).seen == NamesOf(name, rows)
    ensures AreaLoop(name, make, rows).items == AreaItems(make, FirstRows(name, rows))
  {
    if rows != [] {
      var init := rows[..|rows| - 1];
      var row := rows[|rows| - 1];
      var n := name(row);
      AreaLoopKeepsFirstRows(name, make, init);
      var names := Names(name, init);
      assert Names(name, rows) == names + [n];
      SnocParts(names, n);
      assert NamesOf(name, rows) == NamesOf(name, init) + (if n != "" then {n} else {});
      var prev := AreaLoop(name, make, init);
      var first := FirstRows(name, init);
      if FirstOfName(name, rows, |rows| - 1) {
        assert n !in prev.seen;
        assert FirstRows(name, rows) == first + [row];
        AreaItemsSnoc(make, first, row);
        assert AreaLoop(name, make, rows).items == prev.items + Items(make(row));
      } else {
        assert FirstRows(name, rows) == first;
        assert AreaLoop(name, make, rows) == prev;
      }
    }
  }

  /** The body builds an area item for the row's own leader, to a phone as the configuration wants it. */
  ghost predicate MakesAreaItems<T(!new)>(name: T -> string, make: T -> Option<Dispatch.Item>, cfg: PhoneConfig) {
    forall row :: make(row).Some? ==>
      make(row).value.recipient == name(row) && make(row).value.kind == KindArea
      && PhoneOk(cfg, make(row).value.phone)
  }

  /** A phone is the test number when the configuration says so, and otherwise empty or "+"-led. */
  predicate PhoneOk(cfg: PhoneConfig, phone: string) {
    if cfg.useTestPhone then phone == cfg.testPhone else phone == [] || phone[0] == '+'
  }

  lemma ItemPhoneOk(cfg: PhoneConfig, row: Row)
    ensures PhoneOk(cfg, ItemPhone(cfg, row))
  {
  }

  lemma AreaMakerMakesAreaItems(ctx: AreaContext)
    ensures MakesAreaItems(LeaderOf, AreaMaker(ctx), ctx.cfg)
  {
    forall row | AreaItem(ctx, row).Some? ensures PhoneOk(ctx.cfg, AreaItem(ctx, row).value.phone) {
      ItemPhoneOk(ctx.cfg, row);
    }
  }

  /** The items of a pass are area items for leaders it has seen, to well-formed phones, and no leader has two. */
  predicate Consistent(p: AreaPass, cfg: PhoneConfig) {
    && (forall i :: 0 <= i < |p.items| ==>
          p.items[i].recipient in p.seen && p.items[i].kind == KindArea && PhoneOk(cfg, p.items[i].phone))
    && (forall i, j :: 0 <= i < j < |p.items| ==> p.items[i].recipient != p.items[j].recipient)
  }

  /** Whatever the rows and whatever the loop body builds, the loop's pass is consistent. */
  lemma {:induction false} AreaLoopOnePerLeader<T(!new)>(name: T -> string, make: T -> Option<Dispatch.Item>, cfg: PhoneConfig, rows: seq<T>)
    requires MakesAreaItems(name, make, cfg)
    ensures Consistent(AreaLoop(name, make, rows), cfg)
  {
    if rows != [] {
      var init := rows[..|rows| - 1];
      var row := rows[|rows| - 1];
      AreaLoopOnePerLeader(name, make, cfg, init);
      var prev := AreaLoop(name, make, init);
      if name(row) != "" && name(row) !in prev.seen {
        ConsistentStep(prev, name(row), Items(make(row)), cfg);
      }
    }
  }

  /** Adding a new leader with at most one item for them keeps a pass consistent. */
  lemma ConsistentStep(prev: AreaPass, n: string, extra: seq<Dispatch.Item>, cfg: PhoneConfig)
    requires Consistent(prev, cfg) && n !in prev.seen && |extra| <= 1
    requires forall i :: 0 <= i < |extra| ==>
               extra[i].recipient == n && extra[i].kind == KindArea && PhoneOk(cfg, extra[i].phone)
    ensures Consistent(AreaPass(prev.seen + {n}, prev.items + extra), cfg)
  {
    var items := prev.items + extra;
    forall i, j | 0 <= i < j < |items| ensures items[i].recipient != items[j].recipient {
      assert items[i] == prev.items[i];
      if j >= |prev.items| {
        assert items[j] == extra[j - |prev.items|];
      } else {
        assert items[j] == prev.items[j];
      }
    }
  }

  // ----- the whole plan -----

  /** How `main` ends before sending: nothing on a Sunday, exit code 1 without leaders, otherwise the items. */
  datatype Outcome = Quiet | NoLeaders | Planned(items: seq<Dispatch.Item>)

  /** The run day is one the source's date arithmetic handles. */
  predicate Runnable(today: Day) {
    ShouldSendToday(today) ==> today != 0 && WeekStart(ReferenceDate(today)) >= 7
  }

  /** The merchandising leaders' items, unless only the board is asked for. */
  function MerchanBlock(leaders: seq<Row>, onlyDiretoria: bool, cfg: PhoneConfig, generalMsg: string): (r: seq<Dispatch.Item>)
    ensures onlyDiretoria ==> r == []
    ensures !onlyDiretoria ==> Addressed(r, Leaders(leaders, MerchanClass), MerchanDefault)
  {
    HeadRecipients(Leaders(leaders, MerchanClass), cfg, MerchanDefault, generalMsg, KindMerchan);
    if onlyDiretoria then [] else HeadItems(Leaders(leaders, MerchanClass), cfg, MerchanDefault, generalMsg, KindMerchan)
  }

  /** The board's items, on Mondays only. */
  function BoardBlock(today: Day, leaders: seq<Row>, cfg: PhoneConfig, diretoriaMsg: string): (r: seq<Dispatch.Item>)
    ensures Weekday(today) != Monday ==> r == []
    ensures Weekday(today) == Monday ==> Addressed(r, Leaders(leaders, DiretoriaClass), DiretoriaDefault)
  {
    HeadRecipients(Leaders(leaders, DiretoriaClass), cfg, DiretoriaDefault, diretoriaMsg, KindDiretoria);
    if Weekday(today) == Monday then HeadItems(Leaders(leaders, DiretoriaClass), cfg, DiretoriaDefault, diretoriaMsg, KindDiretoria)
    else []
  }

  /** The context the area loop of a run works in. */
  function RunContext(today: Day, cfg: PhoneConfig, db: Db): AreaContext
    requires Runnable(today) && ShouldSendToday(today)
  {
    var dates := PlanDates(today);
    AreaContext(dates, LabelsOf(dates).refLabel, cfg, db)
  }

  /** The area leaders' items, unless only the board is asked for. */
  function AreaBlock(today: Day, leaders: seq<Row>, onlyDiretoria: bool, cfg: PhoneConfig, db: Db): seq<Dispatch.Item>
    requires Runnable(today) && ShouldSendToday(today)
  {
    if onlyDiretoria then [] else AreaLoop(LeaderOf, AreaMaker(RunContext(today, cfg, db)), Leaders(leaders, AreaClass)).items
  }

  /**
   * `main` up to the sender: the merchandising leaders' items, then the board's,
   * then the area leaders'. The two shared message texts are inputs.
   */
  function Plan(today: Day, leaders: seq<Row>, onlyDiretoria: bool, cfg: PhoneConfig,
                generalMsg: string, diretoriaMsg: string, db: Db): (o: Outcome)
    requires Runnable(today)
    ensures o.Quiet? <==> Weekday(today) == Sunday
    ensures o.NoLeaders? <==> Weekday(today) != Sunday && leaders == []
  {
    if !ShouldSendToday(today) then Quiet
    else if leaders == [] then NoLeaders
    else
      Planned(MerchanBlock(leaders, onlyDiretoria, cfg, generalMsg)
              + BoardBlock(today, leaders, cfg, diretoriaMsg)
              + AreaBlock(today, leaders, onlyDiretoria, cfg, db))
  }

  /** `main`'s exit code: 1 when there are no leaders, 0 otherwise. */
  function ExitCode(o: Outcome): (code: int)
    ensures code == 1 <==> o.NoLeaders?
    ensures code == 0 || code == 1
  {
    if o.NoLeaders? then 1 else 0
  }

  /** Where a kind of item sits in a plan. */
  function KindRank(kind: string): nat {
    if kind == KindMerchan then 0 else if kind == KindDiretoria then 1 else 2
  }

  /** How many items are of one kind. */
  function CountKind(items: seq<Dispatch.Item>, kind: string): (n: nat)
    ensures n <= |items|
  {
    if items == [] then 0 else (if items[0].kind == kind then 1 else 0) + CountKind(items[1..], kind)
  }

  lemma {:induction false} CountKindAppend(a: seq<Dispatch.Item>, b: seq<Dispatch.Item>, kind: string)
    ensures CountKind(a + b, kind) == CountKind(a, kind) + CountKind(b, kind)
  {
    if a == [] {
      assert a + b == b;
    } else {
      CountKindAppend(a[1..], b, kind);
      assert (a + b)[1..] == a[1..] + b;
    }
  }

  /** A block of one kind counts fully for that kind and not at all for another. */
  lemma {:induction false} CountKindBlock(items: seq<Dispatch.Item>, block: string, kind: string)
    requires forall i :: 0 <= i < |items| ==> items[i].kind == block
    ensures CountKind(items, kind) == if kind == block then |items| else 0
  {
    if items != [] {
      CountKindBlock(items[1..], block, kind);
    }
  }

  /** Every item of a block has the block's kind and a phone as the configuration wants it. */
  predicate Block(items: seq<Dispatch.Item>, kind: string, cfg: PhoneConfig) {
    AllOfKind(items, kind) && PhonesOk(items, cfg)
  }

  lemma HeadItemsBlock(rows: seq<Row>, cfg: PhoneConfig, default: string, msg: string, kind: string)
    ensures Block(HeadItems(rows, cfg, default, msg, kind), kind, cfg)
  {
    var r := HeadItems(rows, cfg, default, msg, kind);
    forall i | 0 <= i < |r| ensures PhoneOk(cfg, r[i].phone) {
      ItemPhoneOk(cfg, rows[i]);
    }
  }

  lemma AreaBlockFacts(today: Day, leaders: seq<Row>, onlyDiretoria: bool, cfg: PhoneConfig, db: Db)
    requires Runnable(today) && ShouldSendToday(today)
    ensures Block(AreaBlock(today, leaders, onlyDiretoria, cfg, db), KindArea, cfg)
    ensures Consistent(AreaPass(NamesOf(LeaderOf, Leaders(leaders, AreaClass)), AreaBlock(today, leaders, onlyDiretoria, cfg, db)), cfg)
  {
    var ctx := RunContext(today, cfg, db);
    var rows := Leaders(leaders, AreaClass);
    AreaMakerMakesAreaItems(ctx);
    AreaLoopOnePerLeader(LeaderOf, AreaMaker(ctx), cfg, rows);
    AreaLoopKeepsFirstRows(LeaderOf, AreaMaker(ctx), rows);
  }

  /** Merchandising items come before board items, which come before area items. */
  predicate Ordered(items: seq<Dispatch.Item>) {
    forall i, j :: 0 <= i < j < |items| ==> KindRank(items[i].kind) <= KindRank(items[j].kind)
  }

  predicate PhonesOk(items: seq<Dispatch.Item>, cfg: PhoneConfig) {
    forall i :: 0 <= i < |items| ==> PhoneOk(cfg, items[i].phone)
  }

  /** No two area items go to the same leader. */
  predicate AreaRecipientsDistinct(items: seq<Dispatch.Item>) {
    forall i, j :: 0 <= i < j < |items| && items[i].kind == KindArea && items[j].kind == KindArea
      ==> items[i].recipient != items[j].recipient
  }

  predicate AllOfKind(items: seq<Dispatch.Item>, kind: string) {
    forall i :: 0 <= i < |items| ==> items[i].kind == kind
  }

  predicate NoneOfKind(items: seq<Dispatch.Item>, kind: string) {
    forall i :: 0 <= i < |items| ==> items[i].kind != kind
  }

  /**
   * A plan lists the merchandising leaders first, then the board, then the area
   * leaders; there are no board items except on Mondays, and nothing else when
   * only the board is asked for; every phone is the test number or, without it,
   * empty or "+"-led; and no area leader gets two items.
   */
  /** Each item goes to its row's leader, or to `default` when the row names none. */
  predicate Addressed(items: seq<Dispatch.Item>, rows: seq<Row>, default: string) {
    |items| == |rows| && forall k :: 0 <= k < |rows| ==> items[k].recipient == RecipientOf(rows[k], default)
  }

  /**
   * In a plan the merchandising items come first and go, in the order of their rows,
   * to each row's leader or to "Líder Merchan"; on Mondays the board items follow
   * them and go to each board row's leader or to "Diretoria".
   */
  lemma PlanHeadRecipients(today: Day, leaders: seq<Row>, onlyDiretoria: bool, cfg: PhoneConfig,
                           generalMsg: string, diretoriaMsg: string, db: Db)
    requires Runnable(today)
    requires Plan(today, leaders, onlyDiretoria, cfg, generalMsg, diretoriaMsg, db).Planned?
    ensures var items := Plan(today, leaders, onlyDiretoria, cfg, generalMsg, diretoriaMsg, db).items;
            var ms := Leaders(leaders, MerchanClass);
            !onlyDiretoria ==> |ms| <= |items| && Addressed(items[..|ms|], ms, MerchanDefault)
    ensures var items := Plan(today, leaders, onlyDiretoria, cfg, generalMsg, diretoriaMsg, db).items;
            var bs := Leaders(leaders, DiretoriaClass);
            var off := if onlyDiretoria then 0 else |Leaders(leaders, MerchanClass)|;
            Weekday(today) == Monday ==> off + |bs| <= |items| && Addressed(items[off..off + |bs|], bs, DiretoriaDefault)
  {
    var m := MerchanBlock(leaders, onlyDiretoria, cfg, generalMsg);
    var b := BoardBlock(today, leaders, cfg, diretoriaMsg);
    var a := AreaBlock(today, leaders, onlyDiretoria, cfg, db);
    assert Plan(today, leaders, onlyDiretoria, cfg, generalMsg, diretoriaMsg, db).items == m + b + a;
    Slices(m, b, a);
  }

  lemma Slices<T>(m: seq<T>, b: seq<T>, a: seq<T>)
    ensures (m + b + a)[..|m|] == m && (m + b + a)[|m|..|m| + |b|] == b
  {
  }

  /** Each head item goes to its row's recipient. */
  lemma HeadRecipients(rows: seq<Row>, cfg: PhoneConfig, default: string, msg: string, kind: string)
    ensures var r := HeadItems(rows, cfg, default, msg, kind);
            |r| == |rows| && forall k :: 0 <= k < |rows| ==> r[k].recipient == RecipientOf(rows[k], default)
  {
  }

  lemma PlanShape(today: Day, leaders: seq<Row>, onlyDiretoria: bool, cfg: PhoneConfig,
                  generalMsg: string, diretoriaMsg: string, db: Db)
    requires Runnable(today)
    requires Plan(today, leaders, onlyDiretoria, cfg, generalMsg, diretoriaMsg, db).Planned?
    ensures var items := Plan(today, leaders, onlyDiretoria, cfg, generalMsg, diretoriaMsg, db).items;
            && Ordered(items) && PhonesOk(items, cfg) && AreaRecipientsDistinct(items)
            && (Weekday(today) != Monday ==> NoneOfKind(items, KindDiretoria))
            && (onlyDiretoria ==> AllOfKind(items, KindDiretoria))
  {
    var m := MerchanBlock(leaders, onlyDiretoria, cfg, generalMsg);
    var b := BoardBlock(today, leaders, cfg, diretoriaMsg);
    var a := AreaBlock(today, leaders, onlyDiretoria, cfg, db);
    HeadItemsBlock(Leaders(leaders, MerchanClass), cfg, MerchanDefault, generalMsg, KindMerchan);
    HeadItemsBlock(Leaders(leaders, DiretoriaClass), cfg, DiretoriaDefault, diretoriaMsg, KindDiretoria);
    AreaBlockFacts(today, leaders, onlyDiretoria, cfg, db);
    ThreeBlocks(m, b, a, cfg);
  }

  /** Three blocks of the three kinds, one after the other. */
  lemma ThreeBlocks(m: seq<Dispatch.Item>, b: seq<Dispatch.Item>, a: seq<Dispatch.Item>, cfg: PhoneConfig)
    requires Block(m, KindMerchan, cfg) && Block(b, KindDiretoria, cfg) && Block(a, KindArea, cfg)
    requires forall i, j :: 0 <= i < j < |a| ==> a[i].recipient != a[j].recipient
    ensures Ordered(m + b + a) && PhonesOk(m + b + a, cfg) && AreaRecipientsDistinct(m + b + a)
    ensures b == [] ==> NoneOfKind(m + b + a, KindDiretoria)
    ensures m == [] && a == [] ==> AllOfKind(m + b + a, KindDiretoria)
  {
    ThreeKinds(m, b, a);
    PhonesOkAppend(m, b, cfg);
    PhonesOkAppend(m + b, a, cfg);
  }

  lemma ThreeKinds(m: seq<Dispatch.Item>, b: seq<Dispatch.Item>, a: seq<Dispatch.Item>)
    requires AllOfKind(m, KindMerchan) && AllOfKind(b, KindDiretoria) && AllOfKind(a, KindArea)
    requires forall i, j :: 0 <= i < j < |a| ==> a[i].recipient != a[j].recipient
    ensures Ordered(m + b + a) && AreaRecipientsDistinct(m + b + a)
    ensures b == [] ==> NoneOfKind(m + b + a, KindDiretoria)
    ensures m == [] && a == [] ==> AllOfKind(m + b + a, KindDiretoria)
  {
    var items := m + b + a;
    forall i | 0 <= i < |items|
      ensures (i < |m| ==> items[i] == m[i]) && (|m| <= i < |m| + |b| ==> items[i] == b[i - |m|])
              && (|m| + |b| <= i ==> items[i] == a[i - |m| - |b|])
    {
    }
  }

  lemma PhonesOkAppend(x: seq<Dispatch.Item>, y: seq<Dispatch.Item>, cfg: PhoneConfig)
    requires PhonesOk(x, cfg) && PhonesOk(y, cfg)
    ensures PhonesOk(x + y, cfg)
  {
    forall i | 0 <= i < |x + y| ensures PhoneOk(cfg, (x + y)[i].phone) {
      if i < |x| {
        assert (x + y)[i] == x[i];
      } else {
        assert (x + y)[i] == y[i - |x|];
      }
    }
  }

  /**
   * The merchandising leaders get one item each unless only the board is asked
   * for, and the board leaders one each on Mondays and none on other days.
   */
  lemma PlanCounts(today: Day, leaders: seq<Row>, onlyDiretoria: bool, cfg: PhoneConfig,
                   generalMsg: string, diretoriaMsg: string, db: Db)
    requires Runnable(today)
    requires Plan(today, leaders, onlyDiretoria, cfg, generalMsg, diretoriaMsg, db).Planned?
    ensures var items := Plan(today, leaders, onlyDiretoria, cfg, generalMsg, diretoriaMsg, db).items;
            && CountKind(items, KindMerchan) == (if onlyDiretoria then 0 else |Leaders(leaders, MerchanClass)|)
            && CountKind(items, KindDiretoria) == (if Weekday(today) == Monday then |Leaders(leaders, DiretoriaClass)| else 0)
  {
    var m := MerchanBlock(leaders, onlyDiretoria, cfg, generalMsg);
    var b := BoardBlock(today, leaders, cfg, diretoriaMsg);
    var a := AreaBlock(today, leaders, onlyDiretoria, cfg, db);
    HeadItemsBlock(Leaders(leaders, MerchanClass), cfg, MerchanDefault, generalMsg, KindMerchan);
    HeadItemsBlock(Leaders(leaders, DiretoriaClass), cfg, DiretoriaDefault, diretoriaMsg, KindDiretoria);
    AreaBlockFacts(today, leaders, onlyDiretoria, cfg, db);
    CountThree(m, b, a, cfg);
  }

  /** In three blocks of the three kinds, the first two kinds count their blocks. */
  lemma CountThree(m: seq<Dispatch.Item>, b: seq<Dispatch.Item>, a: seq<Dispatch.Item>, cfg: PhoneConfig)
    requires Block(m, KindMerchan, cfg) && Block(b, KindDiretoria, cfg) && Block(a, KindArea, cfg)
    ensures CountKind(m + b + a, KindMerchan) == |m| && CountKind(m + b + a, KindDiretoria) == |b|
  {
    CountBlocks(m, b, a, KindMerchan, KindDiretoria, KindArea, KindMerchan);
    CountBlocks(m, b, a, KindMerchan, KindDiretoria, KindArea, KindDiretoria);
  }

  lemma CountBlocks(m: seq<Dispatch.Item>, b: seq<Dispatch.Item>, a: seq<Dispatch.Item>, km: string, kb: string, ka: string, kind: string)
    requires forall i :: 0 <= i < |m| ==> m[i].kind == km
    requires forall i :: 0 <= i < |b| ==> b[i].kind == kb
    requires forall i :: 0 <= i < |a| ==> a[i].kind == ka
    ensures CountKind(m + b + a, kind)
              == (if kind == km then |m| else 0) + (if kind == kb then |b| else 0) + (if kind == ka then |a| else 0)
  {
    CountKindAppend(m + b, a, kind);
    CountKindAppend(m, b, kind);
    CountKindBlock(m, km, kind);
    CountKindBlock(b, kb, kind);
    CountKindBlock(a, ka, kind);
  }
}

=== FILE: sorting.dfy ===
/**
 * Python's `sorted(xs, key=...)` for the keys this program sorts by: a stable
 * insertion sort with a tuple key `(rank, text)`, where the text compares by code
 * point as Python strings do.
 */
module Sorting {
  import opened Text

  /** A sort key compared like the Python tuple `(rank, text)`. */
  datatype Key = Key(rank: int, text: string)

  predicate KeyLe(a: Key, b: Key) {
    a.rank < b.rank || (a.rank == b.rank && LexLe(a.text, b.text))
  }

  lemma {:induction false} LexLeReflexive(a: string)
    ensures LexLe(a, a)
  {
    if |a| > 0 {
      LexLeReflexive(a[1..]);
    }
  }

  lemma KeyLeTotal(a: Key, b: Key)
    ensures KeyLe(a, b) || KeyLe(b, a)
  {
    LexLeTotal(a.text, b.text);
  }

  lemma KeyLeTransitive(a: Key, b: Key, c: Key)
    requires KeyLe(a, b) && KeyLe(b, c)
    ensures KeyLe(a, c)
  {
    if a.rank == b.rank == c.rank {
      LexLeTransitive(a.text, b.text, c.text);
    }
  }

  predicate SortedBy<T>(s: seq<T>, key: T -> Key) {
    forall i, j :: 0 <= i < j < |s| ==> KeyLe(key(s[i]), key(s[j]))
  }

  /** The elements of `s` whose key is `k`, in order. */
  function WithKey<T>(s: seq<T>, key: T -> Key, k: Key): seq<T> {
    if s == [] then []
    else (if key(s[0]) == k then [s[0]] else []) + WithKey(s[1..], key, k)
  }

  /** `x` placed before the first element of `s` whose key is not below its own. */
  function Insert<T>(x: T, s: seq<T>, key: T -> Key): (r: seq<T>)
    ensures |r| == |s| + 1
    ensures multiset(r) == multiset(s) + multiset{x}
  {
    if s == [] || KeyLe(key(x), key(s[0])) then [x] + s
    else
      assert s == [s[0]] + s[1..];
      [s[0]] + Insert(x, s[1..], key)
  }

  /**
   * Inserting into a sorted sequence keeps it sorted, and `x` lands after every
   * element with the same key.
   */
  lemma {:induction false} InsertSorted<T>(x: T, s: seq<T>, key: T -> Key)
    requires SortedBy(s, key)
    ensures SortedBy(Insert(x, s, key), key)
    ensures forall k :: WithKey(Insert(x, s, key), key, k)
                        == if key(x) == k then [x] + WithKey(s, key, k) else WithKey(s, key, k)
  {
    if s == [] || KeyLe(key(x), key(s[0])) {
      InsertFront(x, s, key);
    } else {
      var t := Insert(x, s[1..], key);
      InsertSorted(x, s[1..], key);
      KeyLeTotal(key(x), key(s[0]));
      assert s == [s[0]] + s[1..];
      InsertBehind(s[0], x, s[1..], t, key);
    }
  }

  lemma InsertFront<T>(x: T, s: seq<T>, key: T -> Key)
    requires SortedBy(s, key)
    requires s == [] || KeyLe(key(x), key(s[0]))
    ensures SortedBy([x] + s, key)
    ensures forall k :: WithKey([x] + s, key, k) == if key(x) == k then [x] + WithKey(s, key, k) else WithKey(s, key, k)
  {
    var r := [x] + s;
    forall i, j | 0 <= i < j < |r| ensures KeyLe(key(r[i]), key(r[j])) {
      if i == 0 && j > 1 {
        KeyLeTransitive(key(x), key(s[0]), key(s[j - 1]));
      }
    }
    assert r[1..] == s;
  }

  lemma InsertBehind<T>(h: T, x: T, rest: seq<T>, t: seq<T>, key: T -> Key)
    requires SortedBy([h] + rest, key) && KeyLe(key(h), key(x)) && !KeyLe(key(x), key(h))
    requires multiset(t) == multiset(rest) + multiset{x}
    requires SortedBy(t, key)
    requires forall k :: WithKey(t, key, k) == if key(x) == k then [x] + WithKey(rest, key, k) else WithKey(rest, key, k)
    ensures SortedBy([h] + t, key)
    ensures forall k ::
              WithKey([h] + t, key, k)
              == if key(x) == k then [x] + WithKey([h] + rest, key, k) else WithKey([h] + rest, key, k)
  {
    var r := [h] + t;
    forall i, j | 0 <= i < j < |r| ensures KeyLe(key(r[i]), key(r[j])) {
      if i == 0 {
        var y := t[j - 1];
        assert y in multiset(t);
        if y == x {
        } else {
          assert y in multiset(rest);
          var m :| 0 <= m < |rest| && rest[m] == y;
          assert ([h] + rest)[m + 1] == y;
        }
      }
    }
    assert r[1..] == t;
    assert ([h] + rest)[1..] == rest;
    forall k ensures WithKey([h] + t, key, k)
      == if key(x) == k then [x] + WithKey([h] + rest, key, k) else WithKey([h] + rest, key, k)
    {
      if key(x) == k {
        LexLeReflexive(k.text);
        assert key(h) != k;
      }
    }
  }

  /** `sorted(s, key=key)`. */
  function SortBy<T>(s: seq<T>, key: T -> Key): (r: seq<T>)
    ensures |r| == |s|
    ensures multiset(r) == multiset(s)
  {
    if s == [] then []
    else
      assert s == [s[0]] + s[1..];
      assert multiset(s) == multiset{s[0]} + multiset(s[1..]);
      Insert(s[0], SortBy(s[1..], key), key)
  }

  /** The sort is ordered by key and stable: elements with equal keys keep their order. */
  lemma {:induction false} SortBySorted<T>(s: seq<T>, key: T -> Key)
    ensures SortedBy(SortBy(s, key), key)
    ensures forall k :: WithKey(SortBy(s, key), key, k) == WithKey(s, key, k)
  {
    if s != [] {
      SortBySorted(s[1..], key);
      InsertSorted(s[0], SortBy(s[1..], key), key);
      assert s == [s[0]] + s[1..];
    }
  }
}

=== FILE: sqltext.dfy ===
/**
 * The text-level parts of merchan_queries.py: how names are quoted into SQL
 * string literals, how value lists are rendered for `IN (…)`, and which parts
 * `unidades_importantes_sql` puts into its union.
 */
module SqlText {
  import opened Wrappers
  import opened Text

  const Quote: char := '\''

  // ----- string literals -----

  /** `s.replace("'", "''")`: every single quote doubled. */
  function Escape(s: string): (r: string)
    ensures |r| >= |s|
    ensures (forall i :: 0 <= i < |s| ==> s[i] != Quote) ==> r == s
  {
    if s == [] then []
    else (if s[0] == Quote then [Quote, Quote] else [s[0]]) + Escape(s[1..])
  }

  /** `'…'` around an escaped text: the literal a name is interpolated as. */
  function Literal(s: string): string {
    [Quote] + Escape(s) + [Quote]
  }

  /** Quotes occur only in adjacent pairs. */
  predicate PairedQuotes(t: string)
    decreases |t|
  {
    if t == [] then true
    else if t[0] != Quote then PairedQuotes(t[1..])
    else |t| >= 2 && t[1] == Quote && PairedQuotes(t[2..])
  }

  /** Reading a literal's body under SQL's rule that two quotes stand for one; nothing when a quote is unpaired. */
  function Unescape(t: string): (r: Option<string>)
    ensures r.Some? <==> PairedQuotes(t)
    decreases |t|
  {
    if t == [] then Some([])
    else if t[0] != Quote then
      match Unescape(t[1..])
      case None => None
      case Some(u) => Some([t[0]] + u)
    else if |t| >= 2 && t[1] == Quote then
      match Unescape(t[2..])
      case None => None
      case Some(u) => Some([Quote] + u)
    else None
  }

  /** An escaped text has no unpaired quote, and reads back as the original. */
  lemma {:induction false} EscapeReadsBack(s: string)
    ensures PairedQuotes(Escape(s))
    ensures Unescape(Escape(s)) == Some(s)
  {
    if s != [] {
      EscapeReadsBack(s[1..]);
      var e := Escape(s);
      if s[0] == Quote {
        assert e[2..] == Escape(s[1..]);
      } else {
        assert e[1..] == Escape(s[1..]);
      }
      assert s == [s[0]] + s[1..];
    }
  }

  /** Escaping is onto the quote-paired texts: such a text is the escape of what it reads as. */
  lemma {:induction false} UnescapeEscapes(t: string)
    requires PairedQuotes(t)
    ensures Escape(Unescape(t).value) == t
  {
    if t != [] {
      if t[0] != Quote {
        UnescapeEscapes(t[1..]);
        assert t == [t[0]] + t[1..];
      } else {
        UnescapeEscapes(t[2..]);
        assert t == [Quote, Quote] + t[2..];
      }
    }
  }

  /**
   * Reads the rest of a string literal whose opening quote has been consumed:
   * two quotes stand for one and a single quote closes it. Gives the value and
   * what follows the closing quote, or nothing when the literal is not closed.
   */
  function ReadLiteral(t: string): (r: Option<(string, string)>)
    ensures r.Some? ==> |r.value.1| < |t|
    decreases |t|
  {
    if t == [] then None
    else if t[0] != Quote then
      match ReadLiteral(t[1..])
      case None => None
      case Some(p) => Some(([t[0]] + p.0, p.1))
    else if |t| >= 2 && t[1] == Quote then
      match ReadLiteral(t[2..])
      case None => None
      case Some(p) => Some(([Quote] + p.0, p.1))
    else Some(([], t[1..]))
  }

  /**
   * A literal ends exactly where it was meant to: after the opening quote, an
   * escaped text and its closing quote read back as the text, and whatever
   * follows (unless it starts with another quote) is left untouched.
   */
  lemma {:induction false} ReadEscaped(s: string, rest: string)
    requires rest == [] || rest[0] != Quote
    ensures ReadLiteral(Escape(s) + [Quote] + rest) == Some((s, rest))
  {
    var t := Escape(s) + [Quote] + rest;
    if s == [] {
      assert t == [Quote] + rest;
      assert t[1..] == rest;
    } else {
      var tail := Escape(s[1..]) + [Quote] + rest;
      ReadEscaped(s[1..], rest);
      if s[0] == Quote {
        assert t == [Quote, Quote] + tail;
        assert t[2..] == tail;
      } else {
        assert t == [s[0]] + tail;
        assert t[1..] == tail;
      }
      assert s == [s[0]] + s[1..];
    }
  }

  /** `col = '<escaped name>'`: the condition the leader and area queries filter on. */
  function NameCondition(column: string, name: string): string {
    column + " = " + Literal(name)
  }

  /** The value a name condition compares against is the name itself, whatever quotes it holds. */
  lemma NameConditionReadsBack(column: string, name: string, rest: string)
    requires rest == [] || rest[0] != Quote
    ensures var t := NameCondition(column, name) + rest;
            |t| > |column| + 4 && t[|column| + 3] == Quote
            && ReadLiteral(t[|column| + 4..]) == Some((name, rest))
  {
    var t := NameCondition(column, name) + rest;
    assert t == column + " = " + [Quote] + (Escape(name) + [Quote] + rest);
    assert t[|column| + 4..] == Escape(name) + [Quote] + rest;
    ReadEscaped(name, rest);
  }

  // ----- value lists -----

  /** `f"'{x}'"` for each value: quoted but not escaped. */
  function Quoted(values: seq<string>): (r: seq<string>)
    ensures |r| == |values| && forall i :: 0 <= i < |values| ==> r[i] == [Quote] + values[i] + [Quote]
  {
    seq(|values|, i requires 0 <= i < |values| => [Quote] + values[i] + [Quote])
  }

  /** `_checkin_in_list_sql`: the check-in types in parentheses, quoted and comma-separated. */
  function CheckinList(values: seq<string>): string {
    "(" + Join(Quoted(values), ", ") + ")"
  }

  /** `CHECKIN_VALIDOS`. */
  const ConfiguredCheckins: seq<string> := ["Manual", "Manual e GPS"]

  /** The literal of each value. */
  function Literals(values: seq<string>): (r: seq<string>)
    ensures |r| == |values| && forall i :: 0 <= i < |values| ==> r[i] == Literal(values[i])
  {
    seq(|values|, i requires 0 <= i < |values| => Literal(values[i]))
  }

  /** `ge_in` and `rede_in`: each name escaped and quoted, comma-separated. */
  function LiteralList(values: seq<string>): string {
    Join(Literals(values), ", ")
  }

  /** Reads a comma-separated list of string literals. */
  function ReadList(t: string): Option<seq<string>>
    decreases |t|
  {
    if t == [] || t[0] != Quote then None
    else
      match ReadLiteral(t[1..])
      case None => None
      case Some(p) =>
        if p.1 == [] then Some([p.0])
        else if |p.1| >= 2 && p.1[..2] == ", " then
          match ReadList(p.1[2..])
          case None => None
          case Some(vs) => Some([p.0] + vs)
        else None
  }

  /** A non-empty list of escaped names reads back as the names, in order. */
  lemma {:induction false} LiteralListReadsBack(values: seq<string>)
    requires |values| >= 1
    ensures ReadList(LiteralList(values)) == Some(values)
  {
    var t := LiteralList(values);
    var v := values[0];
    if |values| == 1 {
      assert t == Literal(v);
      assert t[1..] == Escape(v) + [Quote] + [];
      ReadEscaped(v, []);
      assert values == [v];
    } else {
      var more := LiteralList(values[1..]);
      assert Literals(values)[1..] == Literals(values[1..]);
      assert t == Literal(v) + ", " + more;
      assert t[1..] == Escape(v) + [Quote] + (", " + more);
      ReadEscaped(v, ", " + more);
      assert (", " + more)[2..] == more;
      LiteralListReadsBack(values[1..]);
      assert values == [v] + values[1..];
    }
  }

  /** Without quotes in the values, quoting them needs no escaping. */
  lemma QuotedIsLiterals(values: seq<string>)
    requires forall i, k :: 0 <= i < |values| && 0 <= k < |values[i]| ==> values[i][k] != Quote
    ensures Quoted(values) == Literals(values)
  {
    forall i | 0 <= i < |values| ensures Quoted(values)[i] == Literals(values)[i] {
      assert forall k :: 0 <= k < |values[i]| ==> values[i][k] != Quote;
    }
  }

  /**
   * The check-in list is "(" and ")" around the values as literals, which read
   * back in order, as long as no value holds a quote (the list is not escaped).
   */
  lemma CheckinListReadsBack(values: seq<string>)
    requires |values| >= 1
    requires forall i, k :: 0 <= i < |values| && 0 <= k < |values[i]| ==> values[i][k] != Quote
    ensures var t := CheckinList(values);
            |t| >= 2 && t[0] == '(' && t[|t| - 1] == ')' && ReadList(t[1..|t| - 1]) == Some(values)
  {
    QuotedIsLiterals(values);
    var inner := LiteralList(values);
    assert CheckinList(values) == "(" + inner + ")";
    assert CheckinList(values)[1..|CheckinList(values)| - 1] == inner;
    LiteralListReadsBack(values);
  }

  /** The configured check-in types render as `('Manual', 'Manual e GPS')`. */
  lemma ConfiguredCheckinList()
    ensures CheckinList(ConfiguredCheckins) == "('Manual', 'Manual e GPS')"
  {
    var q := Quoted(ConfiguredCheckins);
    assert q[0] == "'Manual'" && q[1] == "'Manual e GPS'";
    assert q == ["'Manual'", "'Manual e GPS'"];
    assert Join(q, ", ") == "'Manual'" + ", " + Join(q[1..], ", ");
  }

  // ----- `unidades_importantes_sql` -----

  /** The two kinds of important unit: economic groups and retail chains. */
  datatype UnitSource = Grupos | Redes

  /** The query `unidades_importantes_sql` builds: the fixed zero-row query, or a union of parts. */
  datatype UnitsQuery = ZeroRows | UnionOf(parts: seq<UnitSource>)

  function UnitsQueryOf(includeGrupos: bool, includeRedes: bool): UnitsQuery {
    if !includeGrupos && !includeRedes then ZeroRows
    else UnionOf((if includeGrupos then [Grupos] else []) + (if includeRedes then [Redes] else []))
  }

  /**
   * Both flags off give the zero-row query; otherwise the union has the groups
   * part exactly when asked for, the chains part exactly when asked for, each at
   * most once and the groups first.
   */
  lemma UnitsQueryParts(includeGrupos: bool, includeRedes: bool)
    ensures UnitsQueryOf(includeGrupos, includeRedes).ZeroRows? <==> !includeGrupos && !includeRedes
    ensures var q := UnitsQueryOf(includeGrupos, includeRedes);
            q.UnionOf? ==>
              && (Grupos in q.parts <==> includeGrupos)
              && (Redes in q.parts <==> includeRedes)
              && 1 <= |q.parts| <= 2
              && (forall i, j :: 0 <= i < j < |q.parts| ==> q.parts[i] == Grupos && q.parts[j] == Redes)
  {
  }

  /** The text between the union's parts. */
  const UnionSeparator := "\n\n    UNION ALL\n\n"

  /** The fixed query that returns no rows, with the columns of the real one. */
  const ZeroRowQuery := "SELECT TOP 0 '' AS unidade, CAST(NULL AS DECIMAL(10,2)) AS aderencia_pct, 0 AS visitas_feitas, 0 AS visitas_planejadas"

  /** `union_sql`: the parts' texts joined by the separator. */
  function UnionText(parts: seq<UnitSource>, gruposText: string, redesText: string): string {
    Join(seq(|parts|, i requires 0 <= i < |parts| => if parts[i] == Grupos then gruposText else redesText), UnionSeparator)
  }

  /** One part is its text alone; two parts are the groups' text, the separator and the chains' text. */
  lemma UnionTextShape(includeGrupos: bool, includeRedes: bool, gruposText: string, redesText: string)
    requires includeGrupos || includeRedes
    ensures var t := UnionText(UnitsQueryOf(includeGrupos, includeRedes).parts, gruposText, redesText);
            t == if includeGrupos && includeRedes then gruposText + UnionSeparator + redesText
                 else if includeGrupos then gruposText
                 else redesText
  {
    var parts := UnitsQueryOf(includeGrupos, includeRedes).parts;
    var texts := seq(|parts|, i requires 0 <= i < |parts| => if parts[i] == Grupos then gruposText else redesText);
    if includeGrupos && includeRedes {
      assert texts == [gruposText, redesText];
      assert texts[1..] == [redesText];
    } else if includeGrupos {
      assert texts == [gruposText];
    } else {
      assert texts == [redesText];
    }
  }

  /** `grupo_rede_month_sql`: groups and chains. */
  function GroupsAndChainsQuery(): (q: UnitsQuery)
    ensures q == UnionOf([Grupos, Redes])
  {
    assert [Grupos] + [Redes] == [Grupos, Redes];
    UnitsQueryOf(true, true)
  }

  /** `grupos_importantes_sql`: groups only. */
  function GroupsQuery(): (q: UnitsQuery)
    ensures q == UnionOf([Grupos])
  {
    assert [Grupos] + [] == [Grupos];
    UnitsQueryOf(true, false)
  }

  /** `redes_importantes_sql`: chains only. */
  function ChainsQuery(): (q: UnitsQuery)
    ensures q == UnionOf([Redes])
  {
    assert [] + [Redes] == [Redes];
    UnitsQueryOf(false, true)
  }
}

=== FILE: text.dfy ===
/**
 * Character and string helpers shared by the whole model: Python's `str.strip`,
 * ASCII case folding, digit filtering, decimal numerals in both directions, and the
 * code-point order Python uses to compare strings.
 */
module Text {
  import opened Wrappers

  /** Python's `str.isspace`: the characters `str.strip()` removes. */
  predicate IsSpace(c: char) {
    ('\t' <= c <= '\r') || ('\U{1C}' <= c <= '\U{1F}') || c == ' '
    || c == '\U{85}' || c == '\U{A0}' || c == '\U{1680}'
    || ('\U{2000}' <= c <= '\U{200A}')
    || c == '\U{2028}' || c == '\U{2029}' || c == '\U{202F}' || c == '\U{205F}' || c == '\U{3000}'
  }

  predicate IsDigit(c: char) {
    '0' <= c <= '9'
  }

  predicate AllDigits(s: string) {
    forall i :: 0 <= i < |s| ==> IsDigit(s[i])
  }

  function TrimLeft(s: string): (r: string)
    ensures |r| <= |s| && r == s[|s| - |r|..]
    ensures r == [] || !IsSpace(r[0])
    ensures forall i :: 0 <= i < |s| - |r| ==> IsSpace(s[i])
  {
    if |s| > 0 && IsSpace(s[0]) then TrimLeft(s[1..]) else s
  }

  function TrimRight(s: string): (r: string)
    ensures |r| <= |s| && r == s[..|r|]
    ensures r == [] || !IsSpace(r[|r| - 1])
    ensures forall i :: |r| <= i < |s| ==> IsSpace(s[i])
  {
    if |s| > 0 && IsSpace(s[|s| - 1]) then TrimRight(s[..|s| - 1]) else s
  }

  /** Python's `s.strip()`: leading and trailing whitespace removed. */
  function Strip(s: string): (r: string)
    ensures r == [] || (!IsSpace(r[0]) && !IsSpace(r[|r| - 1]))
    ensures |r| <= |s|
    ensures (forall i :: 0 <= i < |s| ==> !IsSpace(s[i])) ==> r == s
  {
    TrimRight(TrimLeft(s))
  }

  /** Stripping a string that neither starts nor ends with whitespace changes nothing. */
  lemma StripNoop(s: string)
    requires s == [] || (!IsSpace(s[0]) && !IsSpace(s[|s| - 1]))
    ensures Strip(s) == s
  {
  }

  function LowerChar(c: char): char {
    if 'A' <= c <= 'Z' then (c as int + 32) as char else c
  }

  /** ASCII model of Python's `str.lower` / `str.casefold`. */
  function Lower(s: string): (r: string)
    ensures |r| == |s|
    ensures forall i :: 0 <= i < |s| ==> r[i] == LowerChar(s[i])
  {
    if |s| == 0 then [] else [LowerChar(s[0])] + Lower(s[1..])
  }

  /** The characters of `s` that are not in `drop`, in order (a chain of `replace(c, "")`). */
  function Without(s: string, drop: set<char>): (r: string)
    ensures |r| <= |s|
    ensures forall i :: 0 <= i < |r| ==> r[i] !in drop
    ensures (forall i :: 0 <= i < |s| ==> s[i] !in drop) ==> r == s
  {
    if s == [] then []
    else
      (if s[0] in drop then [] else [s[0]]) + Without(s[1..], drop)
  }

  lemma {:induction false} WithoutAppend(a: string, b: string, drop: set<char>)
    ensures Without(a + b, drop) == Without(a, drop) + Without(b, drop)
  {
    if a == [] {
      assert a + b == b;
    } else {
      assert (a + b)[0] == a[0] && (a + b)[1..] == a[1..] + b;
      WithoutAppend(a[1..], b, drop);
    }
  }

  /** `"".join(ch for ch in s if ch.isdigit())`. */
  function DigitsOf(s: string): (r: string)
    ensures AllDigits(r) && |r| <= |s|
    ensures AllDigits(s) ==> r == s
  {
    if s == [] then []
    else (if IsDigit(s[0]) then [s[0]] else []) + DigitsOf(s[1..])
  }

  lemma {:induction false} DigitsOfAppend(a: string, b: string)
    ensures DigitsOf(a + b) == DigitsOf(a) + DigitsOf(b)
  {
    if a == [] {
      assert a + b == b;
    } else {
      assert (a + b)[0] == a[0] && (a + b)[1..] == a[1..] + b;
      DigitsOfAppend(a[1..], b);
    }
  }

  lemma {:induction false} DigitsOfSpaces(s: string)
    requires forall i :: 0 <= i < |s| ==> IsSpace(s[i])
    ensures DigitsOf(s) == []
  {
    if s != [] {
      DigitsOfSpaces(s[1..]);
    }
  }

  /** Stripping whitespace loses no digit. */
  lemma DigitsOfStrip(s: string)
    ensures DigitsOf(Strip(s)) == DigitsOf(s)
  {
    DigitsOfTrimLeft(s);
    DigitsOfTrimRight(TrimLeft(s));
  }

  lemma DigitsOfTrimLeft(s: string)
    ensures DigitsOf(TrimLeft(s)) == DigitsOf(s)
  {
    var l := TrimLeft(s);
    var head := s[..|s| - |l|];
    assert s == head + l;
    DigitsOfAppend(head, l);
    DigitsOfSpaces(head);
  }

  lemma DigitsOfTrimRight(s: string)
    ensures DigitsOf(TrimRight(s)) == DigitsOf(s)
  {
    var r := TrimRight(s);
    var tail := s[|r|..];
    assert s == r + tail;
    DigitsOfAppend(r, tail);
    DigitsOfSpaces(tail);
  }

  /** Stripping cannot bring in a character its input lacks. */
  lemma StripKeepsAbsent(s: string, drop: set<char>)
    requires forall i :: 0 <= i < |s| ==> s[i] !in drop
    ensures forall i :: 0 <= i < |Strip(s)| ==> Strip(s)[i] !in drop
  {
    TrimLeftKeepsAbsent(s, drop);
    TrimRightKeepsAbsent(TrimLeft(s), drop);
  }

  lemma TrimLeftKeepsAbsent(s: string, drop: set<char>)
    requires forall i :: 0 <= i < |s| ==> s[i] !in drop
    ensures forall i :: 0 <= i < |TrimLeft(s)| ==> TrimLeft(s)[i] !in drop
  {
    var r := TrimLeft(s);
    forall i | 0 <= i < |r| ensures r[i] !in drop {
      assert r[i] == s[|s| - |r| + i];
    }
  }

  lemma TrimRightKeepsAbsent(s: string, drop: set<char>)
    requires forall i :: 0 <= i < |s| ==> s[i] !in drop
    ensures forall i :: 0 <= i < |TrimRight(s)| ==> TrimRight(s)[i] !in drop
  {
    var r := TrimRight(s);
    forall i | 0 <= i < |r| ensures r[i] !in drop {
      assert r[i] == s[i];
    }
  }

  predicate StartsWith(s: string, prefix: string) {
    |prefix| <= |s| && s[..|prefix|] == prefix
  }

  predicate EndsWith(s: string, suffix: string) {
    |suffix| <= |s| && s[|s| - |suffix|..] == suffix
  }

  lemma PrefixOfConcat(a: string, b: string)
    ensures StartsWith(a + b, a)
  {
    assert (a + b)[..|a|] == a;
  }

  lemma SuffixOfConcat(a: string, b: string)
    ensures EndsWith(a + b, b)
  {
    assert (a + b)[|a|..] == b;
  }

  lemma PrefixTransitive(s: string, t: string, u: string)
    requires StartsWith(s, t) && StartsWith(t, u)
    ensures StartsWith(s, u)
  {
    assert s[..|u|] == s[..|t|][..|u|];
  }

  lemma SuffixTransitive(s: string, t: string, u: string)
    requires EndsWith(s, t) && EndsWith(t, u)
    ensures EndsWith(s, u)
  {
    assert s[|s| - |u|..] == s[|s| - |t|..][|t| - |u|..];
  }

  /** Python's `sep.join(parts)`. */
  function Join(parts: seq<string>, sep: string): (r: string)
    ensures |parts| == 1 ==> r == parts[0]
  {
    if |parts| == 0 then ""
    else if |parts| == 1 then parts[0]
    else parts[0] + sep + Join(parts[1..], sep)
  }

  /** The first index of `c` in `s`, or `|s|` when it does not occur. */
  function IndexOf(s: string, c: char): (k: nat)
    ensures k <= |s| && (k < |s| ==> s[k] == c)
    ensures forall i :: 0 <= i < k ==> s[i] != c
  {
    if s == [] then 0 else if s[0] == c then 0 else 1 + IndexOf(s[1..], c)
  }

  lemma {:induction false} IndexOfAbsent(s: string, c: char)
    requires forall i :: 0 <= i < |s| ==> s[i] != c
    ensures IndexOf(s, c) == |s|
  {
    if s != [] {
      IndexOfAbsent(s[1..], c);
    }
  }

  lemma IndexOfAfterPrefix(a: string, c: char, b: string)
    requires IndexOf(a, c) == |a|
    ensures IndexOf(a + [c] + b, c) == |a|
  {
    var s := a + [c] + b;
    var k := IndexOf(s, c);
    assert s[|a|] == c;
  }

  /** The lines of a text whose every line ends in a newline. */
  function SplitLines(s: string): (r: seq<string>)
    ensures forall i :: 0 <= i < |r| ==> '\n' !in r[i]
    decreases |s|
  {
    if s == [] then []
    else
      var k := IndexOf(s, '\n');
      assert '\n' !in s[..k];
      if k == |s| then [s] else [s[..k]] + SplitLines(s[k + 1..])
  }

  /** Joining lines with newlines and ending the text with one gives back those lines. */
  lemma {:induction false} SplitJoinedLines(lines: seq<string>)
    requires |lines| >= 1
    requires forall i :: 0 <= i < |lines| ==> '\n' !in lines[i]
    ensures SplitLines(Join(lines, "\n") + "\n") == lines
  {
    var s := Join(lines, "\n") + "\n";
    IndexOfAbsent(lines[0], '\n');
    if |lines| == 1 {
      assert s == lines[0] + ['\n'] + [];
      IndexOfAfterPrefix(lines[0], '\n', []);
      assert s[|lines[0]| + 1..] == [];
      assert s[..|lines[0]|] == lines[0];
    } else {
      var rest := Join(lines[1..], "\n") + "\n";
      assert s == lines[0] + ['\n'] + rest;
      IndexOfAfterPrefix(lines[0], '\n', rest);
      assert s[|lines[0]| + 1..] == rest;
      assert s[..|lines[0]|] == lines[0];
      SplitJoinedLines(lines[1..]);
    }
  }

  /** A join starts with the first part when that is not empty. */
  lemma JoinFirst(parts: seq<string>, sep: string)
    requires |parts| >= 1 && |parts[0]| >= 1
    ensures var j := Join(parts, sep); |j| >= 1 && j[0] == parts[0][0]
  {
  }

  /** A join ends with the last part when that is not empty. */
  lemma {:induction false} JoinLast(parts: seq<string>, sep: string)
    requires |parts| >= 1 && |parts[|parts| - 1]| >= 1
    ensures var j := Join(parts, sep);
            |j| >= 1 && j[|j| - 1] == parts[|parts| - 1][|parts[|parts| - 1]| - 1]
  {
    if |parts| > 1 {
      var tail := parts[1..];
      assert tail[|tail| - 1] == parts[|parts| - 1];
      JoinLast(tail, sep);
    }
  }

  /** `"\n".join(lines).strip() + "\n"`: a text of lines closed by one newline. */
  function JoinLines(lines: seq<string>): string {
    Strip(Join(lines, "\n")) + "\n"
  }

  /** A text whose last character is a newline and whose last line is not empty. */
  predicate EndsInOneNewline(t: string) {
    |t| >= 2 && t[|t| - 1] == '\n' && t[|t| - 2] != '\n'
  }

  /**
   * Lines a text can be made of and read back from: at least one, none holding a
   * newline, the first not starting with whitespace and the last not ending with it.
   */
  predicate CleanLines(lines: seq<string>) {
    && |lines| >= 1
    && |lines[0]| >= 1 && !IsSpace(lines[0][0])
    && |lines[|lines| - 1]| >= 1 && !IsSpace(lines[|lines| - 1][|lines[|lines| - 1]| - 1])
    && forall i :: 0 <= i < |lines| ==> '\n' !in lines[i]
  }

  /**
   * `JoinLines(lines)` reads back as `lines` when no line holds a newline, the
   * first does not start with whitespace and the last does not end with it: the
   * strip then removes nothing.
   */
  lemma StrippedJoinReadsBack(lines: seq<string>)
    requires CleanLines(lines)
    ensures SplitLines(JoinLines(lines)) == lines
  {
    JoinNeedsNoStrip(lines);
    SplitJoinedLines(lines);
  }

  /** Under the same conditions `JoinLines(lines)` ends in exactly one newline. */
  lemma JoinLinesEnd(lines: seq<string>)
    requires CleanLines(lines)
    ensures EndsInOneNewline(JoinLines(lines))
  {
    JoinNeedsNoStrip(lines);
    JoinLastNotNewline(lines);
    var j := Join(lines, "\n");
    assert (j + "\n")[|j| - 1] == j[|j| - 1];
  }

  lemma JoinLastNotNewline(lines: seq<string>)
    requires |lines| >= 1
    requires |lines[|lines| - 1]| >= 1
    requires forall i :: 0 <= i < |lines| ==> '\n' !in lines[i]
    ensures var t := Join(lines, "\n"); |t| >= 1 && t[|t| - 1] != '\n'
  {
    JoinLast(lines, "\n");
    var last := lines[|lines| - 1];
    assert last[|last| - 1] in last;
  }

  /** The strip in `JoinLines` removes nothing when the joined text has no whitespace at its ends. */
  lemma JoinNeedsNoStrip(lines: seq<string>)
    requires |lines| >= 1
    requires |lines[0]| >= 1 && !IsSpace(lines[0][0])
    requires |lines[|lines| - 1]| >= 1 && !IsSpace(lines[|lines| - 1][|lines[|lines| - 1]| - 1])
    ensures JoinLines(lines) == Join(lines, "\n") + "\n"
  {
    var j := Join(lines, "\n");
    JoinFirst(lines, "\n");
    JoinLast(lines, "\n");
    StripNoop(j);
  }

  // ----- decimal numerals -----

  function DigitChar(d: nat): (c: char)
    requires d < 10
    ensures IsDigit(c)
  {
    ('0' as int + d) as char
  }

  function DigitValue(c: char): (d: nat)
    requires IsDigit(c)
    ensures d < 10 && DigitChar(d) == c
  {
    c as int - '0' as int
  }

  /** Python's `str(n)` for a non-negative integer: no sign, no leading zeros. */
  function NatToString(n: nat): (r: string)
    ensures |r| >= 1 && AllDigits(r)
    ensures |r| > 1 ==> r[0] != '0'
    ensures '\n' !in r
  {
    if n < 10 then [DigitChar(n)] else NatToString(n / 10) + [DigitChar(n % 10)]
  }

  /** The value of a string of decimal digits, most significant first. */
  function DigitsValue(s: string): nat
    requires AllDigits(s)
  {
    if |s| == 0 then 0 else DigitsValue(s[..|s| - 1]) * 10 + DigitValue(s[|s| - 1])
  }

  /** Reading back a rendered natural number gives that number. */
  lemma {:induction false} NatToStringRoundTrip(n: nat)
    ensures DigitsValue(NatToString(n)) == n
  {
    var r := NatToString(n);
    if n >= 10 {
      NatToStringRoundTrip(n / 10);
      assert r[..|r| - 1] == NatToString(n / 10);
    }
  }

  /** Python's `str(i)` for any integer. */
  function IntToString(i: int): (r: string)
    ensures |r| >= 1
    ensures i < 0 <==> r[0] == '-'
    ensures '\n' !in r && IsDigit(r[|r| - 1])
  {
    if i < 0 then "-" + NatToString(-i) else NatToString(i)
  }

  /**
   * Python's `int(s)` on a string: surrounding whitespace is ignored, then an optional
   * sign and one or more decimal digits. Anything else raises, modelled as `None`.
   */
  function ParseInt(s: string): (r: Option<int>)
    ensures r.Some? ==> |Strip(s)| > 0 && IsDigit(Strip(s)[|Strip(s)| - 1])
  {
    var t := Strip(s);
    if |t| > 0 && (t[0] == '-' || t[0] == '+') then
      var body := t[1..];
      if |body| > 0 && AllDigits(body) then
        assert t[1..] == body;
        Some(if t[0] == '-' then -(DigitsValue(body) as int) else DigitsValue(body))
      else None
    else if |t| > 0 && AllDigits(t) then
      assert t[0..] == t;
      Some(DigitsValue(t))
    else None
  }

  /** Parsing what `IntToString` renders gives back the integer. */
  lemma IntToStringRoundTrip(i: int)
    ensures ParseInt(IntToString(i)) == Some(i)
  {
    var r := IntToString(i);
    var m := if i < 0 then -i else i;
    NatToStringRoundTrip(m);
    var d := NatToString(m);
    assert !IsSpace(r[0]) && !IsSpace(r[|r| - 1]) by {
      assert IsDigit(d[|d| - 1]);
      assert r[|r| - 1] == d[|d| - 1];
    }
    StripNoop(r);
    if i < 0 {
      assert r[1..] == d;
    }
  }

  // ----- Python's string order -----

  /** `a <= b` for Python strings: lexicographic by code point, a proper prefix first. */
  predicate LexLe(a: string, b: string) {
    |a| == 0 || (|b| > 0 && (a[0] < b[0] || (a[0] == b[0] && LexLe(a[1..], b[1..]))))
  }

  lemma {:induction false} LexLeTotal(a: string, b: string)
    ensures LexLe(a, b) || LexLe(b, a)
  {
    if |a| > 0 && |b| > 0 && a[0] == b[0] {
      LexLeTotal(a[1..], b[1..]);
    }
  }

  lemma {:induction false} LexLeTransitive(a: string, b: string, c: string)
    requires LexLe(a, b) && LexLe(b, c)
    ensures LexLe(a, c)
  {
    if |a| > 0 && |b| > 0 && |c| > 0 && a[0] == b[0] && b[0] == c[0] {
      LexLeTransitive(a[1..], b[1..], c[1..]);
    }
  }

  lemma {:induction false} LexLeAntisymmetric(a: string, b: string)
    requires LexLe(a, b) && LexLe(b, a)
    ensures a == b
  {
    if |a| > 0 && |b| > 0 {
      LexLeAntisymmetric(a[1..], b[1..]);
      assert a == [a[0]] + a[1..] && b == [b[0]] + b[1..];
    }
  }
}

=== FILE: visits.dfy ===
/**
 * What the adherence queries of merchan_queries.py compute, stated over the
 * visit records rather than as SQL text: which visits count, how a set of
 * visits becomes the three figures, and how the area queries group them.
 */
module Visits {
  import opened Wrappers
  import opened Text
  import opened Calendar
  import opened Period
  import opened Metric
  import AreaOrder
  import Messages
  import Planning

  /** One row of the visit-monitoring table, with the columns the queries read. */
  datatype Visit = Visit(
    id: Option<int>,            // visitaid
    checkin: Option<string>,    // tipocheckin
    date: Day,                  // the calendar day of DataVisita
    offRoute: Option<string>,   // ForaDoRoteiro
    leader: string,             // ColaboradorSuperior
    collaborator: string)       // Colaborador

  // ----- the off-route filter -----

  /** SQL's `LTRIM`: leading spaces removed (only the space character). */
  function LTrim(s: string): (r: string)
    ensures |r| <= |s| && r == s[|s| - |r|..]
    ensures r == [] || r[0] != ' '
    ensures forall i :: 0 <= i < |s| - |r| ==> s[i] == ' '
  {
    if |s| > 0 && s[0] == ' ' then LTrim(s[1..]) else s
  }

  /** SQL's `RTRIM`: trailing spaces removed (only the space character). */
  function RTrim(s: string): (r: string)
    ensures |r| <= |s| && r == s[..|r|]
    ensures r == [] || r[|r| - 1] != ' '
    ensures forall i :: |r| <= i < |s| ==> s[i] == ' '
  {
    if |s| > 0 && s[|s| - 1] == ' ' then RTrim(s[..|s| - 1]) else s
  }

  /**
   * How `Latin1_General_CI_AI` sees a character when comparing with "Nao":
   * case is ignored, and so are the accents on a, o and n.
   */
  function FoldChar(c: char): char {
    if 'A' <= c <= 'Z' then LowerChar(c)
    else if '\U{C0}' <= c <= '\U{C5}' || '\U{E0}' <= c <= '\U{E5}' then 'a'
    else if '\U{D2}' <= c <= '\U{D6}' || '\U{F2}' <= c <= '\U{F6}' then 'o'
    else if c == '\U{D1}' || c == '\U{F1}' then 'n'
    else c
  }

  function Fold(s: string): string {
    seq(|s|, i requires 0 <= i < |s| => FoldChar(s[i]))
  }

  /** Equality under the case- and accent-insensitive collation. */
  predicate SameUnderCollation(a: string, b: string) {
    Fold(a) == Fold(b)
  }

  /** `ISNULL(ForaDoRoteiro, 'Não')`'s stand-in for a missing value. */
  const NaoText := "N\U{E3}o"

  /** The off-route predicate: a missing value counts as "Não"; "Não" in any case or accent, padded by spaces, keeps the visit. */
  predicate OnRoute(offRoute: Option<string>) {
    SameUnderCollation(LTrim(RTrim(offRoute.GetOr(NaoText))), "Nao")
  }

  /** The spellings of each letter the collation takes for n, a and o. */
  predicate IsN(c: char) { c == 'n' || c == 'N' || c == '\U{F1}' || c == '\U{D1}' }
  predicate IsA(c: char) { c == 'a' || c == 'A' || '\U{C0}' <= c <= '\U{C5}' || '\U{E0}' <= c <= '\U{E5}' }
  predicate IsO(c: char) { c == 'o' || c == 'O' || '\U{D2}' <= c <= '\U{D6}' || '\U{F2}' <= c <= '\U{F6}' }

  /** A string the collation takes for "Nao": three letters, an n, an a and an o, each in any case or accent. */
  predicate NaoSpelling(t: string) {
    |t| == 3 && IsN(t[0]) && IsA(t[1]) && IsO(t[2])
  }

  lemma FoldCharLetters(c: char)
    ensures FoldChar(c) == 'n' <==> IsN(c)
    ensures FoldChar(c) == 'a' <==> IsA(c)
    ensures FoldChar(c) == 'o' <==> IsO(c)
  {
  }

  /** The folded forms of the collation's "Nao" are exactly its spellings. */
  lemma FoldIsNao(t: string)
    ensures Fold(t) == "nao" <==> NaoSpelling(t)
  {
    var n := "nao";
    if |t| == 3 {
      FoldCharLetters(t[0]);
      FoldCharLetters(t[1]);
      FoldCharLetters(t[2]);
      if NaoSpelling(t) {
        assert Fold(t)[0] == n[0] && Fold(t)[1] == n[1] && Fold(t)[2] == n[2];
        assert Fold(t) == n;
      }
      if Fold(t) == n {
        assert FoldChar(t[0]) == Fold(t)[0] == 'n';
        assert FoldChar(t[1]) == Fold(t)[1] == 'a';
        assert FoldChar(t[2]) == Fold(t)[2] == 'o';
      }
    } else {
      assert |Fold(t)| != |n|;
    }
  }

  /** A visit is on route exactly when its value, without surrounding spaces, spells "Nao". */
  lemma OnRouteSpellings(s: string)
    ensures OnRoute(Some(s)) <==> NaoSpelling(LTrim(RTrim(s)))
  {
    FoldIsNao("Nao");
    FoldIsNao(LTrim(RTrim(s)));
  }

  /** A missing value keeps a visit. */
  lemma OnRouteMissing()
    ensures OnRoute(None)
  {
    var nao: string := NaoText;
    assert LTrim(RTrim(nao)) == nao by {
      assert RTrim(nao) == nao;
      assert LTrim(nao) == nao;
    }
    assert NaoSpelling(nao);
    OnRouteSpellings(nao);
  }

  function Spaces(n: nat): (r: string)
    ensures |r| == n && forall i :: 0 <= i < n ==> r[i] == ' '
  {
    seq(n, _ => ' ')
  }

  lemma {:induction false} RTrimPadded(s: string, m: nat)
    requires s == [] || s[|s| - 1] != ' '
    ensures RTrim(s + Spaces(m)) == s
  {
    if m > 0 {
      assert (s + Spaces(m))[..|s| + m - 1] == s + Spaces(m - 1);
      RTrimPadded(s, m - 1);
    }
  }

  lemma {:induction false} LTrimPadded(n: nat, s: string)
    requires s == [] || s[0] != ' '
    ensures LTrim(Spaces(n) + s) == s
  {
    if n > 0 {
      assert (Spaces(n) + s)[1..] == Spaces(n - 1) + s;
      LTrimPadded(n - 1, s);
    }
  }

  /** Any spelling of "Nao", padded by spaces on either side, keeps a visit. */
  lemma OnRoutePadded(n: nat, t: string, m: nat)
    requires NaoSpelling(t)
    ensures OnRoute(Some(Spaces(n) + t + Spaces(m)))
  {
    var s := Spaces(n) + t + Spaces(m);
    assert s == (Spaces(n) + t) + Spaces(m);
    RTrimPadded(Spaces(n) + t, m);
    LTrimPadded(n, t);
    OnRouteSpellings(s);
  }

  /** A value starting with a tab drops a visit: only spaces are trimmed. */
  lemma TabIsNotTrimmed(s: string)
    ensures !OnRoute(Some(['\t'] + s))
  {
    var v := ['\t'] + s;
    var r := RTrim(v);
    if r != [] {
      assert r[0] == '\t';
      assert LTrim(r) == r;
    }
    OnRouteSpellings(v);
  }

  // ----- which visits count -----

  /** The WHERE clause every adherence query shares: inside the window, on route, not on a holiday. */
  predicate Counted(v: Visit, w: Window, holidays: set<Day>) {
    w.Contains(v.date) && OnRoute(v.offRoute) && v.date !in holidays
  }

  /** The elements of `xs` that satisfy `p`, in order. */
  function Filter<T(==,!new)>(xs: seq<T>, p: T -> bool): (r: seq<T>)
    ensures |r| <= |xs|
    ensures forall x :: x in r <==> x in xs && p(x)
  {
    if xs == [] then []
    else Filter(xs[..|xs| - 1], p) + (if p(xs[|xs| - 1]) then [xs[|xs| - 1]] else [])
  }

  // ----- the three figures -----

  /** The sum of `w` over `xs`. */
  function Count<T>(xs: seq<T>, w: T -> nat): nat {
    if xs == [] then 0 else Count(xs[..|xs| - 1], w) + w(xs[|xs| - 1])
  }

  /** A pointwise smaller weight has a smaller sum. */
  lemma {:induction false} CountMono<T>(xs: seq<T>, w1: T -> nat, w2: T -> nat)
    requires forall k :: 0 <= k < |xs| ==> w1(xs[k]) <= w2(xs[k])
    ensures Count(xs, w1) <= Count(xs, w2)
  {
    if xs != [] {
      CountMono(xs[..|xs| - 1], w1, w2);
    }
  }

  /** A weight of one on every element counts the elements. */
  lemma {:induction false} CountAll<T>(xs: seq<T>, w: T -> nat)
    requires forall k :: 0 <= k < |xs| ==> w(xs[k]) == 1
    ensures Count(xs, w) == |xs|
  {
    if xs != [] {
      CountAll(xs[..|xs| - 1], w);
    }
  }

  /** `CASE WHEN tipocheckin IN (...) THEN 1 ELSE 0 END`: a NULL check-in type is not in the list. */
  function DoneWeight(checkins: seq<string>): Visit -> nat {
    (v: Visit) => if v.checkin.Some? && v.checkin.value in checkins then 1 else 0
  }

  /** What `COUNT(visitaid)` counts: the visits whose id is not NULL. */
  function IdWeight(v: Visit): nat {
    if v.id.Some? then 1 else 0
  }

  /** The nearest integer, halves rounded up. */
  function HalfUp(x: real): (n: nat)
    requires x >= 0.0
    ensures x - 0.5 < n as real <= x + 0.5
  {
    (x + 0.5).Floor
  }

  /**
   * `CAST(x AS DECIMAL(10,2))`: rounded to the nearest hundredth, halves away
   * from zero.
   */
  function RoundCents(x: real): (r: real)
    ensures x - 0.005 <= r <= x + 0.005
    ensures x >= 0.0 ==> r >= 0.0
  {
    if x < 0.0 then -(HalfUp(-x * 100.0) as real / 100.0) else HalfUp(x * 100.0) as real / 100.0
  }

  /** Rounding keeps a percentage between 0 and 100. */
  lemma RoundCentsBounds(x: real)
    requires 0.0 <= x <= 100.0
    ensures 0.0 <= RoundCents(x) <= 100.0
  {
    assert HalfUp(x * 100.0) <= 10000;
  }

  /** `(SUM(...) / NULLIF(COUNT(visitaid), 0)) * 100`, rounded: none when nothing is planned. */
  function Pct(done: nat, planned: nat): (r: Option<real>)
    ensures r.None? <==> planned == 0
  {
    if planned == 0 then None else Some(RoundCents(done as real / planned as real * 100.0))
  }

  /** The three aggregate columns: the done sum is NULL over no visits. */
  datatype Totals = Totals(done: Option<nat>, planned: nat, pct: Option<real>)

  /** The aggregate columns over a group of visits. */
  function TotalsOf(vs: seq<Visit>, checkins: seq<string>): (t: Totals)
    ensures t.done.None? <==> vs == []
    ensures t.done.GetOr(0) == Count(vs, DoneWeight(checkins))
    ensures t.planned == Count(vs, IdWeight)
    ensures t.pct.None? <==> t.planned == 0
  {
    var done := Count(vs, DoneWeight(checkins));
    var planned := Count(vs, IdWeight);
    Totals(if vs == [] then None else Some(done), planned, Pct(done, planned))
  }

  /** With every visit id present, at most the planned visits are done and the percentage lies in [0, 100]. */
  lemma TotalsBounds(vs: seq<Visit>, checkins: seq<string>)
    requires forall k :: 0 <= k < |vs| ==> vs[k].id.Some?
    ensures var t := TotalsOf(vs, checkins);
            && t.planned == |vs|
            && t.done.GetOr(0) <= t.planned
            && (t.pct.Some? ==> 0.0 <= t.pct.value <= 100.0)
  {
    CountAll(vs, IdWeight);
    CountMono(vs, DoneWeight(checkins), IdWeight);
    var t := TotalsOf(vs, checkins);
    if t.planned > 0 {
      var x := t.done.GetOr(0) as real / t.planned as real * 100.0;
      DivAtMostOne(t.done.GetOr(0) as real, t.planned as real);
      RoundCentsBounds(x);
    }
  }

  lemma DivAtMostOne(d: real, p: real)
    requires 0.0 <= d <= p && p > 0.0
    ensures 0.0 <= d / p <= 1.0
  {
  }

  /** A NULL visit id is not planned but may be done: the percentage can pass 100. */
  lemma NullIdsPassHundred()
    ensures var v := Visit(Some(1), Some("Manual"), 0, None, "L", "C");
            var u := Visit(None, Some("Manual"), 0, None, "L", "C");
            TotalsOf([v, u], ["Manual"]).pct == Some(200.0)
  {
    var v := Visit(Some(1), Some("Manual"), 0, None, "L", "C");
    var u := Visit(None, Some("Manual"), 0, None, "L", "C");
    var w := DoneWeight(["Manual"]);
    assert w(v) == 1 && w(u) == 1;
    assert IdWeight(v) == 1 && IdWeight(u) == 0;
    assert [v, u][..1] == [v];
    assert [v][..0] == [];
    assert Count([v], w) == 1 && Count([v], IdWeight) == 1;
    assert Count([v, u], w) == 2;
    assert Count([v, u], IdWeight) == 1;
    assert (200.0 * 100.0 + 0.5).Floor == 20000;
  }

  /** The metric the report reads from these columns: a NULL done sum reads as 0. */
  function MetricOf(t: Totals): AdherenceMetric {
    AdherenceMetric(t.done.GetOr(0), t.planned, t.pct)
  }

  /** The columns as the driver hands them over. */
  function TotalsRow(t: Totals): Row {
    map[DoneKey := if t.done.Some? then VInt(t.done.value) else VNone,
        PlannedKey := VInt(t.planned),
        PctKey := if t.pct.Some? then VReal(t.pct.value) else VNone]
  }

  /** Reading the columns back gives the figures, with a NULL done sum as 0. */
  lemma TotalsRowReadsBack(t: Totals)
    ensures MetricFromRow(TotalsRow(t)) == MetricOf(t)
  {
    KeysDistinct();
  }

  // ----- grouping -----

  /** The distinct keys of `xs`, each at its first appearance (the order of `GROUP BY` output is not modelled). */
  function GroupKeys<T, K(==,!new)>(xs: seq<T>, key: T -> K): (r: seq<K>)
    ensures forall i, j :: 0 <= i < j < |r| ==> r[i] != r[j]
    ensures forall k :: 0 <= k < |xs| ==> key(xs[k]) in r
    ensures forall g :: g in r ==> exists k :: 0 <= k < |xs| && key(xs[k]) == g
  {
    if xs == [] then []
    else
      var rest := GroupKeys(xs[..|xs| - 1], key);
      var g := key(xs[|xs| - 1]);
      if g in rest then rest else rest + [g]
  }

  /** The elements of one group, in order. */
  function Group<T, K(==)>(xs: seq<T>, key: T -> K, g: K): seq<T> {
    if xs == [] then []
    else Group(xs[..|xs| - 1], key, g) + (if key(xs[|xs| - 1]) == g then [xs[|xs| - 1]] else [])
  }

  /** An element's own group is not empty. */
  lemma {:induction false} GroupHas<T, K>(xs: seq<T>, key: T -> K, k: nat)
    requires k < |xs|
    ensures Group(xs, key, key(xs[k])) != []
  {
    if k < |xs| - 1 {
      GroupHas(xs[..|xs| - 1], key, k);
    }
  }

  /** Each key names a non-empty group. */
  lemma KeyHasGroup<T, K(!new)>(xs: seq<T>, key: T -> K, i: nat)
    requires i < |GroupKeys(xs, key)|
    ensures Group(xs, key, GroupKeys(xs, key)[i]) != []
  {
    var g := GroupKeys(xs, key)[i];
    assert g in GroupKeys(xs, key);
    var k :| 0 <= k < |xs| && key(xs[k]) == g;
    GroupHas(xs, key, k);
  }

  /** The sum of `w` over the groups `ks`, group by group. */
  function SumGroups<T, K(==)>(ks: seq<K>, xs: seq<T>, key: T -> K, w: T -> nat): nat {
    if ks == [] then 0 else Count(Group(xs, key, ks[0]), w) + SumGroups(ks[1..], xs, key, w)
  }

  lemma CountSnoc<T>(xs: seq<T>, x: T, w: T -> nat)
    ensures Count(xs + [x], w) == Count(xs, w) + w(x)
  {
    assert (xs + [x])[..|xs|] == xs;
  }

  lemma GroupSnoc<T, K>(xs: seq<T>, x: T, key: T -> K, g: K)
    ensures Group(xs + [x], key, g) == Group(xs, key, g) + (if key(x) == g then [x] else [])
  {
    assert (xs + [x])[..|xs|] == xs;
  }

  lemma {:induction false} SumGroupsEmpty<T, K>(ks: seq<K>, key: T -> K, w: T -> nat)
    ensures SumGroups(ks, [], key, w) == 0
  {
    if ks != [] {
      SumGroupsEmpty(ks[1..], key, w);
    }
  }

  lemma {:induction false} SumGroupsSnoc<T, K>(ks: seq<K>, xs: seq<T>, x: T, key: T -> K, w: T -> nat)
    requires forall i, j :: 0 <= i < j < |ks| ==> ks[i] != ks[j]
    ensures SumGroups(ks, xs + [x], key, w) == SumGroups(ks, xs, key, w) + (if key(x) in ks then w(x) else 0)
  {
    if ks != [] {
      DistinctTail(ks);
      SumGroupsSnoc(ks[1..], xs, x, key, w);
      HeadGroupSnoc(ks, xs, x, key, w);
    }
  }

  /** The tail of a list of distinct keys is distinct and misses the head. */
  lemma DistinctTail<K>(ks: seq<K>)
    requires ks != []
    requires forall i, j :: 0 <= i < j < |ks| ==> ks[i] != ks[j]
    ensures forall i, j :: 0 <= i < j < |ks[1..]| ==> ks[1..][i] != ks[1..][j]
    ensures ks[0] !in ks[1..]
  {
    var rest := ks[1..];
    forall i, j | 0 <= i < j < |rest| ensures rest[i] != rest[j] {
      assert rest[i] == ks[i + 1] && rest[j] == ks[j + 1];
    }
    forall j | 0 <= j < |rest| ensures rest[j] != ks[0] {
      assert rest[j] == ks[j + 1];
    }
  }

  /** Appending one element changes only the group of its own key. */
  lemma HeadGroupSnoc<T, K>(ks: seq<K>, xs: seq<T>, x: T, key: T -> K, w: T -> nat)
    requires ks != []
    ensures Count(Group(xs + [x], key, ks[0]), w) == Count(Group(xs, key, ks[0]), w) + (if key(x) == ks[0] then w(x) else 0)
    ensures key(x) in ks <==> key(x) == ks[0] || key(x) in ks[1..]
  {
    GroupSnoc(xs, x, key, ks[0]);
    var g := Group(xs, key, ks[0]);
    if key(x) == ks[0] {
      CountSnoc(g, x, w);
    } else {
      assert g + [] == g;
    }
    assert ks == [ks[0]] + ks[1..];
  }

  /** Groups that cover every key partition the sum: no element is counted twice or left out. */
  lemma {:induction false} GroupsAddUp<T, K>(ks: seq<K>, xs: seq<T>, key: T -> K, w: T -> nat)
    requires forall i, j :: 0 <= i < j < |ks| ==> ks[i] != ks[j]
    requires forall k :: 0 <= k < |xs| ==> key(xs[k]) in ks
    ensures SumGroups(ks, xs, key, w) == Count(xs, w)
  {
    if xs == [] {
      SumGroupsEmpty(ks, key, w);
    } else {
      var init := xs[..|xs| - 1];
      var x := xs[|xs| - 1];
      assert xs == init + [x];
      GroupsAddUp(ks, init, key, w);
      SumGroupsSnoc(ks, init, x, key, w);
    }
  }

  /** One result row per group: its key and the group's columns. */
  function TotalsFor<K(==)>(ks: seq<K>, vs: seq<Visit>, key: Visit -> K, checkins: seq<string>): (r: seq<(K, Totals)>)
    ensures |r| == |ks|
    ensures forall i :: 0 <= i < |r| ==> r[i] == (ks[i], TotalsOf(Group(vs, key, ks[i]), checkins))
  {
    if ks == [] then [] else [(ks[0], TotalsOf(Group(vs, key, ks[0]), checkins))] + TotalsFor(ks[1..], vs, key, checkins)
  }

  /** `GROUP BY key` with the three aggregate columns. */
  function GroupTotals<K(==,!new)>(vs: seq<Visit>, key: Visit -> K, checkins: seq<string>): seq<(K, Totals)> {
    TotalsFor(GroupKeys(vs, key), vs, key, checkins)
  }

  function PlannedSum<K>(rows: seq<(K, Totals)>): nat {
    if rows == [] then 0 else rows[0].1.planned + PlannedSum(rows[1..])
  }

  function DoneSum<K>(rows: seq<(K, Totals)>): nat {
    if rows == [] then 0 else rows[0].1.done.GetOr(0) + DoneSum(rows[1..])
  }

  lemma {:induction false} TotalsForSums<K>(ks: seq<K>, vs: seq<Visit>, key: Visit -> K, checkins: seq<string>)
    ensures PlannedSum(TotalsFor(ks, vs, key, checkins)) == SumGroups(ks, vs, key, IdWeight)
    ensures DoneSum(TotalsFor(ks, vs, key, checkins)) == SumGroups(ks, vs, key, DoneWeight(checkins))
  {
    if ks != [] {
      TotalsForSums(ks[1..], vs, key, checkins);
      assert TotalsFor(ks, vs, key, checkins)[1..] == TotalsFor(ks[1..], vs, key, checkins);
    }
  }

  /** Every group of the result has at least one visit, so its done sum is not NULL. */
  lemma GroupsNonEmpty<K(!new)>(vs: seq<Visit>, key: Visit -> K, checkins: seq<string>)
    ensures var r := GroupTotals(vs, key, checkins);
            forall i :: 0 <= i < |r| ==> r[i].1.done.Some?
  {
    var ks := GroupKeys(vs, key);
    var r := GroupTotals(vs, key, checkins);
    assert |r| == |ks|;
    forall i | 0 <= i < |r|
      ensures r[i].1.done.Some?
    {
      KeyHasGroup(vs, key, i);
      assert r[i].1 == TotalsOf(Group(vs, key, ks[i]), checkins);
    }
  }

  /** The groups' figures add up to the figures of all the visits. */
  lemma GroupTotalsAddUp<K(!new)>(vs: seq<Visit>, key: Visit -> K, checkins: seq<string>)
    ensures var r := GroupTotals(vs, key, checkins);
            && PlannedSum(r) == TotalsOf(vs, checkins).planned
            && DoneSum(r) == TotalsOf(vs, checkins).done.GetOr(0)
  {
    var ks := GroupKeys(vs, key);
    TotalsForSums(ks, vs, key, checkins);
    GroupsAddUp(ks, vs, key, IdWeight);
    GroupsAddUp(ks, vs, key, DoneWeight(checkins));
  }

  // ----- the queries -----

  /** dimAreaMerchan: each area leader's area, which may be NULL (one row per leader). */
  type AreaMap = map<string, Option<string>>

  /** The tables the queries read, and the configured check-in types. */
  datatype Tables = Tables(visits: seq<Visit>, areas: AreaMap, holidays: set<Day>, checkins: seq<string>)

  /** `dam.area_merchan` after `LEFT JOIN ... ON dam.colaborador_superior = mp.ColaboradorSuperior`. */
  function RawArea(areas: AreaMap, v: Visit): Option<string> {
    if v.leader in areas then areas[v.leader] else None
  }

  /** `ISNULL(dam.area_merchan, 'Não Identificada')`. */
  function AreaLabel(areas: AreaMap, v: Visit): string {
    RawArea(areas, v).GetOr(Messages.Unidentified)
  }

  /** The grouping key of the area queries. */
  function AreaOf(areas: AreaMap): Visit -> Option<string> {
    v => RawArea(areas, v)
  }

  /** The grouping key of the collaborator queries. */
  function CollaboratorName(v: Visit): string {
    v.collaborator
  }

  /** The visits every adherence query aggregates over one window. */
  function Eligible(tb: Tables, w: Window): (r: seq<Visit>)
    ensures forall v :: v in r <==> v in tb.visits && Counted(v, w, tb.holidays)
  {
    Filter(tb.visits, v => Counted(v, w, tb.holidays))
  }

  /** `overall_adherence_sql`: one row of figures over all counted visits. */
  function OverallAdherence(tb: Tables, w: Window): Totals {
    TotalsOf(Eligible(tb, w), tb.checkins)
  }

  /** `area_totals_sql`: one row per area, unmapped leaders falling under NULL. */
  function AreaTotals(tb: Tables, w: Window): seq<(Option<string>, Totals)> {
    GroupTotals(Eligible(tb, w), AreaOf(tb.areas), tb.checkins)
  }

  /** The counted visits whose area, as labelled, is `area`. */
  function InArea(tb: Tables, area: string, w: Window): (r: seq<Visit>)
    ensures forall v :: v in r <==> v in Eligible(tb, w) && AreaLabel(tb.areas, v) == area
  {
    Filter(Eligible(tb, w), v => AreaLabel(tb.areas, v) == area)
  }

  /**
   * Labels compare exactly: a leader stored under "Centro " is not in area "Centro",
   * although SQL Server's `=` pads the shorter text with spaces and matches them.
   */
  lemma PaddedLabelMissed(tb: Tables, w: Window, v: Visit)
    requires v.leader in tb.areas && tb.areas[v.leader] == Some("Centro ")
    ensures v !in InArea(tb, "Centro", w)
  {
    assert AreaLabel(tb.areas, v) == "Centro ";
  }

  /** `area_total_by_area_sql`: the area's rows, grouped by the area as stored. */
  function AreaTotalByArea(tb: Tables, area: string, w: Window): seq<(Option<string>, Totals)> {
    GroupTotals(InArea(tb, area, w), AreaOf(tb.areas), tb.checkins)
  }

  /** The same visits through the INNER JOIN: a leader without a dimAreaMerchan row drops out. */
  function MappedInArea(tb: Tables, area: string, w: Window): (r: seq<Visit>)
    ensures forall v :: v in r <==> v in Eligible(tb, w) && v.leader in tb.areas && AreaLabel(tb.areas, v) == area
  {
    Filter(Eligible(tb, w), (v: Visit) => v.leader in tb.areas && AreaLabel(tb.areas, v) == area)
  }

  /** `area_collaborators_sql`: one row per collaborator of the area's mapped leaders. */
  function AreaCollaborators(tb: Tables, area: string, w: Window): seq<(string, Totals)> {
    GroupTotals(MappedInArea(tb, area, w), CollaboratorName, tb.checkins)
  }

  /** The counted visits of one leader. */
  function OfLeader(tb: Tables, leader: string, w: Window): (r: seq<Visit>)
    ensures forall v :: v in r <==> v in Eligible(tb, w) && v.leader == leader
  {
    Filter(Eligible(tb, w), (v: Visit) => v.leader == leader)
  }

  /** `leader_area_total_sql`: a leader's rows, grouped by area. */
  function LeaderAreaTotal(tb: Tables, leader: string, w: Window): seq<(Option<string>, Totals)> {
    GroupTotals(OfLeader(tb, leader, w), AreaOf(tb.areas), tb.checkins)
  }

  /** `leader_collaborators_sql`: a leader's rows, one per collaborator. */
  function LeaderCollaborators(tb: Tables, leader: string, w: Window): seq<(string, Totals)> {
    GroupTotals(OfLeader(tb, leader, w), CollaboratorName, tb.checkins)
  }

  /** The area rows of a window add up to the overall figures of that window. */
  lemma AreaTotalsAddUp(tb: Tables, w: Window)
    ensures PlannedSum(AreaTotals(tb, w)) == OverallAdherence(tb, w).planned
    ensures DoneSum(AreaTotals(tb, w)) == OverallAdherence(tb, w).done.GetOr(0)
    ensures forall i :: 0 <= i < |AreaTotals(tb, w)| ==> AreaTotals(tb, w)[i].1.done.Some?
  {
    GroupTotalsAddUp(Eligible(tb, w), AreaOf(tb.areas), tb.checkins);
    GroupsNonEmpty(Eligible(tb, w), AreaOf(tb.areas), tb.checkins);
  }

  /** A leader's collaborator rows add up to the leader's own figures. */
  lemma LeaderCollaboratorsAddUp(tb: Tables, leader: string, w: Window)
    ensures PlannedSum(LeaderCollaborators(tb, leader, w)) == TotalsOf(OfLeader(tb, leader, w), tb.checkins).planned
    ensures DoneSum(LeaderCollaborators(tb, leader, w)) == TotalsOf(OfLeader(tb, leader, w), tb.checkins).done.GetOr(0)
  {
    GroupTotalsAddUp(OfLeader(tb, leader, w), CollaboratorName, tb.checkins);
  }

  /** A leader's area rows add up to the leader's own figures, and none of them has a NULL done sum. */
  lemma LeaderAreaTotalAddsUp(tb: Tables, leader: string, w: Window)
    ensures PlannedSum(LeaderAreaTotal(tb, leader, w)) == TotalsOf(OfLeader(tb, leader, w), tb.checkins).planned
    ensures DoneSum(LeaderAreaTotal(tb, leader, w)) == TotalsOf(OfLeader(tb, leader, w), tb.checkins).done.GetOr(0)
    ensures forall i :: 0 <= i < |LeaderAreaTotal(tb, leader, w)| ==> LeaderAreaTotal(tb, leader, w)[i].1.done.Some?
  {
    GroupTotalsAddUp(OfLeader(tb, leader, w), AreaOf(tb.areas), tb.checkins);
    GroupsNonEmpty(OfLeader(tb, leader, w), AreaOf(tb.areas), tb.checkins);
  }

  // ----- what the area loop reads -----

  /** A group whose every element has key `g` is the whole sequence. */
  lemma {:induction false} GroupAll<T, K>(xs: seq<T>, key: T -> K, g: K)
    requires forall k :: 0 <= k < |xs| ==> key(xs[k]) == g
    ensures Group(xs, key, g) == xs
  {
    if xs != [] {
      GroupAll(xs[..|xs| - 1], key, g);
    }
  }

  /** Every row of an area's total carries the area's name in its `area_merchan` column. */
  lemma AreaRowsLabelled(tb: Tables, area: string, w: Window)
    ensures var r := AreaTotalByArea(tb, area, w);
            forall i :: 0 <= i < |r| ==> r[i].0.GetOr(Messages.Unidentified) == area
  {
    var xs := InArea(tb, area, w);
    var ks := GroupKeys(xs, AreaOf(tb.areas));
    forall i | 0 <= i < |ks|
      ensures ks[i].GetOr(Messages.Unidentified) == area
    {
      assert ks[i] in ks;
      var k :| 0 <= k < |xs| && AreaOf(tb.areas)(xs[k]) == ks[i];
      assert xs[k] in xs;
    }
  }

  /** A sequence without repeats drawn from `s` is no longer than `s` is large. */
  lemma {:induction false} DistinctWithin<K>(ks: seq<K>, s: set<K>)
    requires forall i, j :: 0 <= i < j < |ks| ==> ks[i] != ks[j]
    requires forall i :: 0 <= i < |ks| ==> ks[i] in s
    ensures |ks| <= |s|
  {
    if ks != [] {
      DistinctWithin(ks[1..], s - {ks[0]});
    }
  }

  /** Elements that all share one key form one group, or none when there are no elements. */
  lemma OneKey<T, K(!new)>(xs: seq<T>, key: T -> K, g: K)
    requires forall k :: 0 <= k < |xs| ==> key(xs[k]) == g
    ensures GroupKeys(xs, key) == if xs == [] then [] else [g]
  {
    var ks := GroupKeys(xs, key);
    if xs != [] {
      forall i | 0 <= i < |ks|
        ensures ks[i] == g
      {
        assert ks[i] in ks;
      }
      DistinctWithin(ks, {g});
      assert key(xs[0]) in ks;
      assert |ks| == 1 && ks[0] == g;
    }
  }

  /** Elements with two different keys, both present, form exactly two groups. */
  lemma TwoKeys<T, K(!new)>(xs: seq<T>, key: T -> K, g: K, h: K, a: nat, b: nat)
    requires g != h && a < |xs| && b < |xs| && key(xs[a]) == g && key(xs[b]) == h
    requires forall k :: 0 <= k < |xs| ==> key(xs[k]) == g || key(xs[k]) == h
    ensures |GroupKeys(xs, key)| == 2
  {
    var ks := GroupKeys(xs, key);
    forall i | 0 <= i < |ks|
      ensures ks[i] == g || ks[i] == h
    {
      assert ks[i] in ks;
    }
    assert g in ks && h in ks;
    DistinctWithin(ks, {g, h});
  }

  /**
   * For an area other than "Não Identificada" the total is at most one row:
   * none when no visit counts, else the figures of all the area's visits.
   */
  lemma AreaTotalOneRow(tb: Tables, area: string, w: Window)
    requires area != Messages.Unidentified
    ensures var r := AreaTotalByArea(tb, area, w);
            && (r == [] <==> InArea(tb, area, w) == [])
            && (r != [] ==> r == [(Some(area), TotalsOf(InArea(tb, area, w), tb.checkins))])
  {
    var xs := InArea(tb, area, w);
    var key := AreaOf(tb.areas);
    forall k | 0 <= k < |xs|
      ensures key(xs[k]) == Some(area)
    {
      assert xs[k] in xs;
    }
    OneKey(xs, key, Some(area));
    GroupAll(xs, key, Some(area));
  }

  /**
   * "Não Identificada" can come back as two rows: one for visits whose leader
   * has no area, one for an area stored under that very name.
   */
  lemma UnidentifiedTwoRows(tb: Tables, w: Window, a: Visit, b: Visit)
    requires a in Eligible(tb, w) && RawArea(tb.areas, a) == None
    requires b in Eligible(tb, w) && RawArea(tb.areas, b) == Some(Messages.Unidentified)
    ensures |AreaTotalByArea(tb, Messages.Unidentified, w)| == 2
  {
    var xs := InArea(tb, Messages.Unidentified, w);
    var key := AreaOf(tb.areas);
    assert a in xs && b in xs;
    var ka :| 0 <= ka < |xs| && xs[ka] == a;
    var kb :| 0 <= kb < |xs| && xs[kb] == b;
    forall k | 0 <= k < |xs|
      ensures key(xs[k]) == None || key(xs[k]) == Some(Messages.Unidentified)
    {
      assert xs[k] in xs;
    }
    TwoKeys(xs, key, None, Some(Messages.Unidentified), ka, kb);
  }

  /** A visit of a leader missing from dimAreaMerchan counts in the "Não Identificada" total but in no collaborator row. */
  lemma UnmappedLeaderOnlyInTotal(tb: Tables, w: Window, v: Visit)
    requires v in Eligible(tb, w) && v.leader !in tb.areas
    ensures v in InArea(tb, Messages.Unidentified, w)
    ensures v !in MappedInArea(tb, Messages.Unidentified, w)
  {
  }

  /** Two filters that agree on every element give the same result. */
  lemma {:induction false} FilterSame<T(!new)>(xs: seq<T>, p: T -> bool, q: T -> bool)
    requires forall k :: 0 <= k < |xs| ==> p(xs[k]) == q(xs[k])
    ensures Filter(xs, p) == Filter(xs, q)
  {
    if xs != [] {
      FilterSame(xs[..|xs| - 1], p, q);
    }
  }

  /** For an area other than "Não Identificada" the collaborator rows add up to the area's total. */
  lemma AreaCollaboratorsAddUp(tb: Tables, area: string, w: Window)
    requires area != Messages.Unidentified
    ensures PlannedSum(AreaCollaborators(tb, area, w)) == TotalsOf(InArea(tb, area, w), tb.checkins).planned
    ensures DoneSum(AreaCollaborators(tb, area, w)) == TotalsOf(InArea(tb, area, w), tb.checkins).done.GetOr(0)
  {
    var e := Eligible(tb, w);
    FilterSame(e, (v: Visit) => v.leader in tb.areas && AreaLabel(tb.areas, v) == area, v => AreaLabel(tb.areas, v) == area);
    assert MappedInArea(tb, area, w) == InArea(tb, area, w);
    GroupTotalsAddUp(InArea(tb, area, w), CollaboratorName, tb.checkins);
  }

  // ----- the database the area loop talks to -----

  /** An area-total row: the label and the three columns. */
  function AreaRow(e: (Option<string>, Totals)): Row {
    TotalsRow(e.1)[AreaOrder.AreaKey := VText(e.0.GetOr(Messages.Unidentified))]
  }

  /** A collaborator row: the name and the three columns. */
  function CollaboratorRow(e: (string, Totals)): Row {
    TotalsRow(e.1)[Planning.CollaboratorKey := VText(e.0)]
  }

  function AreaRows(r: seq<(Option<string>, Totals)>): (rows: seq<Row>)
    ensures |rows| == |r| && forall i :: 0 <= i < |r| ==> rows[i] == AreaRow(r[i])
  {
    seq(|r|, i requires 0 <= i < |r| => AreaRow(r[i]))
  }

  function CollaboratorRows(r: seq<(string, Totals)>): (rows: seq<Row>)
    ensures |rows| == |r| && forall i :: 0 <= i < |r| ==> rows[i] == CollaboratorRow(r[i])
  {
    seq(|r|, i requires 0 <= i < |r| => CollaboratorRow(r[i]))
  }

  /** What the area loop's two queries return when run against these tables. */
  function DbOf(tb: Tables): Planning.Db {
    (q: Planning.Query) =>
      match q
      case AreaTotal(area, w) => AreaRows(AreaTotalByArea(tb, area, w))
      case AreaCollaborators(area, w) => CollaboratorRows(AreaCollaborators(tb, area, w))
  }
  /** The label column does not disturb the figures. */
  lemma AreaRowReadsBack(e: (Option<string>, Totals))
    ensures MetricFromRow(AreaRow(e)) == MetricOf(e.1)
    ensures AreaOrder.AreaName(AreaRow(e)) == Strip(e.0.GetOr(Messages.Unidentified))
  {
    KeysDistinct();
    assert |AreaOrder.AreaKey| == 12;
  }

  /** The name column reads back as the stripped collaborator name. */
  lemma CollaboratorRowReadsBack(e: (string, Totals))
    ensures MetricFromRow(CollaboratorRow(e)) == MetricOf(e.1)
    ensures Planning.CollaboratorOf(CollaboratorRow(e)) == Strip(e.0)
  {
    KeysDistinct();
    assert |Planning.CollaboratorKey| == 11;
  }

  /**
   * `scalar_metric` over an area's total, for an area other than "Não
   * Identificada", is the figures of all the visits the area's leaders have.
   */
  lemma DbAreaMetric(tb: Tables, area: string, w: Window)
    requires area != Messages.Unidentified
    ensures ScalarMetric(DbOf(tb)(Planning.AreaTotal(area, w))) == MetricOf(TotalsOf(InArea(tb, area, w), tb.checkins))
  {
    AreaTotalOneRow(tb, area, w);
    var r := AreaTotalByArea(tb, area, w);
    if r != [] {
      AreaRowReadsBack(r[0]);
    }
  }

  /** Asking for a listed area's total and reading its name back gives the listed name. */
  lemma DbResolvesListed(tb: Tables, listed: string, w: Window)
    requires listed != [] && Strip(listed) == listed
    ensures Planning.ResolvedArea(listed, DbOf(tb)(Planning.AreaTotal(listed, w))) == listed
  {
    var r := AreaTotalByArea(tb, listed, w);
    var rows := AreaRows(r);
    assert DbOf(tb)(Planning.AreaTotal(listed, w)) == rows;
    AreaRowsLabelled(tb, listed, w);
    if r != [] {
      AreaRowReadsBack(r[0]);
      assert AreaOrder.AreaName(rows[0]) == listed;
    }
  }

  /** Against these tables the area an item reports is the one its leader row lists. */
  lemma ReportedAreaIsListed(tb: Tables, ctx: Planning.AreaContext, row: Row)
    requires ctx.db == DbOf(tb)
    ensures Planning.ReportedArea(ctx, row) == Planning.ListedArea(row)
  {
    var listed := Planning.ListedArea(row);
    StripNoop(listed);
    DbResolvesListed(tb, listed, ctx.dates.dayWindow);
  }

  /** A property holds of every key of a grouping exactly when it holds of every element's key. */
  lemma KeysAll<T, K(!new)>(xs: seq<T>, key: T -> K, p: K -> bool)
    ensures var ks := GroupKeys(xs, key);
            (forall i :: 0 <= i < |ks| ==> p(ks[i])) <==> (forall k :: 0 <= k < |xs| ==> p(key(xs[k])))
  {
    var ks := GroupKeys(xs, key);
    if forall i :: 0 <= i < |ks| ==> p(ks[i]) {
      forall k | 0 <= k < |xs|
        ensures p(key(xs[k]))
      {
        assert key(xs[k]) in ks;
        var i :| 0 <= i < |ks| && ks[i] == key(xs[k]);
        assert p(ks[i]);
      }
    }
    if forall k :: 0 <= k < |xs| ==> p(key(xs[k])) {
      forall i | 0 <= i < |ks|
        ensures p(ks[i])
      {
        assert ks[i] in ks;
        var k :| 0 <= k < |xs| && key(xs[k]) == ks[i];
        assert p(key(xs[k]));
      }
    }
  }

  /** Every key of a grouping is blank exactly when every element's key is. */
  lemma KeysBlank<T>(xs: seq<T>, name: T -> string)
    ensures var ks := GroupKeys(xs, name);
            (forall i :: 0 <= i < |ks| ==> Strip(ks[i]) == "") <==> (forall k :: 0 <= k < |xs| ==> Strip(name(xs[k])) == "")
  {
    KeysAll(xs, name, (s: string) => Strip(s) == "");
  }

  /** The collaborator rows name nobody exactly when every counted visit of the area has a blank collaborator. */
  lemma DbRosterBlank(tb: Tables, area: string, w: Window)
    ensures var rows := DbOf(tb)(Planning.AreaCollaborators(area, w));
            var xs := MappedInArea(tb, area, w);
            (forall k :: 0 <= k < |rows| ==> Planning.CollaboratorOf(rows[k]) == "")
            <==> (forall k :: 0 <= k < |xs| ==> Strip(xs[k].collaborator) == "")
  {
    var xs := MappedInArea(tb, area, w);
    var ks := GroupKeys(xs, CollaboratorName);
    var r := AreaCollaborators(tb, area, w);
    var rows := CollaboratorRows(r);
    assert DbOf(tb)(Planning.AreaCollaborators(area, w)) == rows;
    assert |rows| == |ks|;
    forall k | 0 <= k < |rows|
      ensures Planning.CollaboratorOf(rows[k]) == Strip(ks[k])
    {
      CollaboratorRowReadsBack(r[k]);
    }
    KeysBlank(xs, CollaboratorName);
  }

  /**
   * Against these tables an area leader gets no message exactly when every
   * counted visit of the area, in both the day and the month window, has a
   * blank collaborator name.
   */
  lemma AreaItemUnderDb(tb: Tables, ctx: Planning.AreaContext, row: Row)
    requires ctx.db == DbOf(tb)
    ensures var area := Planning.ListedArea(row);
            Planning.AreaItem(ctx, row).None? <==>
              var day := MappedInArea(tb, area, ctx.dates.dayWindow);
              var month := MappedInArea(tb, area, ctx.dates.monthWindow);
              (forall k :: 0 <= k < |day| ==> Strip(day[k].collaborator) == "")
              && (forall k :: 0 <= k < |month| ==> Strip(month[k].collaborator) == "")
  {
    ReportedAreaIsListed(tb, ctx, row);
    Planning.AreaItemSkipsEmptyRoster(ctx, row);
    DbRosterBlank(tb, Planning.ListedArea(row), ctx.dates.dayWindow);
    DbRosterBlank(tb, Planning.ListedArea(row), ctx.dates.monthWindow);
  }
}

=== FILE: wrappers.dfy ===
/** The optional value used wherever the source has `None`. */
module Wrappers {

  datatype Option<+T> = None | Some(value: T) {

    /** The wrapped value, or `default` when there is none (Python's `x or default`). */
    function GetOr(default: T): T {
      match this
      case Some(v) => v
      case None => default
    }
  }
}
